=== FILE: README.md ===
# Dataset catalogue of the Open Data Cube, modelled in Dafny

This project models the core of the datacube index: the catalogue of datasets,
their locations and lineage, the products and metadata types that describe them,
and the two implementations of one contract. The first is the postgis driver,
whose SQL the model gives as row-set meaning. The second is the in-memory index.

- `common.dfy` (`Common`): optional values, results carrying the catalogue's
  error taxonomy, and JSON documents.
- `ranges.dfy` (`Ranges`): `ranges_overlap` over half-open time ranges, and the
  database's own range-overlap test.
- `uris.dfy` (`Uris`): `_split_uri` and the exact/prefix choice of
  `get_datasets_for_location`.
- `schema.dfy` (`Schema`): the rows of the postgis tables, their keys, the
  word-name check and the uniqueness and foreign-key invariant `Valid`.
- `fields.dfy` (`Fields`): search expressions, the OR compilation of
  `_alchemify_expressions`, the fixed join order of `_join_tables`, and the
  active-field filter.
- `catalogue.dfy` (`Catalogue`): the row-level transitions of the postgis
  driver (insert-if-absent, archive/restore, delete, the location operations)
  and the location listings. Each returns the new state with its result.
- `queries.dfy` (`Queries`): the rows a search yields, counting, duplicate
  grouping and the time-histogram buckets.
- `product_admin.dfy` (`ProductAdmin`): inserting and updating products and
  metadata types, the transaction guard, and the field-builder calls recorded
  as values.
- `memory_datasets.dfy` (`MemoryDatasets`): the in-memory dataset index. It has
  a primary map aliased by an active and an archived map, two lineage maps, and
  per-dataset active and archived location lists.
- `memory_metadata_types.dfy` (`MemoryMetadataTypes`): the in-memory metadata
  type registry and its add / can-update / update decision.
- `resources.dfy` (`Resources`): the concrete glue of the abstract resources:
  `get` wrappers and product search.

Some parts of the model are parameters:
- The clock is a `Time` argument.
- Document validation is a `Json -> bool` argument.
- The document diff and its classifier are the `Differ` pair of functions.
- The field builder (`dynamic.check_dynamic_fields`) is a returned list of call
  records.
- A field's column value is a function from a search row to JSON.

In the memory index, `by_id` shares each dataset object with the active or the
archived map, so archiving or restoring the object changes both. The model has
no objects and writes the change into both maps explicitly.

Serial sequences advance even when an insert is rejected, as in PostgreSQL.
Where this matters, a rejected operation promises "every table unchanged"
(`Catalogue.SameTables`) and not "state unchanged".

## Model

| member | source | states |
|---|---|---|
| Ranges.RangesOverlap | datacube/model/_base.py:10-13 | For non-empty half-open ranges the result is true iff each begins before the other ends. |
| Ranges.OverlapIsSymmetric | datacube/model/_base.py:10-13 | On non-empty ranges the argument order does not change the answer. |
| Ranges.AdjacentRangesDoNotOverlap | datacube/model/_base.py:10-13 | [x, y) and [y, z) do not overlap, in either order. |
| Ranges.NonEmptyRangeOverlapsItself | datacube/model/_base.py:10-13 | A non-empty range overlaps itself. |
| Ranges.RangesOverlapMatchesRangeType | datacube/model/_base.py:10-13 | On non-empty ranges the Python test agrees with PostgreSQL's range overlap (`&&`), which the histogram uses. |
| Ranges.EmptyRangeInsideIsReportedOverlapping | datacube/model/_base.py:10-13 | An empty range strictly inside another is reported overlapping, though the range type says it shares no instant. |
| Uris.FindFrom | datacube/drivers/postgis/_api.py:62-66 | The found index is the first occurrence of the character at or after the start; no index means it does not occur there. |
| Uris.SplitUri | datacube/drivers/postgis/_api.py:62-71 | Succeeds iff the uri holds a ':'; otherwise raises "not a URI". The scheme holds no ':' and scheme + ":" + body is the uri. |
| Uris.SchemePrefixIsUnique | datacube/drivers/postgis/_schema.py:141 | Two colon-free schemes that give the same `uri` column value have the same scheme and body. |
| Uris.SplitInvertsJoin | datacube/drivers/postgis/_schema.py:141 | Splitting the `uri` column of a row with a colon-free scheme gives back its scheme and body. |
| Uris.JoinInvertsSplit | datacube/drivers/postgis/_api.py:62-71 | Joining the parts of a split uri gives back the uri. |
| Uris.ChooseMatchMode | datacube/drivers/postgis/_api.py:271-282 | With no mode, a '#' in the body selects exact matching and anything else prefix; "exact" and "prefix" select their mode; any other mode raises "unsupported query mode". |
| Uris.ExactMatchIsPrefixMatch | datacube/drivers/postgis/_api.py:276-285 | Every body that matches exactly also matches as a prefix. |
| Uris.BodyMatchesIsUriMatch | datacube/drivers/postgis/_api.py:276-291 | Under the scheme's filter, an exact body match is an equal uri and a prefix body match is a uri that starts with the searched one, both ways. |
| Schema.EmptyIsValid | datacube/drivers/postgis/_schema.py:30-159 | The empty catalogue meets every primary key, unique index, word-name check and foreign key of the schema. |
| Schema.UriOfSplits | datacube/drivers/postgis/_schema.py:141 | The `uri` column of a row with a colon-free scheme splits back into that row's scheme and body. |
| Schema.WordNameExcludes | datacube/drivers/postgis/_schema.py:30 | A name passing the `^\w+$` check is non-empty and holds no ':', '/', '-' or space; "ls8_nbar_scene" passes, "ls8-nbar" and the empty name fail. |
| Fields.RawExpr | datacube/drivers/postgis/_api.py:388-391 | A comparison compiles to its own test; an OR node compiles to a disjunction with one term per operand. |
| Fields.RawExprs | datacube/drivers/postgis/_api.py:388-391 | One compiled term per OR operand. |
| Fields.Alchemify | datacube/drivers/postgis/_api.py:387-393 | One compiled term per expression, in order, each the compilation of its expression. |
| Fields.RawExprIsSound | datacube/drivers/postgis/_api.py:388-391 | A compiled expression holds on a row iff the expression holds on it, through any depth of OR nesting. |
| Fields.RawExprsAreSound | datacube/drivers/postgis/_api.py:388-391 | A compiled disjunction holds iff some operand holds. |
| Fields.FilterMeansAllHold | datacube/drivers/postgis/_api.py:417-420 | The WHERE clause accepts a row iff the dataset is not archived and every expression holds on the row. |
| Fields.KeepInOrder | datacube/drivers/postgis/_api.py:570-578 | Keeps exactly the wanted members of the order, still in ascending join rank. |
| Fields.JoinTables | datacube/drivers/postgis/_api.py:566-579 | Exactly the tables of the fixed join order that some expression or field needs, minus the source table. They come in join order with no repeats, never include the source or lineage table, and number at most four. |
| Fields.ActiveFieldNames | datacube/drivers/postgis/_api.py:738-746 | Exactly the names of the fields that are active on the metadata document. |
| Fields.ActiveFieldNamesAppend | datacube/drivers/postgis/_api.py:738-746 | The names come out in field order: those for a concatenation are those of each part in turn. |
| Fields.ActiveFieldNamesSingle | datacube/drivers/postgis/_api.py:738-746 | One field yields its name iff it has an extractor that returns a non-`None` value without raising. |
| Fields.SetupProductFields | datacube/drivers/postgis/_api.py:728-735 | The recorded builder call names the product, carries exactly its active field names, and passes the requested concurrently, rebuild-indexes and rebuild-view flags. |
| Catalogue.InsertDataset | datacube/drivers/postgis/_api.py:185-205 | An unknown product raises a NOT NULL violation and changes nothing. Otherwise the insert reports true iff the id was absent. A true insert adds exactly that active row, and the result keeps the catalogue valid. |
| Catalogue.InsertDatasetTwice | datacube/drivers/postgis/_api.py:185-205 | A second identical insert reports false and leaves the state unchanged. |
| Catalogue.ArchiveDataset | datacube/drivers/postgis/_api.py:318-328 | Reports true iff the dataset exists and is active. Then it stamps only that row; otherwise nothing changes. |
| Catalogue.RestoreDataset | datacube/drivers/postgis/_api.py:330-338 | Reports true iff the dataset exists, and clears its archive time whatever it was. |
| Catalogue.ArchiveRestoreArchive | datacube/drivers/postgis/_api.py:318-338 | Two archives in a row give true then false. A restore in between makes the second archive true again. |
| Catalogue.FilterLocations | datacube/drivers/postgis/_api.py:340-348 | Keeps exactly the rows the condition accepts, and drops none iff it accepts them all. |
| Catalogue.FilterKeepsDistinct | datacube/drivers/postgis/_schema.py:118 | Deleting rows keeps the location keys distinct. |
| Catalogue.InsertLocation | datacube/drivers/postgis/_api.py:225-248 | A colon-free uri raises. Reports true iff the dataset exists and no row has its (dataset, scheme, body) key; a key already taken reports false, and an unknown dataset with a free key raises a foreign-key violation. Only a true insert changes a table, appending one active row with the next location serial, the dataset, the uri's scheme and body, and `added` set to now. Validity is kept. |
| Catalogue.AppendLocationPreservesValid | datacube/drivers/postgis/_schema.py:115-141 | A row with a fresh id, a known dataset and an untaken key keeps the catalogue valid. |
| Catalogue.InsertLocationTwice | datacube/drivers/postgis/_api.py:225-248 | A repeated identical location insert reports false and changes no table. |
| Catalogue.AtMostOneLocationPerKey | datacube/drivers/postgis/_schema.py:118 | In a valid catalogue two rows with the same location key are the same row. |
| Catalogue.SetArchivedPreservesValid | datacube/drivers/postgis/_schema.py:115-141 | Changing archive times keeps the catalogue valid. |
| Catalogue.UpdateLocation | datacube/drivers/postgis/_api.py:818-850 | A colon-free uri raises. Otherwise the result is true iff a row changed, and only the selected row's archive time changes. |
| Catalogue.ArchiveLocation | datacube/drivers/postgis/_api.py:818-833 | Archives only the active row with the uri's key and reports true iff it did. Validity is kept. |
| Catalogue.RestoreLocation | datacube/drivers/postgis/_api.py:835-850 | Restores only the archived row with the uri's key and reports true iff it did. Validity is kept. |
| Catalogue.RemoveLocation | datacube/drivers/postgis/_api.py:800-816 | Deletes the row with the uri's key, archived or not, and reports true iff one was deleted. Every other row is kept. |
| Catalogue.RemoveLocationKeepsValid | datacube/drivers/postgis/_api.py:800-816 | Removing a location keeps the catalogue valid. |
| Catalogue.FilterKeepingAllIsIdentity | datacube/drivers/postgis/_api.py:800-816 | A delete whose condition matches no row leaves the table as it was. |
| Catalogue.InsertLineage | datacube/drivers/postgis/_api.py:306-316 | Raises a unique violation iff the (dataset, classifier) key is free and the source is already linked to the dataset under another classifier. A taken key reports false. Otherwise it reports true and adds exactly that edge. Validity is kept. |
| Catalogue.InsertLineageTwice | datacube/drivers/postgis/_api.py:306-316 | A repeated identical lineage insert reports false and changes nothing. |
| Catalogue.AtMostOneLineageEdge | datacube/drivers/postgis/_schema.py:153-154 | A dataset has at most one edge per classifier and at most one edge per source. |
| Catalogue.DeleteDataset | datacube/drivers/postgis/_api.py:340-356 | Reports true iff the dataset existed. It removes exactly that dataset's locations and lineage edges and the dataset row; every other row stays. |
| Catalogue.DeleteDatasetKeepsValid | datacube/drivers/postgis/_api.py:340-356 | Deleting in dependency order keeps every key and foreign-key constraint of the schema. Lineage edges that name the deleted dataset as their source remain, as `source_dataset_ref` has no foreign key. |
| Catalogue.InsertByRecency | datacube/drivers/postgis/_api.py:774-777 | Inserting a row into a newest-first list gives a newest-first permutation of the list plus the row. |
| Catalogue.NewestFirstCons | datacube/drivers/postgis/_api.py:774-777 | A row at least as new as every row of a newest-first list may lead it. |
| Catalogue.SortByRecency | datacube/drivers/postgis/_api.py:774-777 | The result is a permutation of the input ordered by `added` descending, then id descending. |
| Catalogue.ActiveLocationRows | datacube/drivers/postgis/_schema.py:101-105 | Exactly the dataset's unarchived location rows, each once, newest first. |
| Catalogue.GetLocations | datacube/drivers/postgis/_api.py:764-779 | Exactly the uris of the dataset's active rows, newest first. |
| Catalogue.ArchivedLocationRows | datacube/drivers/postgis/_api.py:781-798 | Exactly the dataset's archived location rows, each as often as in the table, latest `added` first. |
| Catalogue.GetArchivedLocations | datacube/drivers/postgis/_api.py:781-798 | Exactly the (uri, archive time) pairs of the dataset's archived rows, one per row, in the order of the rows latest `added` first. |
| Catalogue.ArchivedPairs | datacube/drivers/postgis/_api.py:781-798 | One (uri, archive time) pair per archived row, and no other pair. |
| Catalogue.UriIdentifiesKey | datacube/drivers/postgis/_schema.py:141 | In a valid catalogue a row carries a uri iff its scheme and body are the uri's split. |
| Catalogue.ArchivedUriIsNotActive | datacube/drivers/postgis/_api.py:818-833 | After a successful archive no active row of the dataset carries the uri. |
| Catalogue.ArchivedUriIsArchived | datacube/drivers/postgis/_api.py:818-833 | After a successful archive the dataset has an archived row with the uri and the archive time. |
| Catalogue.ArchiveLocationMovesUri | datacube/drivers/postgis/_api.py:764-833 | Archiving moves the uri out of `get_locations` and into `get_archived_locations` with the time. |
| Catalogue.AllDatasetIds | datacube/drivers/postgis/_api.py:294-304 | Exactly the ids of the archived datasets, or exactly those of the active ones. |
| Catalogue.AllDatasetIdsPartition | datacube/drivers/postgis/_api.py:294-304 | The archived and active ids are disjoint and together make up the dataset table. |
| Catalogue.GetDatasetsForLocation | datacube/drivers/postgis/_api.py:271-292 | A colon-free uri raises. A bad mode raises. Otherwise yields exactly the rows of locations with the uri's scheme whose body matches in the chosen mode; archived datasets and locations are included. |
| Catalogue.InsertedLocationIsFound | datacube/drivers/postgis/_api.py:225-292 | After a location is inserted, looking its uri up in any accepted mode finds the dataset. |
| Queries.SearchRows | datacube/drivers/postgis/_api.py:396-426 | Exactly the rows of the joined tables that the WHERE clause accepts, one per location when the location table is joined. |
| Queries.UnfilteredSearchIsAllActive | datacube/drivers/postgis/_api.py:417-420 | With no expression, the search finds a dataset iff it is active. |
| Queries.ExtraExpressionNarrows | datacube/drivers/postgis/_api.py:417-420 | One more expression keeps exactly the rows it holds on. |
| Queries.Limit | datacube/drivers/postgis/_api.py:421-423 | Rows of the set with no repeats: all of them, or `limit` of them when the set is larger. |
| Queries.SearchDatasets | datacube/drivers/postgis/_api.py:396-440 | Lineage-aware search fails iff source expressions or source ids are asked for. Otherwise it yields search rows without repeats: `limit` of them when there are more, else every one of them. |
| Queries.CountDatasets | datacube/drivers/postgis/_api.py:490-507 | The count never exceeds the number of datasets. |
| Queries.CountMatchesSearch | datacube/drivers/postgis/_api.py:490-507 | When the expressions need no table but the dataset table, the count is the number of rows the search yields. |
| Queries.RowsOfIdsHaveSameSize | datacube/drivers/postgis/_api.py:490-507 | One row per dataset id: as many rows as ids. |
| Queries.CountAllIsActiveCount | datacube/drivers/postgis/_api.py:490-507 | With no expression, the count is the number of active datasets. |
| Queries.Duplicates | datacube/drivers/postgis/_api.py:469-488 | Groups search rows by their match values, keeping only groups of more than one row. Each group holds exactly the search rows with its value. |
| Queries.DuplicateIffSharedKey | datacube/drivers/postgis/_api.py:469-488 | A search row's value is reported iff another search row shares it. |
| Queries.Series | datacube/drivers/postgis/_api.py:529-531 | The points start, start+p, ... are all the points up to and including `end`; there are none when start is after end. |
| Queries.Bounded | datacube/drivers/postgis/_api.py:542-549 | Exactly the ranges that have an upper bound. |
| Queries.BoundedLead | datacube/drivers/postgis/_api.py:529-549 | Dropping the unbounded range leaves the ranges between consecutive points. |
| Queries.TimeBuckets | datacube/drivers/postgis/_api.py:526-563 | floor((end − start) / p) contiguous buckets of length p from start; none when start is after end. |
| Queries.Periods | datacube/drivers/postgis/_api.py:529-531 | The number of whole periods that fit into a span. |
| Queries.BucketsPartition | datacube/drivers/postgis/_api.py:526-563 | The buckets are in order and disjoint, and every instant of the covered span lies in one of them. |
| Queries.Hits | datacube/drivers/postgis/_api.py:551-563 | Exactly the rows whose time range overlaps the bucket. |
| Queries.CountThroughTime | datacube/drivers/postgis/_api.py:509-563 | One count per bucket, each the number of matching rows whose time overlaps that bucket. |
| Queries.InstantCountedOnce | datacube/drivers/postgis/_api.py:526-563 | A row at one instant of the covered span is counted in exactly one bucket. |
| ProductAdmin.MetadataSection | datacube/drivers/postgis/_api.py:621-622 | The `metadata` member of a definition. A definition without one raises KeyError. |
| ProductAdmin.InsertMetadataType | datacube/drivers/postgis/_api.py:664-676 | Always consumes a serial. A non-word name fails the check. A taken name or id is a unique violation and changes no table. A success adds exactly the new row. |
| ProductAdmin.InsertMetadataTypeKeepsValid | datacube/drivers/postgis/_api.py:664-676 | Inserting a metadata type keeps the catalogue valid. |
| ProductAdmin.NewMetadataTypeHasNoProducts | datacube/drivers/postgis/_api.py:672-676 | A newly inserted metadata type is used by no product, so its field setup makes no builder call. |
| ProductAdmin.SetupMetadataTypeFields | datacube/drivers/postgis/_api.py:715-726 | Exactly one builder call per product of the type, with the rebuild flags. A product without a metadata section raises KeyError. |
| ProductAdmin.MetadataTypeNamed | datacube/drivers/postgis/_api.py:679-687 | Finds the metadata type with the name iff there is one. |
| ProductAdmin.UpdateMetadataType | datacube/drivers/postgis/_api.py:678-696 | An unknown name fails with no row. A success replaces the definition of the named type only, and rebuilds its products' fields. |
| ProductAdmin.UpdateMetadataTypeKeepsValid | datacube/drivers/postgis/_api.py:678-696 | Updating a metadata type keeps the catalogue valid. |
| ProductAdmin.RedefineMetadataTypeKeepsValid | datacube/drivers/postgis/_schema.py:30-37 | A new definition keeps the name, so the name constraints still hold. |
| ProductAdmin.CheckDynamicFields | datacube/drivers/postgis/_api.py:698-713 | Fails with KeyError iff setting up the fields of some metadata type fails. Otherwise each call names a known product with its name and the requested flags, and every product of a known type gets the call built from its type's fields and its metadata section. |
| ProductAdmin.CheckDynamicFieldsCoversProducts | datacube/drivers/postgis/_api.py:698-713 | In a valid catalogue the calls name exactly the products of the table. |
| ProductAdmin.InsertProduct | datacube/drivers/postgis/_api.py:601-624 | Always consumes a serial. A non-word name fails the check. A taken name is a unique violation. An unknown metadata type is a foreign-key violation. Only a stored row changes the products, and validity is kept. |
| ProductAdmin.ProductNamed | datacube/drivers/postgis/_api.py:634-643 | Finds the product with the name iff there is one. |
| ProductAdmin.Rewrite | datacube/drivers/postgis/_api.py:634-642 | Only the named product changes: it keeps its name and takes the new metadata, metadata type and definition. |
| ProductAdmin.Repoint | datacube/drivers/postgis/_api.py:649-655 | Exactly the product's datasets move to the new metadata type; the other datasets are unchanged. |
| ProductAdmin.UpdateProduct | datacube/drivers/postgis/_api.py:626-662 | An unknown name fails with no row. Moving datasets to a new metadata type outside a transaction raises. Without the move the datasets are untouched. Only products and datasets can change, and validity is kept. |
| ProductAdmin.AddProductPreservesValid | datacube/drivers/postgis/_schema.py:52-67 | A product with a fresh id, an untaken word name and a known metadata type keeps the catalogue valid. |
| ProductAdmin.RewritePreservesValid | datacube/drivers/postgis/_api.py:634-642 | Rewriting a product to a known metadata type keeps the catalogue valid. |
| ProductAdmin.RepointPreservesValid | datacube/drivers/postgis/_api.py:649-655 | Moving datasets to a known metadata type keeps the catalogue valid. |
| ProductAdmin.UpdateProductKeepsDatasetsConsistent | datacube/drivers/postgis/_api.py:645-655 | An update with the move inside a transaction leaves every dataset on its product's metadata type. |
| ProductAdmin.InsertDatasetKeepsDatasetsConsistent | datacube/drivers/postgis/_api.py:187-200 | A dataset is inserted with its product's metadata type. |
| MemoryDatasets.EmptyIndexIsValid | datacube/index/memory/_datasets.py:19-32 | The fresh index satisfies the partition and aliasing invariant. |
| MemoryDatasets.SameDatasetsKeepValid | datacube/index/memory/_datasets.py:23-32 | The invariant does not depend on the lineage maps. |
| MemoryDatasets.AddNoLineage | datacube/index/memory/_datasets.py:72-83 | A known id changes nothing. A new id is stored in the primary and active maps, with the given uris (or none) and no archived locations. |
| MemoryDatasets.AddNoLineageKeepsValid | datacube/index/memory/_datasets.py:72-83 | Adding keeps the partition invariant. |
| MemoryDatasets.AddNoLineageTwice | datacube/index/memory/_datasets.py:72-75 | Adding without lineage a second time is a no-op: the known id is left alone. |
| MemoryDatasets.Persist | datacube/index/memory/_datasets.py:86-106 | Afterwards the dataset is derived from the source under the classifier, and the source has the dataset as that derivation. |
| MemoryDatasets.PersistKeepsOthers | datacube/index/memory/_datasets.py:86-106 | Every other lineage entry is as it was. |
| MemoryDatasets.LinksKeptTransitive | datacube/index/memory/_datasets.py:86-106 | Keeping lineage entries composes over successive steps. |
| MemoryDatasets.PersistKeepsLinks | datacube/index/memory/_datasets.py:86-106 | No lineage entry is lost. |
| MemoryDatasets.Add | datacube/index/memory/_datasets.py:58-84 | After adding with lineage the dataset is known, and so is every dataset known before. |
| MemoryDatasets.AddSources | datacube/index/memory/_datasets.py:64-71 | The source loop forgets no known dataset. |
| MemoryDatasets.ReAddRetargetsBackLink | datacube/index/memory/_datasets.py:58-71 | As written, re-adding a known dataset with lineage re-links its source, moving a shared back-link away from another dataset. |
| MemoryDatasets.AddIfAbsent | datacube/index/abstract.py:492-508 | A present dataset leaves the index alone; a new one is added with its lineage and is then known, with every dataset known before. |
| MemoryDatasets.AddIfAbsentTwice | datacube/index/abstract.py:492-508 | Adding a dataset a second time is a no-op, lineage included. |
| MemoryDatasets.AddIfAbsentKeepsValid | datacube/index/abstract.py:492-508 | Adding keeps the partition invariant. |
| MemoryDatasets.AddKeepsKnown | datacube/index/memory/_datasets.py:58-84 | A dataset known before adding is unchanged afterwards. |
| MemoryDatasets.AddSourcesKeepsKnown | datacube/index/memory/_datasets.py:64-71 | The source loop changes no known dataset. |
| MemoryDatasets.AddKeepsLinks | datacube/index/memory/_datasets.py:58-84 | Adding keeps every lineage entry. |
| MemoryDatasets.AddSourcesKeepsLinks | datacube/index/memory/_datasets.py:64-71 | The source loop keeps every lineage entry. |
| MemoryDatasets.AddThenPersistKeepsLinks | datacube/index/memory/_datasets.py:68-71 | One turn of the loop keeps every lineage entry. |
| MemoryDatasets.AddRecordsSources | datacube/index/memory/_datasets.py:58-84 | After adding, every source is known and the dataset has a lineage entry under each of its classifiers. |
| MemoryDatasets.AddSourcesRecordsSource | datacube/index/memory/_datasets.py:64-71 | The loop links the source at each position it reaches. |
| MemoryDatasets.AddKeepsValid | datacube/index/memory/_datasets.py:58-84 | Adding with lineage keeps the partition invariant. |
| MemoryDatasets.AddSourcesKeepsValid | datacube/index/memory/_datasets.py:64-71 | The source loop keeps the partition invariant. |
| MemoryDatasets.ArchiveOne | datacube/index/memory/_datasets.py:118-123 | An active id moves to the archived map, stamped in both maps. Any other id changes nothing. |
| MemoryDatasets.ArchiveOneKeepsValid | datacube/index/memory/_datasets.py:118-123 | One archive step keeps the invariant. |
| MemoryDatasets.ArchiveAll | datacube/index/memory/_datasets.py:117-123 | Exactly the listed active ids become archived. The primary map keeps its keys, and unlisted entries are unchanged. |
| MemoryDatasets.ArchiveAllStamps | datacube/index/memory/_datasets.py:117-123 | Every archived id carries the archive time, in both maps. |
| MemoryDatasets.ArchiveAllKeepsValid | datacube/index/memory/_datasets.py:117-123 | Archiving keeps the partition invariant. |
| MemoryDatasets.RestoreOne | datacube/index/memory/_datasets.py:126-131 | An archived id moves back to the active map, cleared in both maps. Any other id changes nothing. |
| MemoryDatasets.RestoreOneKeepsValid | datacube/index/memory/_datasets.py:126-131 | One restore step keeps the invariant. |
| MemoryDatasets.RestoreAll | datacube/index/memory/_datasets.py:125-131 | Exactly the listed archived ids become active; unlisted entries are unchanged. |
| MemoryDatasets.ArchiveOfInactiveIsIdentity | datacube/index/memory/_datasets.py:117-123 | Archiving ids none of which is active changes nothing. |
| MemoryDatasets.RestoreOfUnarchivedIsIdentity | datacube/index/memory/_datasets.py:125-131 | Restoring ids none of which is archived changes nothing. |
| MemoryDatasets.RestoreAllClears | datacube/index/memory/_datasets.py:125-131 | Every restored id has its archive time cleared, in both maps. |
| MemoryDatasets.RestoreAllKeepsValid | datacube/index/memory/_datasets.py:125-131 | Restoring keeps the partition invariant. |
| MemoryDatasets.ArchiveIsIdempotent | datacube/index/memory/_datasets.py:117-123 | A second archive of the same ids changes nothing. |
| MemoryDatasets.RestoreIsIdempotent | datacube/index/memory/_datasets.py:125-131 | A second restore of the same ids changes nothing. |
| MemoryDatasets.RestoreUndoesArchiveActive | datacube/index/memory/_datasets.py:117-131 | After archiving then restoring active ids, the active map is as before. |
| MemoryDatasets.RestoreUndoesArchiveArchived | datacube/index/memory/_datasets.py:117-131 | After archiving then restoring active ids, the archived map is as before. |
| MemoryDatasets.RestoreUndoesArchivePrimary | datacube/index/memory/_datasets.py:117-131 | After archiving then restoring active ids, the primary map is as before. |
| MemoryDatasets.PrimaryRoundTrip | datacube/index/memory/_datasets.py:117-131 | Stamping then clearing unarchived entries gives back the primary map. |
| MemoryDatasets.RestoreUndoesArchive | datacube/index/memory/_datasets.py:117-131 | Restoring what was just archived gives back the whole index, when every id was active. |
| MemoryDatasets.GetAllDatasetIds | datacube/index/memory/_datasets.py:148-152 | Exactly the keys of the archived map, or exactly those of the active map. |
| MemoryDatasets.AllDatasetIdsPartition | integration_tests/index/test_memory_index.py:249-273 | In a valid index every known dataset is reported by exactly one of the two listings. |
| MemoryDatasets.DeleteEach | datacube/index/memory/_datasets.py:139-146 | Deletes one back-link per classifier. A missing back-link raises KeyError. |
| MemoryDatasets.PurgeOneAsWritten | datacube/index/memory/_datasets.py:133-146 | The purge step as written. An id that is not archived changes nothing. A success drops the id from the archived map and leaves the active map alone. The only failure is KeyError. |
| MemoryDatasets.PurgeAsWritten | datacube/index/memory/_datasets.py:133-146 | The purge loop as written fails only with KeyError and, when it succeeds, leaves the active map alone. |
| MemoryDatasets.SharedSource | datacube/index/memory/_datasets.py:86-106 | Two archived datasets derived from one source under one classifier: the second link overwrites the first back-link. |
| MemoryDatasets.SharedSourceIsValid | datacube/index/memory/_datasets.py:23-32 | The scenario's index is valid. |
| MemoryDatasets.PurgeOneAsWrittenMissingBackLink | datacube/index/memory/_datasets.py:139-146 | The written step raises KeyError when a source has lost the back-link under a classifier. |
| MemoryDatasets.PurgeOfSharedSourceFails | datacube/index/memory/_datasets.py:133-146 | Purging both derived datasets of the scenario raises KeyError. |
| MemoryDatasets.DropLinksTo | datacube/index/memory/_datasets.py:139-146 | Removes every lineage link that points at the id and keeps all others. |
| MemoryDatasets.PurgeOne | datacube/index/memory/_datasets.py:133-146 | An archived id leaves the primary and archived maps and every lineage entry that mentions it. Anything else changes nothing. |
| MemoryDatasets.PurgeOneKeepsValid | datacube/index/memory/_datasets.py:133-146 | One purge step keeps the invariant. |
| MemoryDatasets.Purge | datacube/index/memory/_datasets.py:133-146 | Exactly the listed archived ids are removed; active datasets are untouched. |
| MemoryDatasets.PurgeKeepsValid | datacube/index/memory/_datasets.py:133-146 | Purging keeps the partition invariant. |
| MemoryDatasets.PurgeOfArchivedPairSucceeds | integration_tests/index/test_memory_index.py:249-273 | Purging two archived datasets removes both and keeps the active one. |
| MemoryDatasets.PurgeOfSharedSourceSucceeds | datacube/index/memory/_datasets.py:133-146 | The intended purge clears the scenario the written one fails on. |
| MemoryDatasets.Without | datacube/index/memory/_datasets.py:206-207 | The list with every copy of the uri left out, order kept. |
| MemoryDatasets.ArchivedUris | datacube/index/memory/_datasets.py:161-163 | The uris of the archived entries, in order. |
| MemoryDatasets.WithoutArchived | datacube/index/memory/_datasets.py:218-219 | The archived entries with every entry for the uri left out, order kept. |
| MemoryDatasets.GetLocations | datacube/index/memory/_datasets.py:157-159 | The dataset's active uris. An unknown id raises KeyError. |
| MemoryDatasets.GetArchivedLocations | datacube/index/memory/_datasets.py:161-163 | The dataset's archived uris in archive order. An unknown id raises KeyError. |
| MemoryDatasets.OnlyLocationsKeepValid | datacube/index/memory/_datasets.py:23-32 | Changing only location lists keeps the invariant. |
| MemoryDatasets.AddLocation | datacube/index/memory/_datasets.py:169-180 | Reports false with no change for an unknown dataset, an empty uri or a uri already active. A known dataset without an active list raises KeyError. Otherwise the uri is appended and the result is true. |
| MemoryDatasets.AddLocationThenGet | datacube/index/abstract.py:627-635 | In a valid index `add_location` never raises, and the uri is then among the active ones. |
| MemoryDatasets.AddLocationTwice | datacube/index/memory/_datasets.py:169-180 | A second identical `add_location` reports false and changes nothing. |
| MemoryDatasets.ArchiveLocation | datacube/index/memory/_datasets.py:203-213 | Reports false with no change unless the uri is active. Then it removes every active copy and appends one archived entry with the time. |
| MemoryDatasets.RestoreLocation | datacube/index/memory/_datasets.py:215-225 | Reports false with no change unless the uri is archived. Then it removes every archived entry for it and appends the uri to the active list. |
| MemoryDatasets.ArchiveLocationMovesUri | integration_tests/index/test_memory_index.py:201-212 | Archiving an active uri takes it out of the active list and puts it among the archived ones. |
| MemoryDatasets.RestoreUndoesArchiveLocation | integration_tests/index/test_memory_index.py:207-219 | Restoring a uri just archived (and not archived before) reports true. The archived list is as before, and the uri is back at the end of the active list. |
| MemoryDatasets.AppendedEntryIsOnlyOne | datacube/index/memory/_datasets.py:215-225 | Append one entry for a uri to an archived list with none, then remove the uri's entries: the result is the original list. |
| MemoryDatasets.RemoveLocationAsWritten | datacube/index/memory/_datasets.py:185-201 | As written, a dataset with an active list never reaches the archived list: an archived uri is never removed. |
| MemoryDatasets.RemoveArchivedLocationAsWrittenFails | datacube/index/memory/_datasets.py:185-201 | In a valid index, removing an archived uri that is not active reports false and leaves it archived. |
| MemoryDatasets.RemoveLocation | datacube/index/memory/_datasets.py:185-201 | Reports true iff the uri is active or archived for the dataset. Every active copy goes; if none is active, every archived entry for it goes. Only that dataset's lists change. |
| MemoryDatasets.RemoveArchivedLocationSucceeds | datacube/drivers/postgis/_api.py:800-816 | The intended removal of an archived uri succeeds, as the postgis driver's does, and the uri is then in neither listing. |
| MemoryMetadataTypes.FreshIsValid | datacube/index/memory/_metadata_types.py:17-22 | The fresh registry is consistent: each type under its own id and its name, with ids below the next one. |
| MemoryMetadataTypes.GetUnsafe | datacube/index/memory/_metadata_types.py:88-89 | The type stored under the id; KeyError for an unknown id. |
| MemoryMetadataTypes.GetByNameUnsafeAsWritten | datacube/index/memory/_metadata_types.py:91-92 | As written, the name is looked up among the id keys. |
| MemoryMetadataTypes.GetByNameAsWrittenNeverFinds | datacube/index/memory/_metadata_types.py:91-92 | In a valid registry the written lookup by name always raises KeyError. |
| MemoryMetadataTypes.GetByNameUnsafe | datacube/index/memory/_metadata_types.py:91-92 | The type stored under the name; KeyError for an unknown name. |
| MemoryMetadataTypes.Get | datacube/index/abstract.py:158-166 | The stored type for a known id and `None` otherwise. |
| MemoryMetadataTypes.GetByName | datacube/index/abstract.py:170-178 | The stored type for a known name and `None` otherwise. |
| MemoryMetadataTypes.LookupsAgree | datacube/index/memory/_metadata_types.py:88-92 | In a valid registry the type found by name is found again by its id. |
| MemoryMetadataTypes.AddAsWritten | datacube/index/memory/_metadata_types.py:28-41 | As written, an invalid document is rejected. A known name never changes the registry, and a new name raises an unexpected-keyword error. |
| MemoryMetadataTypes.AddAsWrittenNeverAdds | datacube/index/memory/_metadata_types.py:36-37 | No new type can ever be added; re-adding a known one answers `None`. |
| MemoryMetadataTypes.AddKeyedByIncomingId | datacube/index/memory/_metadata_types.py:39 | With the keyword corrected, a new name still advances the id counter and stores the type under its incoming id. |
| MemoryMetadataTypes.TwoNewTypesCollide | datacube/index/memory/_metadata_types.py:39 | Two new types from documents collide under the key `None`. The registry is then inconsistent, and neither allocated id is found. |
| MemoryMetadataTypes.Add | datacube/index/memory/_metadata_types.py:28-41 | An invalid document is rejected. A known name needs the same document and allocates no id. A new name is stored under the next id, which advances by exactly one. |
| MemoryMetadataTypes.AddThenGet | datacube/index/memory/_metadata_types.py:28-41 | Adding keeps the registry consistent, and the added type is found by name and by id. |
| MemoryMetadataTypes.AddTwice | datacube/index/abstract.py:492-508 | A second identical add allocates nothing and returns the stored type. |
| MemoryMetadataTypes.CanUpdate | datacube/index/memory/_metadata_types.py:43-67 | Unknown names and invalid documents are rejected; the stored type is found with the corrected by-name lookup. Otherwise the changes are classified under the policy (description: any change; dataset and its search fields: extension only). The update is allowed iff unsafe updates are allowed or there is no unsafe change. |
| MemoryMetadataTypes.Update | datacube/index/memory/_metadata_types.py:69-86 | The stored type is found with the corrected by-name lookup. It fails exactly when `can_update` does, or with the unsafe offsets when unsafe changes are not allowed. No change returns the stored type untouched. Otherwise the type is replaced under the same name and id. |
| MemoryMetadataTypes.UpdateAsWritten | datacube/index/memory/_metadata_types.py:69-86 | As written at line 84, with the by-name lookup corrected, an update that goes through stores the new type with the incoming type's id, under that id's key in `by_id` (or `None`), leaving every other `by_id` entry, and under its name. |
| MemoryMetadataTypes.UpdateFromDocumentLeavesStaleId | datacube/index/memory/_metadata_types.py:82-84 | An update built from a document carries no id, so afterwards the lookup by id still gives the old type while the lookup by name gives the new one, and the registry is inconsistent. |
| MemoryMetadataTypes.Replace | datacube/index/memory/_metadata_types.py:83-84 | The new type is stored under its name and its id, and the id counter is unchanged. |
| MemoryMetadataTypes.ReplaceKeepsOthers | datacube/index/memory/_metadata_types.py:83-84 | Replacing keeps every key and every other type. |
| MemoryMetadataTypes.ReplaceKeepsValid | datacube/index/memory/_metadata_types.py:83-84 | Replacing with the same name and id keeps the registry consistent. |
| MemoryMetadataTypes.UpdateThenGet | datacube/index/memory/_metadata_types.py:69-86 | A successful update keeps the registry consistent and is found by name and id. |
| MemoryMetadataTypes.UpdateKeepsOthers | datacube/index/memory/_metadata_types.py:69-86 | A successful update keeps every key and every other type. |
| Resources.OrNone | datacube/index/abstract.py:158-178 | `None` exactly when the unsafe lookup raises KeyError; the unsafe value otherwise; other errors propagate. |
| Resources.OrNoneIsInvertible | datacube/index/abstract.py:345-365 | The unsafe result can be read back from the wrapped one. |
| Resources.SearchProducts | datacube/index/abstract.py:396-405 | Exactly the products of the robust search whose unmatched query part is empty. |
| Resources.SearchProductsAppend | datacube/index/abstract.py:396-405 | Search keeps the robust order: it distributes over concatenation. |
| Resources.SearchOfFullMatchesIsAll | datacube/index/abstract.py:396-405 | When every product matches fully, search returns them all in order. |

## Left out

- User and role management (`list_users`, `create_user`, `drop_users`, `grant_role`, `revoke_role`): they only run administrative SQL.
- `update_dataset`, `contains_dataset`, `datasets_intersection`, `get_dataset(s)` and the product and metadata-type getters and listings of the postgis driver: they are plain reads or document rewrites with no decision logic beyond what is modelled.
- `search_unique_datasets_query`, `get_derived_datasets`, `get_dataset_sources`: they raise NotImplementedError. The memory `search*` and `count*` stubs return empty results. The memory `can_update` and `update` of datasets raise NotImplementedError. None of these is modelled.
- The memory `get`, `bulk_get`, `has`, `bulk_has`, `get_derived` and `get_archived_location_times`: plain map reads.
- `Dataset.clone` and `jsonify_document`: deep copies, modelled as the identity on immutable values.
- The SQL text itself (`func.now()`, `generate_series`, `tstzrange`, projections and `select_fields`): only the row-set meaning is modelled. The clock is a parameter.
- `dynamic.check_dynamic_fields`, the index and view builder: recorded as call arguments only. The order of the calls is not modelled (they form a set).
- The document-diff and classification module: the `Differ` parameter. Schema validation of documents: a predicate parameter.
- `datacube/index/postgres/_transaction.py` and `datacube/storage/_reproject.py` are not part of this model. Transactions appear only as the `inTransaction` flag of the update guard.
- Id widths (`SmallInteger` product and metadata-type ids): serials are unbounded naturals.
- `\w` in the name check is limited to ASCII letters, digits and `_`. Case-insensitivity does not matter to it. Unicode word characters are not modelled.
- LIKE wildcards: a prefix match of a body is a plain prefix test, so a `%` or `_` in the searched uri is not treated as a wildcard.
- Queries.TimeBuckets: the period is a positive fixed duration. Calendar periods such as months, and the time-zone arithmetic of `tstzrange`, are not modelled.
- Queries.CountDatasets: the SQL has no join, so an expression on another table would form a cross join. The model counts datasets only, and the count equals the search size only for expressions on the dataset table.
- Queries.SearchDatasets: the assertions at datacube/drivers/postgis/_api.py:407-408 raise AssertionError; the model reports them as the `NotImplemented` error instead of a precondition, so callers see the path.
- Products are listed by name order in the source; the model's builder calls do not carry that order.
- MemoryDatasets.ArchiveLocation: when the archived list is missing, the source writes the active list before raising KeyError. The model reports the KeyError without the partial write. MemoryDatasets.RestoreLocation has the same gap the other way round.
- ProductAdmin.UpdateProduct: requires product names to be unique, which the schema's unique index guarantees in every reachable state.
- ProductAdmin.UpdateMetadataType: requires metadata type names to be unique, for the same reason.
- ProductAdmin.InsertProduct: a definition without a `metadata` section raises KeyError, after the row is inserted; the model keeps the row, as the statement is not rolled back by the driver itself.
- MemoryMetadataTypes.Update: requires a consistent registry, so the stored type carries an id. The replacement is keyed by the stored id; the source keys `by_id` with the incoming object's id (line 84), recorded under "## Findings".
- ProductAdmin.SetupMetadataTypeFields: on a product without a metadata section the source raises after it has already issued the builder calls for the products before it in name order. The model returns only the KeyError and drops those calls. ProductAdmin.CheckDynamicFields (calls for earlier metadata types and products) and ProductAdmin.UpdateMetadataType have the same gap.
- MemoryDatasets.PurgeOneAsWritten: on the KeyError path the model returns only the error. The source has by then already deleted the id from `archived_by_id` and `by_id` and the back-links of the classifiers visited so far, and MemoryDatasets.PurgeAsWritten has already purged the earlier ids of the list. That partial state is not modelled, so after the failure in MemoryDatasets.PurgeOfSharedSourceFails dataset 1 is in fact purged and dataset 2 half purged.
- ProductAdmin.InsertMetadataType: `get_dataset_fields` raises KeyError after the row is inserted when the definition has no `dataset` section or that section has no `search_fields`; the model never reads the definition and reports success. It also returns the new id, whereas the source returns `None`.
- ProductAdmin.UpdateMetadataType: the field parser `fieldsOf` is total, so the KeyError `get_dataset_fields` raises after the definition is rewritten (datacube/drivers/postgis/_api.py:690) does not arise.
- ProductAdmin.CheckDynamicFields: with the total `fieldsOf`, the KeyError `get_dataset_fields` raises for a metadata type whose definition lacks those sections (datacube/drivers/postgis/_api.py:705) does not arise.
- Fields.EvalAny: an OR with no operands holds on no row in the model, whereas `or_()` over no operands (datacube/drivers/postgis/_api.py:390) adds no restriction to the query.
- MemoryDatasets.AddRecordsSources: states that each classifier of the dataset has a lineage entry, not which source it names. A later source, or a source of a source, that shares an id or a classifier can retarget the entry, and a source's back-link is shared by every dataset derived from it under one classifier.
- MemoryDatasets.ArchiveAll: one `now` stamps every id of the call, whereas the source reads `datetime.now()` once per id. MemoryDatasets.ArchiveAllStamps states that one time.
- Resources.SearchEager: `search_eager` materialises the lazy search as a list. Over sequences that is the identity, so it has no member of its own.
- MemoryMetadataTypes.Add: the metadata type name is taken from the type as given; the source reads it from the definition, which is the same field once `from_doc` has run. Nullable names are not modelled.

## Findings

| source | as written | input that shows it | evidently intended | confidence | as-written member | corrected member |
|---|---|---|---|---|---|---|
| datacube/index/memory/_datasets.py:139-146 | Purge deletes `derivations[source][classifier]` for each source of the purged dataset. A second dataset derived from the same source under the same classifier has already overwritten that back-link, so purging both raises KeyError. | Datasets 1 and 2 both derived from 3 under classifier "c"; 1 and 2 archived, 3 active; purge [1, 2] | Purging removes exactly the archived ids and every lineage entry mentioning them, without raising | not executed | MemoryDatasets.PurgeOfSharedSourceFails | MemoryDatasets.PurgeOfSharedSourceSucceeds |
| datacube/index/memory/_datasets.py:185-201 | `remove_location` returns from the active-list branch whenever the dataset has an active list, which every known dataset has, so an archived uri is never removed | Dataset with uri "file:///a" archived and not active; `remove_location(id, "file:///a")` returns false | The uri is removed from the archived list too, as the postgis `remove_location` (datacube/drivers/postgis/_api.py:800-816) deletes the row whether archived or not | not executed | MemoryDatasets.RemoveArchivedLocationAsWrittenFails | MemoryDatasets.RemoveArchivedLocationSucceeds |
| datacube/index/memory/_metadata_types.py:36-37 | `add` calls `_make(..., id=...)`, but `_make` takes `id_`, so adding any new name raises TypeError | Fresh registry; add any new metadata type | A new name is stored under the next id | not executed | MemoryMetadataTypes.AddAsWrittenNeverAdds | MemoryMetadataTypes.AddThenGet |
| datacube/index/memory/_metadata_types.py:39 | `by_id` is keyed by the incoming type's `id`, which is `None` for a type built from a document | Two new types built from documents, with different names | Each type is keyed by its allocated id | not executed | MemoryMetadataTypes.TwoNewTypesCollide | MemoryMetadataTypes.AddThenGet |
| datacube/index/memory/_metadata_types.py:92 | `get_by_name_unsafe` indexes `by_id` with the name | Any registry; look up a stored type by its name | The lookup uses `by_name` | not executed | MemoryMetadataTypes.GetByNameAsWrittenNeverFinds | MemoryMetadataTypes.LookupsAgree |
| datacube/index/memory/_datasets.py:58-71 | `add` with lineage (the default) skips storing a known dataset but still re-adds its sources and re-persists each link. A source's back-link under a shared classifier then moves back to the re-added dataset, although the abstract index documents `add` as a no-op for a present dataset (datacube/index/abstract.py:498) | Dataset 3 with no sources; datasets 1 and 2 each derived from 3 under "c"; add 1, add 2, then add 1 again: `derivations[3]["c"]` goes from 2 back to 1 | Adding a present dataset changes nothing | not executed | MemoryDatasets.ReAddRetargetsBackLink | MemoryDatasets.AddIfAbsentTwice |
| datacube/index/memory/_metadata_types.py:82-84 | `update` stores the replacement with the incoming type's `id` and keys `by_id` with it. `update_document` (datacube/index/abstract.py:156) passes a type built by `from_doc`, whose id is `None` | Registry holding a type under id 1, with the by-name lookup of line 92 corrected (as written, `can_update` raises first); `update_document` with a changed description: `by_id[None]` gets the new type, `get(1)` still returns the old one | The replacement takes the stored type's id and replaces the entry under that id | not executed | MemoryMetadataTypes.UpdateFromDocumentLeavesStaleId | MemoryMetadataTypes.UpdateThenGet |

=== FILE: catalogue.dfy ===
/** Row-level operations of the postgis catalogue: insert-if-absent of
    datasets, locations and lineage edges, conditional archive and restore,
    hard delete, and the location listings. The database clock is the `now`
    parameter. Each operation returns the new state with its result. */
module Catalogue {
  import opened Common
  import opened Schema
  import Uris

  /** The state after an operation, and what it returned or raised. */
  datatype Outcome<T> = Outcome(db: Db, result: Result<T>)

  /** Every table is the same; only the serial counters may differ. */
  predicate SameTables(a: Db, b: Db) {
    a.metadataTypes == b.metadataTypes && a.products == b.products && a.datasets == b.datasets &&
    a.locations == b.locations && a.lineage == b.lineage
  }

  // ---------------------------------------------------------------- datasets

  /** `insert_dataset`: the metadata type comes from the product row; an
      unknown product leaves it NULL, which the NOT NULL column rejects before
      the conflict on `id` is looked at; a known id is left alone. */
  function InsertDataset(db: Db, id: Uuid, metadata: Json, productId: nat, now: Time): (o: Outcome<bool>)
    ensures productId !in db.products ==> o == Outcome(db, Err(NotNullViolation))
    ensures productId in db.products ==> o.result == Ok(id !in db.datasets)
    ensures o.result != Ok(true) ==> o.db == db
    ensures o.result == Ok(true) ==>
              o.db.datasets.Keys == db.datasets.Keys + {id} &&
              o.db.datasets[id].archived.None? && o.db.datasets[id].productRef == productId &&
              o.db.datasets[id].metadataTypeRef == db.products[productId].metadataTypeRef &&
              (forall other :: other in db.datasets ==> o.db.datasets[other] == db.datasets[other]) &&
              o.db == db.(datasets := o.db.datasets)
    ensures Valid(db) ==> Valid(o.db)
  {
    if productId !in db.products then Outcome(db, Err(NotNullViolation))
    else if id in db.datasets then Outcome(db, Ok(false))
    else
      var row := DatasetRow(db.products[productId].metadataTypeRef, productId, metadata, None, now);
      Outcome(db.(datasets := db.datasets[id := row]), Ok(true))
  }

  /** Inserting the same dataset twice: the first call inserts, the second
      reports that it was already present and changes nothing. */
  lemma InsertDatasetTwice(db: Db, id: Uuid, metadata: Json, productId: nat, now: Time, later: Time)
    requires productId in db.products && id !in db.datasets
    ensures InsertDataset(db, id, metadata, productId, now).result == Ok(true)
    ensures var db1 := InsertDataset(db, id, metadata, productId, now).db;
            id in db1.datasets &&
            InsertDataset(db1, id, metadata, productId, later) == Outcome(db1, Ok(false))
  {
  }

  /** `archive_dataset`: sets `archived` only on the row if it is active;
      reports whether that happened. */
  function ArchiveDataset(db: Db, id: Uuid, now: Time): (r: (Db, bool))
    ensures r.1 <==> id in db.datasets && db.datasets[id].archived.None?
    ensures r.1 ==> r.0 == db.(datasets := db.datasets[id := db.datasets[id].(archived := Some(now))])
    ensures !r.1 ==> r.0 == db
    ensures Valid(db) ==> Valid(r.0)
  {
    if id in db.datasets && db.datasets[id].archived.None? then
      (db.(datasets := db.datasets[id := db.datasets[id].(archived := Some(now))]), true)
    else (db, false)
  }

  /** `restore_dataset`: clears `archived` whatever it was; reports whether
      the row exists. */
  function RestoreDataset(db: Db, id: Uuid): (r: (Db, bool))
    ensures r.1 <==> id in db.datasets
    ensures r.1 ==> r.0 == db.(datasets := db.datasets[id := db.datasets[id].(archived := None)])
    ensures !r.1 ==> r.0 == db
    ensures Valid(db) ==> Valid(r.0)
  {
    if id in db.datasets then (db.(datasets := db.datasets[id := db.datasets[id].(archived := None)]), true)
    else (db, false)
  }

  /** Two archives in a row report true then false; a restore in between
      makes the second archive report true again. */
  lemma ArchiveRestoreArchive(db: Db, id: Uuid, t1: Time, t2: Time)
    requires id in db.datasets && db.datasets[id].archived.None?
    ensures ArchiveDataset(db, id, t1).1
    ensures !ArchiveDataset(ArchiveDataset(db, id, t1).0, id, t2).1
    ensures ArchiveDataset(RestoreDataset(ArchiveDataset(db, id, t1).0, id).0, id, t2).1
  {
  }

  // --------------------------------------------------------------- locations

  /** The rows of `locs` that `keep` accepts, in table order. */
  function FilterLocations(locs: seq<LocationRow>, keep: LocationRow -> bool): (r: seq<LocationRow>)
    ensures forall l :: l in r <==> l in locs && keep(l)
    ensures |r| <= |locs|
    ensures |r| == |locs| <==> forall l :: l in locs ==> keep(l)
  {
    if |locs| == 0 then []
    else
      var rest := FilterLocations(locs[1..], keep);
      assert forall l :: l in locs[1..] ==> l in locs;
      if keep(locs[0]) then [locs[0]] + rest
      else
        assert !keep(locs[0]) && locs[0] in locs;
        rest
  }

  /** Filtering keeps the location keys distinct. */
  lemma {:induction false} FilterKeepsDistinct(locs: seq<LocationRow>, keep: LocationRow -> bool)
    requires DistinctLocations(locs)
    ensures DistinctLocations(FilterLocations(locs, keep))
  {
    if |locs| > 0 {
      var rest := FilterLocations(locs[1..], keep);
      FilterKeepsDistinct(locs[1..], keep);
      if keep(locs[0]) {
        forall l | l in rest ensures l.id != locs[0].id && KeyOf(l) != KeyOf(locs[0]) {
          var k :| 0 <= k < |locs[1..]| && locs[1..][k] == l;
          assert locs[k + 1] == l;
        }
        var r := [locs[0]] + rest;
        forall i, j | 0 <= i < j < |r| ensures r[i].id != r[j].id && KeyOf(r[i]) != KeyOf(r[j]) {
          if i > 0 {
            assert r[i] == rest[i - 1] && r[j] == rest[j - 1];
          } else {
            assert r[j] == rest[j - 1] && r[j] in rest;
          }
        }
      }
    }
  }

  /** Some row of `locs` has the key. */
  predicate HasKey(locs: seq<LocationRow>, key: LocationKey) {
    exists l :: l in locs && KeyOf(l) == key
  }

  /** `insert_dataset_location`: splits the uri, then inserts a row for
      (dataset, scheme, body) unless one exists. The serial behind `id` is
      advanced whether or not a row is inserted; the foreign key on the
      dataset is checked only for a row actually inserted. */
  function InsertLocation(db: Db, datasetId: Uuid, uri: string, now: Time): (o: Outcome<bool>)
    ensures ':' !in uri ==> o == Outcome(db, Err(NotAUri))
    ensures o.result == Ok(true) <==>
              ':' in uri && datasetId in db.datasets &&
              !HasKey(db.locations, LocationKey(datasetId, Uris.SplitUri(uri).value.0, Uris.SplitUri(uri).value.1))
    ensures ':' in uri && datasetId !in db.datasets &&
            !HasKey(db.locations, LocationKey(datasetId, Uris.SplitUri(uri).value.0, Uris.SplitUri(uri).value.1)) ==>
              o.result == Err(ForeignKeyViolation)
    ensures o.result.Ok? && !o.result.value ==>
              HasKey(db.locations, LocationKey(datasetId, Uris.SplitUri(uri).value.0, Uris.SplitUri(uri).value.1))
    ensures o.result != Ok(true) ==> SameTables(o.db, db)
    ensures o.result == Ok(true) ==>
              |o.db.locations| == |db.locations| + 1 && o.db.locations[..|db.locations|] == db.locations &&
              UriOf(o.db.locations[|db.locations|]) == uri &&
              o.db.locations[|db.locations|].datasetRef == datasetId &&
              o.db.locations[|db.locations|].archived.None? &&
              o.db.locations[|db.locations|].id == db.locationSeq + 1 &&
              o.db.locations[|db.locations|].added == now &&
              o.db.datasets == db.datasets && o.db.lineage == db.lineage
    ensures Valid(db) ==> Valid(o.db)
  {
    match Uris.SplitUri(uri)
    case Err(e) => Outcome(db, Err(e))
    case Ok((scheme, body)) =>
      var id := db.locationSeq + 1;
      var advanced := db.(locationSeq := id);
      if HasKey(db.locations, LocationKey(datasetId, scheme, body)) then Outcome(advanced, Ok(false))
      else if datasetId !in db.datasets then Outcome(advanced, Err(ForeignKeyViolation))
      else
        var row := LocationRow(id, datasetId, scheme, body, now, None);
        assert Valid(db) ==> Valid(advanced.(locations := db.locations + [row])) by {
          if Valid(db) { AppendLocationPreservesValid(db, row); }
        }
        Outcome(advanced.(locations := db.locations + [row]), Ok(true))
  }

  /** A row with a fresh serial, a known dataset, a colon-free scheme and an
      unused key can be appended without breaking the invariant. */
  lemma AppendLocationPreservesValid(db: Db, row: LocationRow)
    requires Valid(db)
    requires row.id == db.locationSeq + 1 && row.datasetRef in db.datasets && ':' !in row.scheme
    requires !HasKey(db.locations, KeyOf(row))
    ensures Valid(db.(locationSeq := row.id, locations := db.locations + [row]))
  {
    var locs := db.locations + [row];
    forall i, j | 0 <= i < j < |locs|
      ensures locs[i].id != locs[j].id && KeyOf(locs[i]) != KeyOf(locs[j])
    {
      assert locs[i] == db.locations[i] && locs[i] in db.locations;
      if j == |db.locations| {
        assert locs[i].id <= db.locationSeq;
      } else {
        assert locs[j] == db.locations[j];
      }
    }
  }

  /** A repeated identical location insert reports false and leaves every
      table unchanged. */
  lemma InsertLocationTwice(db: Db, datasetId: Uuid, uri: string, t1: Time, t2: Time)
    requires InsertLocation(db, datasetId, uri, t1).result == Ok(true)
    ensures var db1 := InsertLocation(db, datasetId, uri, t1).db;
            InsertLocation(db1, datasetId, uri, t2).result == Ok(false) &&
            SameTables(InsertLocation(db1, datasetId, uri, t2).db, db1)
  {
    var db1 := InsertLocation(db, datasetId, uri, t1).db;
    var parts := Uris.SplitUri(uri).value;
    assert KeyOf(db1.locations[|db.locations|]) == LocationKey(datasetId, parts.0, parts.1) by {
      Uris.SplitInvertsJoin(db1.locations[|db.locations|].scheme, db1.locations[|db.locations|].body);
      Uris.SchemePrefixIsUnique(db1.locations[|db.locations|].scheme, db1.locations[|db.locations|].body, parts.0, parts.1);
    }
    assert db1.locations[|db.locations|] in db1.locations;
  }

  /** In a valid catalogue at most one row has a given key. */
  lemma AtMostOneLocationPerKey(db: Db, a: LocationRow, b: LocationRow)
    requires Valid(db)
    requires a in db.locations && b in db.locations && KeyOf(a) == KeyOf(b)
    ensures a == b
  {
    var i :| 0 <= i < |db.locations| && db.locations[i] == a;
    var j :| 0 <= j < |db.locations| && db.locations[j] == b;
  }

  /** The row is selected by an archive (`wantActive`) or restore update. */
  predicate Selected(l: LocationRow, key: LocationKey, wantActive: bool) {
    KeyOf(l) == key && (l.archived.None? == wantActive)
  }

  /** Sets `archived` on every selected row, leaving the others alone. */
  function SetArchived(locs: seq<LocationRow>, key: LocationKey, wantActive: bool, archived: Option<Time>): (r: seq<LocationRow>)
    ensures |r| == |locs|
    ensures forall i :: 0 <= i < |locs| ==>
              r[i] == (if Selected(locs[i], key, wantActive) then locs[i].(archived := archived) else locs[i])
  {
    seq(|locs|, i requires 0 <= i < |locs| =>
      if Selected(locs[i], key, wantActive) then locs[i].(archived := archived) else locs[i])
  }

  /** Updating `archived` keeps ids, keys and the foreign key intact. */
  lemma SetArchivedPreservesValid(db: Db, key: LocationKey, wantActive: bool, archived: Option<Time>)
    requires Valid(db)
    ensures Valid(db.(locations := SetArchived(db.locations, key, wantActive, archived)))
  {
    var locs := SetArchived(db.locations, key, wantActive, archived);
    forall l | l in locs
      ensures l.id <= db.locationSeq && l.datasetRef in db.datasets && ':' !in l.scheme
    {
      var i :| 0 <= i < |locs| && locs[i] == l;
      assert db.locations[i] in db.locations;
    }
  }

  /** Shared shape of the conditional location updates: split the uri, then
      update the selected rows; true iff some row was selected. */
  function UpdateLocation(db: Db, datasetId: Uuid, uri: string, wantActive: bool, archived: Option<Time>): (o: Outcome<bool>)
    requires wantActive <==> archived.Some?
    ensures ':' !in uri ==> o == Outcome(db, Err(NotAUri))
    ensures ':' in uri ==> o.result.Ok?
    ensures o.result.Ok? ==> o.result.value == (o.db != db)
    ensures o.result.Ok? ==>
              var key := LocationKey(datasetId, Uris.SplitUri(uri).value.0, Uris.SplitUri(uri).value.1);
              o.db == db.(locations := SetArchived(db.locations, key, wantActive, archived)) &&
              (o.result.value <==> exists l :: l in db.locations && Selected(l, key, wantActive))
    ensures Valid(db) ==> Valid(o.db)
  {
    match Uris.SplitUri(uri)
    case Err(e) => Outcome(db, Err(e))
    case Ok((scheme, body)) =>
      var key := LocationKey(datasetId, scheme, body);
      var locs := SetArchived(db.locations, key, wantActive, archived);
      var changed := exists l :: l in db.locations && Selected(l, key, wantActive);
      if changed then
        var l :| l in db.locations && Selected(l, key, wantActive);
        var i :| 0 <= i < |db.locations| && db.locations[i] == l;
        assert locs[i] != db.locations[i];
        assert Valid(db) ==> Valid(db.(locations := locs)) by {
          if Valid(db) { SetArchivedPreservesValid(db, key, wantActive, archived); }
        }
        Outcome(db.(locations := locs), Ok(true))
      else
        assert locs == db.locations;
        Outcome(db, Ok(false))
  }

  /** `archive_location`: archives the active row with the uri's key. */
  function ArchiveLocation(db: Db, datasetId: Uuid, uri: string, now: Time): (o: Outcome<bool>)
    ensures ':' !in uri ==> o == Outcome(db, Err(NotAUri))
    ensures ':' in uri ==> o.result.Ok?
    ensures o.result.Ok? ==> o.result.value == (o.db != db)
    ensures o.result.Ok? ==>
              var key := LocationKey(datasetId, Uris.SplitUri(uri).value.0, Uris.SplitUri(uri).value.1);
              (o.result.value <==> exists l :: l in db.locations && KeyOf(l) == key && l.archived.None?) &&
              |o.db.locations| == |db.locations| &&
              forall i :: 0 <= i < |db.locations| ==>
                o.db.locations[i] == (if KeyOf(db.locations[i]) == key && db.locations[i].archived.None?
                                      then db.locations[i].(archived := Some(now)) else db.locations[i])
    ensures Valid(db) ==> Valid(o.db)
  {
    UpdateLocation(db, datasetId, uri, true, Some(now))
  }

  /** `restore_location`: restores the archived row with the uri's key. */
  function RestoreLocation(db: Db, datasetId: Uuid, uri: string): (o: Outcome<bool>)
    ensures ':' !in uri ==> o == Outcome(db, Err(NotAUri))
    ensures ':' in uri ==> o.result.Ok?
    ensures o.result.Ok? ==> o.result.value == (o.db != db)
    ensures o.result.Ok? ==>
              var key := LocationKey(datasetId, Uris.SplitUri(uri).value.0, Uris.SplitUri(uri).value.1);
              (o.result.value <==> exists l :: l in db.locations && KeyOf(l) == key && l.archived.Some?) &&
              |o.db.locations| == |db.locations| &&
              forall i :: 0 <= i < |db.locations| ==>
                o.db.locations[i] == (if KeyOf(db.locations[i]) == key && db.locations[i].archived.Some?
                                      then db.locations[i].(archived := None) else db.locations[i])
    ensures Valid(db) ==> Valid(o.db)
  {
    UpdateLocation(db, datasetId, uri, false, None)
  }

  /** `remove_location`: deletes the row with the uri's key, archived or not. */
  function RemoveLocation(db: Db, datasetId: Uuid, uri: string): (o: Outcome<bool>)
    ensures ':' !in uri ==> o == Outcome(db, Err(NotAUri))
    ensures ':' in uri ==> o.result.Ok?
    ensures o.result.Ok? ==> o.result.value == (o.db != db)
    ensures o.result.Ok? ==>
              var key := LocationKey(datasetId, Uris.SplitUri(uri).value.0, Uris.SplitUri(uri).value.1);
              (o.result.value <==> HasKey(db.locations, key)) &&
              (forall l :: l in o.db.locations <==> l in db.locations && KeyOf(l) != key) &&
              o.db == db.(locations := o.db.locations)
  {
    match Uris.SplitUri(uri)
    case Err(e) => Outcome(db, Err(e))
    case Ok((scheme, body)) =>
      var key := LocationKey(datasetId, scheme, body);
      var keep := (l: LocationRow) => KeyOf(l) != key;
      var locs := FilterLocations(db.locations, keep);
      if HasKey(db.locations, key) then
        assert |locs| < |db.locations|;
        Outcome(db.(locations := locs), Ok(true))
      else
        assert |locs| == |db.locations|;
        FilterKeepingAllIsIdentity(db.locations, keep);
        Outcome(db, Ok(false))
  }

  /** Removing a row leaves no dangling reference and keeps keys distinct. */
  lemma RemoveLocationKeepsValid(db: Db, datasetId: Uuid, uri: string)
    requires Valid(db)
    ensures Valid(RemoveLocation(db, datasetId, uri).db)
  {
    if ':' in uri {
      var parts := Uris.SplitUri(uri).value;
      var key := LocationKey(datasetId, parts.0, parts.1);
      FilterKeepsDistinct(db.locations, (l: LocationRow) => KeyOf(l) != key);
    }
  }

  lemma {:induction false} FilterKeepingAllIsIdentity(locs: seq<LocationRow>, keep: LocationRow -> bool)
    requires forall l :: l in locs ==> keep(l)
    ensures FilterLocations(locs, keep) == locs
  {
    if |locs| > 0 {
      assert forall l :: l in locs[1..] ==> l in locs;
      FilterKeepingAllIsIdentity(locs[1..], keep);
      assert locs == [locs[0]] + locs[1..];
    }
  }

  // ------------------------------------------------------------------ lineage

  /** `insert_dataset_source`: the (dataset, classifier) key is the conflict
      arbiter, so an existing edge makes it a no-op; the other unique pair
      (source, dataset) is not an arbiter and raises when violated. */
  function InsertLineage(db: Db, classifier: string, datasetId: Uuid, sourceId: Uuid): (o: Outcome<bool>)
    ensures o.result.Ok? <==>
              (exists e :: e in db.lineage && e.datasetRef == datasetId && e.classifier == classifier) ||
              !(exists e :: e in db.lineage && e.datasetRef == datasetId && e.sourceRef == sourceId)
    ensures o.result.Err? ==> o.result.error == UniqueViolation
    ensures o.result == Ok(true) <==>
              !exists e :: e in db.lineage && e.datasetRef == datasetId &&
                           (e.classifier == classifier || e.sourceRef == sourceId)
    ensures o.result != Ok(true) ==> o.db == db
    ensures o.result == Ok(true) ==> o.db == db.(lineage := db.lineage + {SourceRow(datasetId, classifier, sourceId)})
    ensures Valid(db) ==> Valid(o.db)
  {
    if exists e :: e in db.lineage && e.datasetRef == datasetId && e.classifier == classifier then
      Outcome(db, Ok(false))
    else if exists e :: e in db.lineage && e.datasetRef == datasetId && e.sourceRef == sourceId then
      Outcome(db, Err(UniqueViolation))
    else
      Outcome(db.(lineage := db.lineage + {SourceRow(datasetId, classifier, sourceId)}), Ok(true))
  }

  /** A repeated identical lineage insert reports false and changes nothing. */
  lemma InsertLineageTwice(db: Db, classifier: string, datasetId: Uuid, sourceId: Uuid)
    requires InsertLineage(db, classifier, datasetId, sourceId).result == Ok(true)
    ensures var db1 := InsertLineage(db, classifier, datasetId, sourceId).db;
            InsertLineage(db1, classifier, datasetId, sourceId) == Outcome(db1, Ok(false))
  {
    var db1 := InsertLineage(db, classifier, datasetId, sourceId).db;
    assert SourceRow(datasetId, classifier, sourceId) in db1.lineage;
  }

  /** In a valid catalogue a dataset has at most one source per classifier
      and at most one edge per source. */
  lemma AtMostOneLineageEdge(db: Db, a: SourceRow, b: SourceRow)
    requires Valid(db)
    requires a in db.lineage && b in db.lineage && a.datasetRef == b.datasetRef
    requires a.classifier == b.classifier || a.sourceRef == b.sourceRef
    ensures a == b
  {
  }

  // ------------------------------------------------------------------- delete

  /** `delete_dataset`: first the dataset's locations, then the lineage edges
      it is derived by, then the row itself; true iff the row existed. Edges
      naming it as a source are kept (they carry no foreign key). */
  function DeleteDataset(db: Db, id: Uuid): (r: (Db, bool))
    ensures r.1 <==> id in db.datasets
    ensures r.0.datasets == db.datasets - {id}
    ensures forall l :: l in r.0.locations <==> l in db.locations && l.datasetRef != id
    ensures forall e :: e in r.0.lineage <==> e in db.lineage && e.datasetRef != id
    ensures r.0.products == db.products && r.0.metadataTypes == db.metadataTypes
  {
    var locs := FilterLocations(db.locations, (l: LocationRow) => l.datasetRef != id);
    var lineage := set e | e in db.lineage && e.datasetRef != id;
    (db.(locations := locs, lineage := lineage, datasets := db.datasets - {id}), id in db.datasets)
  }

  /** Deleting in dependency order keeps the catalogue valid: no location
      is left pointing at the deleted row. */
  lemma DeleteDatasetKeepsValid(db: Db, id: Uuid)
    requires Valid(db)
    ensures Valid(DeleteDataset(db, id).0)
  {
    FilterKeepsDistinct(db.locations, (l: LocationRow) => l.datasetRef != id);
  }

  // ---------------------------------------------------------------- listings

  /** Newest first: later `added`, and the larger id among equal times. */
  predicate NewerOrSame(a: LocationRow, b: LocationRow) {
    a.added > b.added || (a.added == b.added && a.id >= b.id)
  }

  predicate NewestFirst(s: seq<LocationRow>) {
    forall i, j :: 0 <= i < j < |s| ==> NewerOrSame(s[i], s[j])
  }

  function InsertByRecency(x: LocationRow, s: seq<LocationRow>): (r: seq<LocationRow>)
    requires NewestFirst(s)
    ensures NewestFirst(r)
    ensures multiset(r) == multiset(s) + multiset{x}
  {
    if |s| == 0 then [x]
    else if NewerOrSame(x, s[0]) then [x] + s
    else
      var rest := InsertByRecency(x, s[1..]);
      assert s == [s[0]] + s[1..];
      forall j | 0 <= j < |rest| ensures NewerOrSame(s[0], rest[j]) {
        if rest[j] != x {
          assert rest[j] in multiset(rest);
          var k :| 0 <= k < |s[1..]| && s[1..][k] == rest[j];
          assert s[k + 1] == rest[j];
        }
      }
      NewestFirstCons(s[0], rest);
      [s[0]] + rest
  }

  /** A row newer than every row of a newest-first list can lead it. */
  lemma NewestFirstCons(a: LocationRow, s: seq<LocationRow>)
    requires NewestFirst(s)
    requires forall j :: 0 <= j < |s| ==> NewerOrSame(a, s[j])
    ensures NewestFirst([a] + s)
  {
    var t := [a] + s;
    forall i, j | 0 <= i < j < |t| ensures NewerOrSame(t[i], t[j]) {
      if i > 0 {
        assert t[i] == s[i - 1] && t[j] == s[j - 1];
      } else {
        assert t[j] == s[j - 1];
      }
    }
  }

  /** Insertion sort into newest-first order. */
  function SortByRecency(s: seq<LocationRow>): (r: seq<LocationRow>)
    ensures NewestFirst(r)
    ensures multiset(r) == multiset(s)
  {
    if |s| == 0 then []
    else
      assert s == [s[0]] + s[1..];
      InsertByRecency(s[0], SortByRecency(s[1..]))
  }

  /** The uris of location rows, in the same order. */
  function UrisOf(rows: seq<LocationRow>): (us: seq<string>)
    ensures |us| == |rows|
    ensures forall i :: 0 <= i < |rows| ==> us[i] == UriOf(rows[i])
  {
    seq(|rows|, i requires 0 <= i < |rows| => UriOf(rows[i]))
  }

  /** The active location rows of a dataset, newest first (the order of
      `get_locations` and of the `uris` column of dataset queries). */
  function ActiveLocationRows(db: Db, id: Uuid): (rows: seq<LocationRow>)
    ensures NewestFirst(rows)
    ensures forall l :: l in rows <==> l in db.locations && l.datasetRef == id && l.archived.None?
    ensures multiset(rows) == multiset(FilterLocations(db.locations, (l: LocationRow) => l.datasetRef == id && l.archived.None?))
  {
    var active := FilterLocations(db.locations, (l: LocationRow) => l.datasetRef == id && l.archived.None?);
    var rows := SortByRecency(active);
    assert forall l :: l in rows <==> l in multiset(rows);
    assert forall l :: l in active <==> l in multiset(active);
    rows
  }

  /** `get_locations`: the uris of the dataset's active locations, newest
      first with the larger id first among equal times. */
  function GetLocations(db: Db, id: Uuid): (us: seq<string>)
    ensures forall u :: u in us <==>
              exists l :: l in db.locations && l.datasetRef == id && l.archived.None? && UriOf(l) == u
    ensures us == UrisOf(ActiveLocationRows(db, id))
  {
    var rows := ActiveLocationRows(db, id);
    assert forall u :: u in UrisOf(rows) ==> exists k :: 0 <= k < |rows| && UriOf(rows[k]) == u;
    assert forall l :: l in rows ==> UriOf(l) in UrisOf(rows) by {
      forall l | l in rows ensures UriOf(l) in UrisOf(rows) {
        var k :| 0 <= k < |rows| && rows[k] == l;
        assert UrisOf(rows)[k] == UriOf(l);
      }
    }
    UrisOf(rows)
  }

  /** The archived location rows of a dataset, latest `added` first; among
      equal times the larger id comes first, a tie the database leaves open. */
  function ArchivedLocationRows(db: Db, id: Uuid): (rows: seq<LocationRow>)
    ensures forall i, j :: 0 <= i < j < |rows| ==> rows[i].added >= rows[j].added
    ensures forall l :: l in rows <==> l in db.locations && l.datasetRef == id && l.archived.Some?
    ensures multiset(rows) == multiset(FilterLocations(db.locations, (l: LocationRow) => l.datasetRef == id && l.archived.Some?))
  {
    var archived := FilterLocations(db.locations, (l: LocationRow) => l.datasetRef == id && l.archived.Some?);
    var rows := SortByRecency(archived);
    assert forall l :: l in rows <==> l in multiset(rows);
    assert forall l :: l in archived <==> l in multiset(archived);
    rows
  }

  /** `get_archived_locations`: (uri, archived time) of the dataset's archived
      locations, latest `added` first. */
  function GetArchivedLocations(db: Db, id: Uuid): (r: seq<(string, Time)>)
    ensures forall p :: p in r <==>
              exists l :: l in db.locations && l.datasetRef == id && l.archived.Some? &&
                          p == (UriOf(l), l.archived.value)
    ensures var rows := ArchivedLocationRows(db, id);
            |r| == |rows| && forall i :: 0 <= i < |r| ==> r[i] == (UriOf(rows[i]), rows[i].archived.value)
  {
    ArchivedPairs(ArchivedLocationRows(db, id))
  }

  /** (uri, archived time) of archived location rows, in the same order. */
  function ArchivedPairs(rows: seq<LocationRow>): (r: seq<(string, Time)>)
    requires forall l :: l in rows ==> l.archived.Some?
    ensures |r| == |rows|
    ensures forall i :: 0 <= i < |rows| ==> r[i] == (UriOf(rows[i]), rows[i].archived.value)
    ensures forall p :: p in r <==> exists l :: l in rows && p == (UriOf(l), l.archived.value)
  {
    var r := seq(|rows|, i requires 0 <= i < |rows| => (UriOf(rows[i]), rows[i].archived.value));
    assert forall l :: l in rows ==> (UriOf(l), l.archived.value) in r by {
      forall l | l in rows ensures (UriOf(l), l.archived.value) in r {
        var k :| 0 <= k < |rows| && rows[k] == l;
        assert r[k] == (UriOf(l), l.archived.value);
      }
    }
    r
  }

  /** In a valid catalogue a location row carries the uri iff its key is the
      split of that uri. */
  lemma UriIdentifiesKey(db: Db, l: LocationRow, uri: string)
    requires Valid(db) && l in db.locations && ':' in uri
    ensures UriOf(l) == uri <==> KeyOf(l).scheme == Uris.SplitUri(uri).value.0 && KeyOf(l).body == Uris.SplitUri(uri).value.1
  {
    var parts := Uris.SplitUri(uri).value;
    if UriOf(l) == uri {
      Uris.SchemePrefixIsUnique(l.scheme, l.body, parts.0, parts.1);
    }
  }

  /** After a successful archive no active row of the dataset carries the uri. */
  lemma ArchivedUriIsNotActive(db: Db, id: Uuid, uri: string, now: Time)
    requires Valid(db)
    requires ArchiveLocation(db, id, uri, now).result == Ok(true)
    ensures forall m :: m in ArchiveLocation(db, id, uri, now).db.locations && m.datasetRef == id && m.archived.None? ==>
              UriOf(m) != uri
  {
    var o := ArchiveLocation(db, id, uri, now);
    assert ':' in uri;
    var parts := Uris.SplitUri(uri).value;
    var key := LocationKey(id, parts.0, parts.1);
    forall m | m in o.db.locations && m.datasetRef == id && m.archived.None?
      ensures UriOf(m) != uri
    {
      var j :| 0 <= j < |o.db.locations| && o.db.locations[j] == m;
      var before := db.locations[j];
      assert !(KeyOf(before) == key && before.archived.None?);
      assert m == before;
      if UriOf(m) == uri {
        UriIdentifiesKey(db, before, uri);
        assert false;
      }
    }
  }

  /** After a successful archive the dataset has an archived row with the
      uri, archived at `now`. */
  lemma ArchivedUriIsArchived(db: Db, id: Uuid, uri: string, now: Time)
    requires Valid(db)
    requires ArchiveLocation(db, id, uri, now).result == Ok(true)
    ensures exists m :: m in ArchiveLocation(db, id, uri, now).db.locations && m.datasetRef == id &&
              m.archived == Some(now) && UriOf(m) == uri
  {
    var db1 := ArchiveLocation(db, id, uri, now).db;
    var parts := Uris.SplitUri(uri).value;
    var key := LocationKey(id, parts.0, parts.1);
    var l :| l in db.locations && KeyOf(l) == key && l.archived.None?;
    var i :| 0 <= i < |db.locations| && db.locations[i] == l;
    assert db1.locations[i] == l.(archived := Some(now));
    assert db1.locations[i] in db1.locations;
    Uris.JoinInvertsSplit(uri);
  }

  /** Archiving a location moves its uri from the dataset's active listing to
      its archived listing. */
  lemma ArchiveLocationMovesUri(db: Db, id: Uuid, uri: string, now: Time)
    requires Valid(db)
    requires ArchiveLocation(db, id, uri, now).result == Ok(true)
    ensures uri !in GetLocations(ArchiveLocation(db, id, uri, now).db, id)
    ensures (uri, now) in GetArchivedLocations(ArchiveLocation(db, id, uri, now).db, id)
  {
    ArchivedUriIsNotActive(db, id, uri, now);
    ArchivedUriIsArchived(db, id, uri, now);
  }

  /** `all_dataset_ids`: the archived ids, or the active ids. */
  function AllDatasetIds(db: Db, archived: bool): (ids: set<Uuid>)
    ensures forall id :: id in ids <==> id in db.datasets && (db.datasets[id].archived.Some? == archived)
  {
    set id | id in db.datasets && (db.datasets[id].archived.Some? == archived)
  }

  /** The active and archived ids partition the dataset table. */
  lemma AllDatasetIdsPartition(db: Db)
    ensures AllDatasetIds(db, true) !! AllDatasetIds(db, false)
    ensures AllDatasetIds(db, true) + AllDatasetIds(db, false) == db.datasets.Keys
  {
  }

  /** `get_datasets_for_location`: one row per location whose scheme equals
      the uri's and whose body matches it under the chosen mode, joined with
      its dataset; archived datasets and locations are included. */
  function GetDatasetsForLocation(db: Db, uri: string, mode: Option<string>): (r: Result<set<Row>>)
    ensures ':' !in uri ==> r == Err(NotAUri)
    ensures ':' in uri ==>
              var parts := Uris.SplitUri(uri).value;
              match Uris.ChooseMatchMode(parts.1, mode)
              case Err(e) => r == Err(e)
              case Ok(m) => r.Ok? && forall row :: row in r.value <==>
                exists l :: l in db.locations && l.datasetRef in db.datasets && l.scheme == parts.0 &&
                            Uris.BodyMatches(m, parts.1, l.body) &&
                            row == Row(l.datasetRef, db.datasets[l.datasetRef], Some(l))
  {
    match Uris.SplitUri(uri)
    case Err(e) => Err(e)
    case Ok((scheme, body)) =>
      match Uris.ChooseMatchMode(body, mode)
      case Err(e) => Err(e)
      case Ok(m) =>
        Ok(set l | l in db.locations && l.datasetRef in db.datasets && l.scheme == scheme &&
                   Uris.BodyMatches(m, body, l.body) :: Row(l.datasetRef, db.datasets[l.datasetRef], Some(l)))
  }

  /** A location just inserted is found again by looking its uri up, in
      every mode the lookup accepts. */
  lemma InsertedLocationIsFound(db: Db, datasetId: Uuid, uri: string, now: Time, mode: Option<string>)
    requires InsertLocation(db, datasetId, uri, now).result == Ok(true)
    ensures var after := InsertLocation(db, datasetId, uri, now).db;
            var found := GetDatasetsForLocation(after, uri, mode);
            found.Ok? ==> exists row :: row in found.value && row.id == datasetId
  {
    var after := InsertLocation(db, datasetId, uri, now).db;
    var parts := Uris.SplitUri(uri).value;
    var l := after.locations[|db.locations|];
    assert l.scheme == parts.0 && l.body == parts.1;
    assert l in after.locations;
    var found := GetDatasetsForLocation(after, uri, mode);
    if found.Ok? {
      var m := Uris.ChooseMatchMode(parts.1, mode).value;
      assert Uris.BodyMatches(m, parts.1, l.body);
      assert Row(l.datasetRef, after.datasets[l.datasetRef], Some(l)) in found.value;
    }
  }
}

=== FILE: common.dfy ===
/** Shared vocabulary of the dataset catalogue model: optional values,
    results that carry the catalogue's error taxonomy, and the JSON documents
    that metadata types, products and datasets are described by. */
module Common {

  /** A value that may be absent (Python `None`, SQL `NULL`). */
  datatype Option<+T> = None | Some(value: T)

  /** The failure signals the modelled code raises, named after their cause. */
  datatype Error =
    | NotAUri                          // ValueError("Not a URI") from splitting a uri
    | UnsupportedQueryMode(mode: string)
    | KeyError                         // a Python dictionary lookup of a missing key
    | NotNullViolation                 // a NOT NULL column receives NULL
    | ForeignKeyViolation
    | UniqueViolation                  // a unique index not named as the ON CONFLICT arbiter
    | CheckViolation                   // a CHECK constraint such as the word-name rule
    | NoSuchRow                        // indexing the absent first row of an UPDATE .. RETURNING
    | NotInTransaction                 // RuntimeError: metadata types must be updated in a transaction
    | InvalidDocument                  // schema validation of a metadata type document failed
    | DocumentMismatch                 // re-adding a known name with a different document
    | UnknownMetadataType(name: string)
    | UnsafeChanges(offsets: seq<seq<string>>)
    | UnexpectedKeyword(keyword: string)  // TypeError: a call passes a keyword the callee lacks
    | NotImplemented                   // a search path the driver rejects (assertion or NotImplementedError)

  /** Either a value or the error that was raised instead. */
  datatype Result<+T> = Ok(value: T) | Err(error: Error)

  /** A JSON document. */
  datatype Json =
    | JNull
    | JBool(b: bool)
    | JNum(n: int)
    | JStr(s: string)
    | JList(items: seq<Json>)
    | JObject(members: map<string, Json>)
}

=== FILE: fields.dfy ===
/** Search fields and expressions of the postgis driver: the table a field
    needs, how expressions compile into row predicates (OR nodes recursively),
    which tables a query joins and in what order, and which fields a metadata
    document activates. Field columns and comparisons are opaque functions of a
    query row; extraction from a document is an opaque function too. */
module Fields {
  import opened Common
  import opened Schema

  /** What a field's `extract` gives for a document: a value (where `JNull`
      is Python's `None`), or one of the exceptions the caller swallows
      (AttributeError, KeyError, ValueError). */
  datatype Extraction = Found(v: Json) | Raised

  /** A search field: its name, the table its column lives in, its column
      value on a query row, and its document extractor if it has one. */
  datatype Field = Field(
    name: string,
    table: Table,
    column: Row -> Json,
    extract: Option<Json -> Extraction>)

  /** A search expression: a comparison on one field, or a disjunction of
      expressions (which, like every expression, names a field). */
  datatype Expr =
    | Compare(field: Field, test: Row -> bool)
    | Or(field: Field, exprs: seq<Expr>)

  /** A compiled WHERE-clause term. */
  datatype Pred = Atom(test: Row -> bool) | AnyOf(preds: seq<Pred>)

  /** What an expression means on a row. */
  predicate Holds(e: Expr, r: Row) {
    match e
    case Compare(_, test) => test(r)
    case Or(_, es) => exists i :: 0 <= i < |es| && Holds(es[i], r)
  }

  /** Evaluation of a compiled term. */
  predicate Eval(p: Pred, r: Row) {
    match p
    case Atom(test) => test(r)
    case AnyOf(ps) => EvalAny(ps, r)
  }

  predicate EvalAny(ps: seq<Pred>, r: Row) {
    |ps| > 0 && (Eval(ps[0], r) || EvalAny(ps[1..], r))
  }

  /** `raw_expr` inside `_alchemify_expressions`: an OR node becomes the
      disjunction of its compiled members, anything else its own comparison. */
  function RawExpr(e: Expr): (p: Pred)
    ensures e.Compare? ==> p == Atom(e.test)
    ensures e.Or? ==> p.AnyOf? && |p.preds| == |e.exprs|
  {
    match e
    case Compare(_, test) => Atom(test)
    case Or(_, es) => AnyOf(RawExprs(es))
  }

  function RawExprs(es: seq<Expr>): (ps: seq<Pred>)
    ensures |ps| == |es|
  {
    if |es| == 0 then [] else [RawExpr(es[0])] + RawExprs(es[1..])
  }

  /** `_alchemify_expressions`: one compiled term per expression. */
  function Alchemify(es: seq<Expr>): (ps: seq<Pred>)
    ensures |ps| == |es|
    ensures forall i :: 0 <= i < |es| ==> ps[i] == RawExpr(es[i])
  {
    if |es| == 0 then [] else [RawExpr(es[0])] + Alchemify(es[1..])
  }

  /** Compilation preserves meaning: a compiled expression holds on a row iff
      the expression does. */
  lemma {:induction false} RawExprIsSound(e: Expr, r: Row)
    ensures Eval(RawExpr(e), r) == Holds(e, r)
    decreases e, 1
  {
    match e
    case Compare(_, _) =>
    case Or(_, es) => RawExprsAreSound(es, r);
  }

  lemma {:induction false} RawExprsAreSound(es: seq<Expr>, r: Row)
    ensures EvalAny(RawExprs(es), r) <==> exists i :: 0 <= i < |es| && Holds(es[i], r)
    decreases es, 0
  {
    if |es| > 0 {
      RawExprIsSound(es[0], r);
      RawExprsAreSound(es[1..], r);
      assert RawExprs(es)[1..] == RawExprs(es[1..]);
      if exists i :: 0 <= i < |es| && Holds(es[i], r) {
        var i :| 0 <= i < |es| && Holds(es[i], r);
        if i > 0 {
          assert Holds(es[1..][i - 1], r);
        }
      }
      if exists i :: 0 <= i < |es| - 1 && Holds(es[1..][i], r) {
        var i :| 0 <= i < |es| - 1 && Holds(es[1..][i], r);
        assert Holds(es[i + 1], r);
      }
    }
  }

  /** The WHERE clause of every dataset query: the row's dataset is active and
      every compiled expression holds. */
  predicate Filter(preds: seq<Pred>, r: Row) {
    r.dataset.archived.None? && forall i :: 0 <= i < |preds| ==> Eval(preds[i], r)
  }

  /** The compiled filter of a list of expressions accepts exactly the active
      rows on which every expression holds. */
  lemma FilterMeansAllHold(es: seq<Expr>, r: Row)
    ensures Filter(Alchemify(es), r) <==>
              r.dataset.archived.None? && forall i :: 0 <= i < |es| ==> Holds(es[i], r)
  {
    forall i | 0 <= i < |es| {
      RawExprIsSound(es[i], r);
    }
  }

  /** The tables the expressions' fields and the fields themselves live in. */
  function RequiredTables(exprs: seq<Expr>, fields: seq<Field>): set<Table> {
    (set i | 0 <= i < |exprs| :: exprs[i].field.table) + (set i | 0 <= i < |fields| :: fields[i].table)
  }

  /** The fixed join order `_join_tables` sorts by. */
  const JoinOrder: seq<Table> := [LocationTable, DatasetTable, ProductTable, MetadataTypeTable]

  /** Position of a table in `JoinOrder` (tables outside it rank last). */
  function JoinRank(t: Table): nat {
    match t
    case LocationTable => 0
    case DatasetTable => 1
    case ProductTable => 2
    case MetadataTypeTable => 3
    case LineageTable => 4
  }

  /** Ranks strictly increase along the sequence. */
  predicate Ascending(ts: seq<Table>) {
    forall i, j :: 0 <= i < j < |ts| ==> JoinRank(ts[i]) < JoinRank(ts[j])
  }

  /** The members of `order` that are in `wanted`, in the order of `order`. */
  function KeepInOrder(order: seq<Table>, wanted: set<Table>): (r: seq<Table>)
    requires Ascending(order)
    ensures forall t :: t in r <==> t in order && t in wanted
    ensures |r| <= |order|
    ensures Ascending(r)
  {
    if |order| == 0 then []
    else
      var rest := KeepInOrder(order[1..], wanted);
      if order[0] in wanted then
        assert forall t :: t in rest ==> JoinRank(order[0]) < JoinRank(t) by {
          forall t | t in rest ensures JoinRank(order[0]) < JoinRank(t) {
            var k :| 0 <= k < |order[1..]| && order[1..][k] == t;
            assert order[k + 1] == t;
          }
        }
        [order[0]] + rest
      else rest
  }

  /** `_join_tables`: the tables required by the expressions and fields, minus
      the table the query selects from, in the fixed join order; a required
      table outside that order (the lineage table) is dropped. */
  function JoinTables(source: Table, exprs: seq<Expr>, fields: seq<Field>): (r: seq<Table>)
    ensures forall t :: t in r <==> t in JoinOrder && t in RequiredTables(exprs, fields) && t != source
    ensures Ascending(r)
    ensures forall i, j :: 0 <= i < j < |r| ==> r[i] != r[j]
    ensures source !in r && LineageTable !in r
    ensures |r| <= 4
  {
    KeepInOrder(JoinOrder, RequiredTables(exprs, fields) - {source})
  }

  /** A field is active for a document when it has an extractor that yields a
      value other than `None` without raising. */
  predicate IsActive(f: Field, doc: Json) {
    f.extract.Some? && f.extract.value(doc).Found? && f.extract.value(doc).v != JNull
  }

  /** `_get_active_field_names`: the names of the active fields, in field order;
      fields without an extractor and extractors that raise are skipped. */
  function ActiveFieldNames(fields: seq<Field>, doc: Json): (names: seq<string>)
    ensures |names| <= |fields|
    ensures forall n :: n in names <==> exists i :: 0 <= i < |fields| && fields[i].name == n && IsActive(fields[i], doc)
  {
    if |fields| == 0 then []
    else
      var rest := ActiveFieldNames(fields[1..], doc);
      assert forall i :: 0 <= i < |fields| - 1 ==> fields[1..][i] == fields[i + 1];
      if IsActive(fields[0], doc) then [fields[0].name] + rest else rest
  }

  /** The names come out in field order: the names for a concatenation are
      the names for each part, one after the other. */
  lemma {:induction false} ActiveFieldNamesAppend(a: seq<Field>, b: seq<Field>, doc: Json)
    ensures ActiveFieldNames(a + b, doc) == ActiveFieldNames(a, doc) + ActiveFieldNames(b, doc)
    decreases |a|
  {
    if |a| > 0 {
      assert (a + b)[1..] == a[1..] + b;
      assert (a + b)[0] == a[0];
      ActiveFieldNamesAppend(a[1..], b, doc);
    } else {
      assert a + b == b;
    }
  }

  /** A single field contributes its name exactly when it is active. */
  lemma ActiveFieldNamesSingle(f: Field, doc: Json)
    ensures ActiveFieldNames([f], doc) == (if IsActive(f, doc) then [f.name] else [])
  {
    assert [f][1..] == [];
  }

  /** The arguments handed to the external index/view builder for one product:
      its id (the builder filters on active datasets of this product), its
      name, the active field names, and the flags. */
  datatype DynamicFieldsCall = DynamicFieldsCall(
    productId: nat,
    productName: string,
    activeFields: seq<string>,
    concurrently: bool,
    rebuildIndexes: bool,
    rebuildView: bool)

  /** `_setup_product_fields`: records the builder call for one product. */
  function SetupProductFields(productId: nat, name: string, fields: seq<Field>, metadataDoc: Json,
                              rebuildIndexes: bool, rebuildView: bool, concurrently: bool): (call: DynamicFieldsCall)
    ensures call.productId == productId && call.productName == name
    ensures call.concurrently == concurrently && call.rebuildIndexes == rebuildIndexes && call.rebuildView == rebuildView
    ensures forall n :: n in call.activeFields <==>
              exists i :: 0 <= i < |fields| && fields[i].name == n && IsActive(fields[i], metadataDoc)
  {
    DynamicFieldsCall(productId, name, ActiveFieldNames(fields, metadataDoc), concurrently, rebuildIndexes, rebuildView)
  }
}

=== FILE: memory_datasets.dfy ===
/** The in-memory dataset index: a primary map of datasets with aliasing
    maps of the active and the archived ones, two lineage maps (dataset to
    its sources by classifier, and source to its derivations by classifier),
    and per-dataset lists of active and archived locations. Every operation
    is a transition of the whole index. `now` stands for the clock. */
module MemoryDatasets {
  import opened Common

  type Uuid = nat
  type Time = int

  /** A dataset as handed to `add`: its id, its uris if it has any, and its
      sources in dictionary order, each under a classifier. */
  datatype Dataset = Dataset(id: Uuid, uris: Option<seq<string>>, sources: seq<(string, Dataset)>)

  /** The stored copy of a dataset; the same object sits in `byId` and in one
      of the alias maps, so its archive time is seen through both. */
  datatype Stored = Stored(id: Uuid, archivedTime: Option<Time>)

  /** id -> classifier -> id */
  type Links = map<Uuid, map<string, Uuid>>

  datatype Index = Index(
    byId: map<Uuid, Stored>,
    activeById: map<Uuid, Stored>,
    archivedById: map<Uuid, Stored>,
    derivedFrom: Links,
    derivations: Links,
    locations: map<Uuid, seq<string>>,
    archivedLocations: map<Uuid, seq<(string, Time)>>)

  const EmptyIndex: Index := Index(map[], map[], map[], map[], map[], map[], map[])

  /** The active and archived maps partition the primary map and alias its
      entries; every known dataset has both location lists. */
  predicate Valid(ix: Index) {
    && ix.activeById.Keys !! ix.archivedById.Keys
    && ix.activeById.Keys + ix.archivedById.Keys == ix.byId.Keys
    && (forall k :: k in ix.byId ==> ix.byId[k].id == k)
    && (forall k :: k in ix.activeById ==> ix.activeById[k] == ix.byId[k] && ix.byId[k].archivedTime.None?)
    && (forall k :: k in ix.archivedById ==> ix.archivedById[k] == ix.byId[k] && ix.byId[k].archivedTime.Some?)
    && ix.byId.Keys <= ix.locations.Keys
    && ix.locations.Keys == ix.archivedLocations.Keys
  }

  lemma EmptyIndexIsValid()
    ensures Valid(EmptyIndex)
  {
  }

  /** Everything but the lineage maps is the same. */
  predicate SameDatasets(a: Index, b: Index) {
    a.byId == b.byId && a.activeById == b.activeById && a.archivedById == b.archivedById &&
    a.locations == b.locations && a.archivedLocations == b.archivedLocations
  }

  /** Validity does not depend on the lineage maps. */
  lemma SameDatasetsKeepValid(a: Index, b: Index)
    requires SameDatasets(a, b) && Valid(a)
    ensures Valid(b)
  {
  }

  /** Every link of `a` is still in `b` (possibly with another target). */
  predicate KeysKept(a: Links, b: Links) {
    forall k, c :: k in a && c in a[k] ==> k in b && c in b[k]
  }

  /** Both lineage maps keep their entries from `a` to `b`. */
  predicate LinksKept(a: Index, b: Index) {
    KeysKept(a.derivedFrom, b.derivedFrom) && KeysKept(a.derivations, b.derivations)
  }


  // --------------------------------------------------------------- add

  /** `add(dataset, with_lineage=False)`: a known id is left alone; a new one
      is stored as active with a copy of its uris (or none) as its locations
      and no archived locations. */
  function AddNoLineage(ix: Index, d: Dataset): (r: Index)
    ensures d.id in ix.byId ==> r == ix
    ensures r.byId.Keys == ix.byId.Keys + {d.id}
    ensures forall k :: k in ix.byId ==> r.byId[k] == ix.byId[k]
    ensures forall k :: k in ix.byId && k in ix.locations ==> k in r.locations && r.locations[k] == ix.locations[k]
    ensures d.id !in ix.byId ==>
              d.id in r.activeById && r.byId[d.id].archivedTime.None? &&
              d.id in r.locations && d.id in r.archivedLocations &&
              r.locations[d.id] == (if d.uris.Some? then d.uris.value else []) && r.archivedLocations[d.id] == []
    ensures r.derivedFrom == ix.derivedFrom && r.derivations == ix.derivations
  {
    if d.id in ix.byId then ix
    else
      var s := Stored(d.id, None);
      ix.(byId := ix.byId[d.id := s], activeById := ix.activeById[d.id := s],
          locations := ix.locations[d.id := if d.uris.Some? then d.uris.value else []],
          archivedLocations := ix.archivedLocations[d.id := []])
  }

  lemma AddNoLineageKeepsValid(ix: Index, d: Dataset)
    requires Valid(ix)
    ensures Valid(AddNoLineage(ix, d))
  {
  }

  /** Adding a known dataset a second time changes nothing. */
  lemma AddNoLineageTwice(ix: Index, d: Dataset)
    ensures AddNoLineage(AddNoLineage(ix, d), d) == AddNoLineage(ix, d)
  {
  }

  /** `persist_source_relationship(ds, src, classifier)`: records the link in
      both directions, overwriting whatever each direction held under the
      classifier; an overwritten link's other direction is not touched. */
  function Persist(ix: Index, dsId: Uuid, srcId: Uuid, classifier: string): (r: Index)
    ensures dsId in r.derivedFrom && classifier in r.derivedFrom[dsId] && r.derivedFrom[dsId][classifier] == srcId
    ensures srcId in r.derivations && classifier in r.derivations[srcId] && r.derivations[srcId][classifier] == dsId
    ensures SameDatasets(r, ix)
  {
    var from := if dsId in ix.derivedFrom then ix.derivedFrom[dsId] else map[];
    var back := if srcId in ix.derivations then ix.derivations[srcId] else map[];
    ix.(derivedFrom := ix.derivedFrom[dsId := from[classifier := srcId]],
        derivations := ix.derivations[srcId := back[classifier := dsId]])
  }

  /** Persisting a link leaves every other lineage entry as it was, and adds
      no entry but the two it records. */
  lemma PersistKeepsOthers(ix: Index, dsId: Uuid, srcId: Uuid, classifier: string)
    ensures var r := Persist(ix, dsId, srcId, classifier);
            r.derivedFrom.Keys == ix.derivedFrom.Keys + {dsId} &&
            r.derivations.Keys == ix.derivations.Keys + {srcId}
    ensures var r := Persist(ix, dsId, srcId, classifier);
            forall k, c :: k in ix.derivedFrom && c in ix.derivedFrom[k] && (k != dsId || c != classifier) ==>
              c in r.derivedFrom[k] && r.derivedFrom[k][c] == ix.derivedFrom[k][c]
    ensures var r := Persist(ix, dsId, srcId, classifier);
            forall k, c :: k in ix.derivations && c in ix.derivations[k] && (k != srcId || c != classifier) ==>
              c in r.derivations[k] && r.derivations[k][c] == ix.derivations[k][c]
    ensures var r := Persist(ix, dsId, srcId, classifier);
            forall k, c :: k in r.derivedFrom && c in r.derivedFrom[k] && (k != dsId || c != classifier) ==>
              k in ix.derivedFrom && c in ix.derivedFrom[k]
    ensures var r := Persist(ix, dsId, srcId, classifier);
            forall k, c :: k in r.derivations && c in r.derivations[k] && (k != srcId || c != classifier) ==>
              k in ix.derivations && c in ix.derivations[k]
  {
    var r := Persist(ix, dsId, srcId, classifier);
    var from := if dsId in ix.derivedFrom then ix.derivedFrom[dsId] else map[];
    var back := if srcId in ix.derivations then ix.derivations[srcId] else map[];
    assert r.derivedFrom == ix.derivedFrom[dsId := from[classifier := srcId]];
    assert r.derivations == ix.derivations[srcId := back[classifier := dsId]];
  }

  lemma LinksKeptTransitive(a: Index, b: Index, c: Index)
    requires LinksKept(a, b) && LinksKept(b, c)
    ensures LinksKept(a, c)
  {
  }

  /** Persisting a link keeps every existing lineage entry. */
  lemma PersistKeepsLinks(ix: Index, dsId: Uuid, srcId: Uuid, classifier: string)
    ensures var r := Persist(ix, dsId, srcId, classifier);
            LinksKept(ix, r)
  {
    PersistKeepsOthers(ix, dsId, srcId, classifier);
  }

  /** `add(dataset)` with lineage: the dataset itself, then for each source in
      order the source with its own lineage and the link to it. */
  function Add(ix: Index, d: Dataset): (r: Index)
    ensures d.id in r.byId && ix.byId.Keys <= r.byId.Keys
    decreases d, 1
  {
    AddSources(AddNoLineage(ix, d), d, 0)
  }

  /** Adding with lineage re-links the sources of a dataset that is already
      known, so a source's back-link under a shared classifier moves back to
      the re-added dataset: the call is not the no-op the abstract index
      promises. */
  lemma ReAddRetargetsBackLink()
    ensures var s := Dataset(3, None, []);
            var d1 := Dataset(1, None, [("c", s)]);
            var d2 := Dataset(2, None, [("c", s)]);
            var ix := Add(Add(EmptyIndex, d1), d2);
            && Valid(ix) && 1 in ix.byId
            && 3 in ix.derivations && "c" in ix.derivations[3] && ix.derivations[3]["c"] == 2
            && var ix' := Add(ix, d1);
               3 in ix'.derivations && "c" in ix'.derivations[3] && ix'.derivations[3]["c"] == 1
  {
    var s := Dataset(3, None, []);
    var d1 := Dataset(1, None, [("c", s)]);
    var d2 := Dataset(2, None, [("c", s)]);
    var ix1 := Add(EmptyIndex, d1);
    EmptyIndexIsValid();
    AddKeepsValid(EmptyIndex, d1);
    AddKeepsValid(ix1, d2);
    var ix := Add(ix1, d2);
    var p2 := Persist(Add(AddNoLineage(ix1, d2), s), 2, 3, "c");
    assert AddSources(AddNoLineage(ix1, d2), d2, 0) == AddSources(p2, d2, 1);
    assert ix == p2;
    var ix' := Add(ix, d1);
    var p1 := Persist(Add(AddNoLineage(ix, d1), s), 1, 3, "c");
    assert AddSources(AddNoLineage(ix, d1), d1, 0) == AddSources(p1, d1, 1);
    assert ix' == p1;
  }

  /** Adding as the abstract index documents it: a dataset whose id is
      already known leaves the index alone, lineage included; a new one is
      added with its lineage. */
  function AddIfAbsent(ix: Index, d: Dataset): (r: Index)
    ensures d.id in r.byId && ix.byId.Keys <= r.byId.Keys
    ensures d.id in ix.byId ==> r == ix
    ensures d.id !in ix.byId ==> r == Add(ix, d)
  {
    if d.id in ix.byId then ix else Add(ix, d)
  }

  /** Adding a dataset a second time is a no-op, lineage included. */
  lemma AddIfAbsentTwice(ix: Index, d: Dataset)
    ensures AddIfAbsent(AddIfAbsent(ix, d), d) == AddIfAbsent(ix, d)
  {
  }

  lemma AddIfAbsentKeepsValid(ix: Index, d: Dataset)
    requires Valid(ix)
    ensures Valid(AddIfAbsent(ix, d))
  {
    if d.id !in ix.byId {
      AddKeepsValid(ix, d);
    }
  }

  /** The loop over `dataset.sources` from position `i` on. */
  function AddSources(ix: Index, d: Dataset, i: nat): (r: Index)
    requires i <= |d.sources|
    ensures ix.byId.Keys <= r.byId.Keys
    decreases d, 0, |d.sources| - i
  {
    if i == |d.sources| then ix
    else
      var (classifier, src) := d.sources[i];
      var ix1 := Add(ix, src);
      var ix2 := Persist(ix1, d.id, src.id, classifier);
      AddSources(ix2, d, i + 1)
  }

  /** Adding never changes a dataset that was already known, nor its
      locations. */
  lemma {:induction false} AddKeepsKnown(ix: Index, d: Dataset)
    ensures var r := Add(ix, d);
            (forall k :: k in ix.byId ==> r.byId[k] == ix.byId[k]) &&
            (forall k :: k in ix.byId && k in ix.locations ==> k in r.locations && r.locations[k] == ix.locations[k])
    decreases d, 1
  {
    AddSourcesKeepsKnown(AddNoLineage(ix, d), d, 0);
  }

  lemma {:induction false} AddSourcesKeepsKnown(ix: Index, d: Dataset, i: nat)
    requires i <= |d.sources|
    ensures var r := AddSources(ix, d, i);
            (forall k :: k in ix.byId ==> r.byId[k] == ix.byId[k]) &&
            (forall k :: k in ix.byId && k in ix.locations ==> k in r.locations && r.locations[k] == ix.locations[k])
    decreases d, 0, |d.sources| - i
  {
    if i < |d.sources| {
      var src := d.sources[i].1;
      var ix2 := Persist(Add(ix, src), d.id, src.id, d.sources[i].0);
      assert AddSources(ix, d, i) == AddSources(ix2, d, i + 1);
      AddKeepsKnown(ix, src);
      assert SameDatasets(ix2, Add(ix, src));
      AddSourcesKeepsKnown(ix2, d, i + 1);
    }
  }

  /** Adding only ever adds or retargets lineage entries. */
  lemma {:induction false} AddKeepsLinks(ix: Index, d: Dataset)
    ensures var r := Add(ix, d);
            LinksKept(ix, r)
    decreases d, 1
  {
    AddSourcesKeepsLinks(AddNoLineage(ix, d), d, 0);
  }

  lemma {:induction false} AddSourcesKeepsLinks(ix: Index, d: Dataset, i: nat)
    requires i <= |d.sources|
    ensures var r := AddSources(ix, d, i);
            LinksKept(ix, r)
    decreases d, 0, |d.sources| - i
  {
    if i < |d.sources| {
      var src := d.sources[i].1;
      var ix2 := Persist(Add(ix, src), d.id, src.id, d.sources[i].0);
      assert AddSources(ix, d, i) == AddSources(ix2, d, i + 1);
      AddThenPersistKeepsLinks(ix, src, d.id, d.sources[i].0);
      AddSourcesKeepsLinks(ix2, d, i + 1);
      LinksKeptTransitive(ix, ix2, AddSources(ix2, d, i + 1));
    }
  }

  /** One turn of the loop: adding a source, then linking it. */
  lemma {:induction false} AddThenPersistKeepsLinks(ix: Index, src: Dataset, dsId: Uuid, classifier: string)
    ensures var r := Persist(Add(ix, src), dsId, src.id, classifier);
            LinksKept(ix, r)
    decreases src, 2
  {
    var ix1 := Add(ix, src);
    AddKeepsLinks(ix, src);
    PersistKeepsLinks(ix1, dsId, src.id, classifier);
    var ix2 := Persist(ix1, dsId, src.id, classifier);
    LinksKeptTransitive(ix, ix1, ix2);
  }

  /** After adding, every source of the dataset is known and the dataset has
      a lineage entry under each of its classifiers. */
  lemma AddRecordsSources(ix: Index, d: Dataset)
    ensures var r := Add(ix, d);
            forall i :: 0 <= i < |d.sources| ==>
              d.sources[i].1.id in r.byId && d.id in r.derivedFrom && d.sources[i].0 in r.derivedFrom[d.id]
  {
    forall j | 0 <= j < |d.sources|
      ensures var r := Add(ix, d);
              d.sources[j].1.id in r.byId && d.id in r.derivedFrom && d.sources[j].0 in r.derivedFrom[d.id]
    {
      AddSourcesRecordsSource(AddNoLineage(ix, d), d, 0, j);
    }
  }

  /** The loop from position `i` on records the source at position `j`. */
  lemma {:induction false} AddSourcesRecordsSource(ix: Index, d: Dataset, i: nat, j: nat)
    requires i <= j < |d.sources|
    ensures var r := AddSources(ix, d, i);
            d.sources[j].1.id in r.byId && d.id in r.derivedFrom && d.sources[j].0 in r.derivedFrom[d.id]
    decreases j - i
  {
    var src := d.sources[i].1;
    var ix2 := Persist(Add(ix, src), d.id, src.id, d.sources[i].0);
    assert AddSources(ix, d, i) == AddSources(ix2, d, i + 1);
    if i < j {
      AddSourcesRecordsSource(ix2, d, i + 1, j);
    } else {
      AddSourcesKeepsLinks(ix2, d, i + 1);
    }
  }

  /** Adding keeps the index valid. */
  lemma {:induction false} AddKeepsValid(ix: Index, d: Dataset)
    requires Valid(ix)
    ensures Valid(Add(ix, d))
    decreases d, 1
  {
    AddNoLineageKeepsValid(ix, d);
    AddSourcesKeepsValid(AddNoLineage(ix, d), d, 0);
  }

  lemma {:induction false} AddSourcesKeepsValid(ix: Index, d: Dataset, i: nat)
    requires i <= |d.sources|
    requires Valid(ix)
    ensures Valid(AddSources(ix, d, i))
    decreases d, 0, |d.sources| - i
  {
    if i < |d.sources| {
      var src := d.sources[i].1;
      var ix2 := Persist(Add(ix, src), d.id, src.id, d.sources[i].0);
      assert AddSources(ix, d, i) == AddSources(ix2, d, i + 1);
      AddKeepsValid(ix, src);
      SameDatasetsKeepValid(Add(ix, src), ix2);
      AddSourcesKeepsValid(ix2, d, i + 1);
    }
  }

  // ------------------------------------------------------- archive, restore

  /** One step of the archive loop. */
  function ArchiveOne(ix: Index, id: Uuid, now: Time): (r: Index)
    ensures id !in ix.activeById ==> r == ix
    ensures id in ix.activeById ==>
              r.activeById == ix.activeById - {id} &&
              r.archivedById == ix.archivedById[id := ix.activeById[id].(archivedTime := Some(now))] &&
              r.byId == ix.byId[id := ix.activeById[id].(archivedTime := Some(now))]
    ensures r.derivedFrom == ix.derivedFrom && r.derivations == ix.derivations
    ensures r.locations == ix.locations && r.archivedLocations == ix.archivedLocations
  {
    if id in ix.activeById then
      var s := ix.activeById[id].(archivedTime := Some(now));
      ix.(activeById := ix.activeById - {id}, archivedById := ix.archivedById[id := s], byId := ix.byId[id := s])
    else ix
  }

  lemma ArchiveOneKeepsValid(ix: Index, id: Uuid, now: Time)
    requires Valid(ix)
    ensures Valid(ArchiveOne(ix, id, now))
  {
  }

  /** `archive(ids)`: each id that is active moves to the archived map with
      the archive time; other ids are ignored. */
  function ArchiveAll(ix: Index, ids: seq<Uuid>, now: Time): (r: Index)
    decreases |ids|
    ensures forall k :: k in r.activeById <==> k in ix.activeById && k !in ids
    ensures forall k :: k in r.archivedById <==> k in ix.archivedById || (k in ix.activeById && k in ids)
    ensures forall k :: k in r.byId <==> k in ix.byId || (k in ix.activeById && k in ids)
    ensures forall k :: k in r.activeById ==> r.activeById[k] == ix.activeById[k]
    ensures forall k :: k in ix.archivedById && !(k in ix.activeById && k in ids) ==> r.archivedById[k] == ix.archivedById[k]
    ensures forall k :: k in ix.byId && !(k in ix.activeById && k in ids) ==> r.byId[k] == ix.byId[k]
    ensures r.derivedFrom == ix.derivedFrom && r.derivations == ix.derivations
    ensures r.locations == ix.locations && r.archivedLocations == ix.archivedLocations
  {
    if |ids| == 0 then ix
    else
      var ix1 := ArchiveOne(ix, ids[0], now);
      var r := ArchiveAll(ix1, ids[1..], now);
      assert forall k :: k in ids <==> k == ids[0] || k in ids[1..];
      r
  }

  /** Each archived id carries the archive time, in both maps. */
  lemma {:induction false} ArchiveAllStamps(ix: Index, ids: seq<Uuid>, now: Time)
    ensures var r := ArchiveAll(ix, ids, now);
            forall k :: k in ix.activeById && k in ids ==>
              r.archivedById[k] == r.byId[k] == ix.activeById[k].(archivedTime := Some(now))
    decreases |ids|
  {
    if |ids| > 0 {
      var ix1 := ArchiveOne(ix, ids[0], now);
      var r := ArchiveAll(ix1, ids[1..], now);
      assert r == ArchiveAll(ix, ids, now);
      ArchiveAllStamps(ix1, ids[1..], now);
      forall k | k in ix.activeById && k in ids
        ensures r.archivedById[k] == r.byId[k] == ix.activeById[k].(archivedTime := Some(now))
      {
        var stamped := ix.activeById[k].(archivedTime := Some(now));
        if k == ids[0] {
          assert ix1.archivedById[k] == stamped && ix1.byId[k] == stamped && k !in ix1.activeById;
        } else {
          assert k in ids[1..] && k in ix1.activeById && ix1.activeById[k] == ix.activeById[k];
        }
      }
    }
  }

  /** Archiving keeps the index valid. */
  lemma {:induction false} ArchiveAllKeepsValid(ix: Index, ids: seq<Uuid>, now: Time)
    requires Valid(ix)
    ensures Valid(ArchiveAll(ix, ids, now))
    decreases |ids|
  {
    if |ids| > 0 {
      ArchiveOneKeepsValid(ix, ids[0], now);
      ArchiveAllKeepsValid(ArchiveOne(ix, ids[0], now), ids[1..], now);
    }
  }

  /** One step of the restore loop. */
  function RestoreOne(ix: Index, id: Uuid): (r: Index)
    ensures id !in ix.archivedById ==> r == ix
    ensures id in ix.archivedById ==>
              r.archivedById == ix.archivedById - {id} &&
              r.activeById == ix.activeById[id := ix.archivedById[id].(archivedTime := None)] &&
              r.byId == ix.byId[id := ix.archivedById[id].(archivedTime := None)]
    ensures r.derivedFrom == ix.derivedFrom && r.derivations == ix.derivations
    ensures r.locations == ix.locations && r.archivedLocations == ix.archivedLocations
  {
    if id in ix.archivedById then
      var s := ix.archivedById[id].(archivedTime := None);
      ix.(archivedById := ix.archivedById - {id}, activeById := ix.activeById[id := s], byId := ix.byId[id := s])
    else ix
  }

  lemma RestoreOneKeepsValid(ix: Index, id: Uuid)
    requires Valid(ix)
    ensures Valid(RestoreOne(ix, id))
  {
  }

  /** `restore(ids)`: each id that is archived moves back to the active map
      with no archive time; other ids are ignored. */
  function RestoreAll(ix: Index, ids: seq<Uuid>): (r: Index)
    decreases |ids|
    ensures forall k :: k in r.archivedById <==> k in ix.archivedById && k !in ids
    ensures forall k :: k in r.activeById <==> k in ix.activeById || (k in ix.archivedById && k in ids)
    ensures forall k :: k in r.byId <==> k in ix.byId || (k in ix.archivedById && k in ids)
    ensures forall k :: k in r.archivedById ==> r.archivedById[k] == ix.archivedById[k]
    ensures forall k :: k in ix.activeById && !(k in ix.archivedById && k in ids) ==> r.activeById[k] == ix.activeById[k]
    ensures forall k :: k in ix.byId && !(k in ix.archivedById && k in ids) ==> r.byId[k] == ix.byId[k]
    ensures r.derivedFrom == ix.derivedFrom && r.derivations == ix.derivations
    ensures r.locations == ix.locations && r.archivedLocations == ix.archivedLocations
  {
    if |ids| == 0 then ix
    else
      var ix1 := RestoreOne(ix, ids[0]);
      var r := RestoreAll(ix1, ids[1..]);
      assert forall k :: k in ids <==> k == ids[0] || k in ids[1..];
      r
  }

  /** Archiving ids none of which is active changes nothing. */
  lemma {:induction false} ArchiveOfInactiveIsIdentity(ix: Index, ids: seq<Uuid>, now: Time)
    requires forall k :: k in ids ==> k !in ix.activeById
    ensures ArchiveAll(ix, ids, now) == ix
    decreases |ids|
  {
    if |ids| > 0 {
      assert ArchiveOne(ix, ids[0], now) == ix;
      ArchiveOfInactiveIsIdentity(ix, ids[1..], now);
    }
  }

  /** Restoring ids none of which is archived changes nothing. */
  lemma {:induction false} RestoreOfUnarchivedIsIdentity(ix: Index, ids: seq<Uuid>)
    requires forall k :: k in ids ==> k !in ix.archivedById
    ensures RestoreAll(ix, ids) == ix
    decreases |ids|
  {
    if |ids| > 0 {
      assert RestoreOne(ix, ids[0]) == ix;
      RestoreOfUnarchivedIsIdentity(ix, ids[1..]);
    }
  }

  /** Each restored id has its archive time cleared, in both maps. */
  lemma {:induction false} RestoreAllClears(ix: Index, ids: seq<Uuid>)
    ensures var r := RestoreAll(ix, ids);
            forall k :: k in ix.archivedById && k in ids ==>
              r.activeById[k] == r.byId[k] == ix.archivedById[k].(archivedTime := None)
    decreases |ids|
  {
    if |ids| > 0 {
      var ix1 := RestoreOne(ix, ids[0]);
      var r := RestoreAll(ix1, ids[1..]);
      assert r == RestoreAll(ix, ids);
      RestoreAllClears(ix1, ids[1..]);
      forall k | k in ix.archivedById && k in ids
        ensures r.activeById[k] == r.byId[k] == ix.archivedById[k].(archivedTime := None)
      {
        var cleared := ix.archivedById[k].(archivedTime := None);
        if k == ids[0] {
          assert ix1.activeById[k] == cleared && ix1.byId[k] == cleared && k !in ix1.archivedById;
        } else {
          assert k in ids[1..] && k in ix1.archivedById && ix1.archivedById[k] == ix.archivedById[k];
        }
      }
    }
  }

  /** Restoring keeps the index valid. */
  lemma {:induction false} RestoreAllKeepsValid(ix: Index, ids: seq<Uuid>)
    requires Valid(ix)
    ensures Valid(RestoreAll(ix, ids))
    decreases |ids|
  {
    if |ids| > 0 {
      RestoreOneKeepsValid(ix, ids[0]);
      RestoreAllKeepsValid(RestoreOne(ix, ids[0]), ids[1..]);
    }
  }

  /** Archiving is idempotent: a second archive of the same ids changes
      nothing, whatever the clock says. */
  lemma ArchiveIsIdempotent(ix: Index, ids: seq<Uuid>, t1: Time, t2: Time)
    ensures ArchiveAll(ArchiveAll(ix, ids, t1), ids, t2) == ArchiveAll(ix, ids, t1)
  {
    ArchiveOfInactiveIsIdentity(ArchiveAll(ix, ids, t1), ids, t2);
  }

  /** Restoring is idempotent. */
  lemma RestoreIsIdempotent(ix: Index, ids: seq<Uuid>)
    ensures RestoreAll(RestoreAll(ix, ids), ids) == RestoreAll(ix, ids)
  {
    RestoreOfUnarchivedIsIdentity(RestoreAll(ix, ids), ids);
  }

  /** The active map after archiving then restoring active ids. */
  lemma RestoreUndoesArchiveActive(ix: Index, ids: seq<Uuid>, now: Time)
    requires forall k :: k in ix.activeById ==> ix.activeById[k].archivedTime.None?
    requires forall k :: k in ids ==> k in ix.activeById
    ensures RestoreAll(ArchiveAll(ix, ids, now), ids).activeById == ix.activeById
  {
    var a := ArchiveAll(ix, ids, now);
    var b := RestoreAll(a, ids);
    ArchiveAllStamps(ix, ids, now);
    RestoreAllClears(a, ids);
    assert b.activeById.Keys == ix.activeById.Keys;
    forall k | k in ix.activeById ensures b.activeById[k] == ix.activeById[k] {
      if k in ids {
        assert b.activeById[k] == a.archivedById[k].(archivedTime := None);
      }
    }
  }

  /** The archived map after archiving then restoring active ids. */
  lemma RestoreUndoesArchiveArchived(ix: Index, ids: seq<Uuid>, now: Time)
    requires ix.activeById.Keys !! ix.archivedById.Keys
    requires forall k :: k in ids ==> k in ix.activeById
    ensures RestoreAll(ArchiveAll(ix, ids, now), ids).archivedById == ix.archivedById
  {
    var b := RestoreAll(ArchiveAll(ix, ids, now), ids);
    assert b.archivedById.Keys == ix.archivedById.Keys;
  }

  /** The primary map after archiving then restoring active ids. */
  lemma RestoreUndoesArchivePrimary(ix: Index, ids: seq<Uuid>, now: Time)
    requires forall k :: k in ix.activeById ==> k in ix.byId && ix.byId[k] == ix.activeById[k] && ix.activeById[k].archivedTime.None?
    requires forall k :: k in ids ==> k in ix.activeById
    ensures RestoreAll(ArchiveAll(ix, ids, now), ids).byId == ix.byId
  {
    var a := ArchiveAll(ix, ids, now);
    ArchiveAllStamps(ix, ids, now);
    RestoreAllClears(a, ids);
    PrimaryRoundTrip(ix.byId, ix.activeById, a.byId, a.archivedById, RestoreAll(a, ids).byId, ids, now);
  }

  /** The primary map through the two passes, stated on the maps alone:
      `mid` is `before` with the ids stamped, `after` is `mid` with the
      stamps cleared. */
  lemma PrimaryRoundTrip(before: map<Uuid, Stored>, active: map<Uuid, Stored>,
                         mid: map<Uuid, Stored>, midArchived: map<Uuid, Stored>,
                         after: map<Uuid, Stored>, ids: seq<Uuid>, now: Time)
    requires forall k :: k in active ==> k in before && before[k] == active[k] && active[k].archivedTime.None?
    requires forall k :: k in ids ==> k in active
    requires forall k :: k in mid <==> k in before || (k in active && k in ids)
    requires forall k :: k in before && !(k in active && k in ids) ==> mid[k] == before[k]
    requires forall k :: k in active && k in ids ==> k in midArchived && midArchived[k] == active[k].(archivedTime := Some(now))
    requires forall k :: k in after <==> k in mid || (k in midArchived && k in ids)
    requires forall k :: k in mid && !(k in midArchived && k in ids) ==> after[k] == mid[k]
    requires forall k :: k in midArchived && k in ids ==> after[k] == midArchived[k].(archivedTime := None)
    ensures after == before
  {
    assert after.Keys == before.Keys;
    forall k | k in before ensures after[k] == before[k] {
      if k in ids {
        assert after[k] == midArchived[k].(archivedTime := None);
      }
    }
  }

  /** Restoring what was just archived gives back the index, when every id
      was active. */
  lemma RestoreUndoesArchive(ix: Index, ids: seq<Uuid>, now: Time)
    requires Valid(ix)
    requires forall k :: k in ids ==> k in ix.activeById
    ensures RestoreAll(ArchiveAll(ix, ids, now), ids) == ix
  {
    RestoreUndoesArchiveActive(ix, ids, now);
    RestoreUndoesArchiveArchived(ix, ids, now);
    RestoreUndoesArchivePrimary(ix, ids, now);
  }

  /** `get_all_dataset_ids(archived)`. */
  function GetAllDatasetIds(ix: Index, archived: bool): (ids: set<Uuid>)
    ensures ids == if archived then ix.archivedById.Keys else ix.activeById.Keys
  {
    if archived then ix.archivedById.Keys else ix.activeById.Keys
  }

  /** In a valid index each known dataset is reported by exactly one of the
      two id listings. */
  lemma AllDatasetIdsPartition(ix: Index)
    requires Valid(ix)
    ensures GetAllDatasetIds(ix, true) !! GetAllDatasetIds(ix, false)
    ensures GetAllDatasetIds(ix, true) + GetAllDatasetIds(ix, false) == ix.byId.Keys
  {
  }

  // ------------------------------------------------------------------ purge

  /** Deletes `links[pairs[c]][c]` for every classifier `c` of `pairs`, as the
      purge loops do; a missing entry raises KeyError. Distinct classifiers
      name distinct entries, so the order of deletion does not matter. */
  function DeleteEach(links: Links, pairs: map<string, Uuid>): (r: Result<Links>)
    ensures r.Err? <==> exists c :: c in pairs && (pairs[c] !in links || c !in links[pairs[c]])
    ensures r.Err? ==> r.error == KeyError
    ensures r.Ok? ==> r.value.Keys == links.Keys
    ensures r.Ok? ==> forall k, c :: k in links ==>
              (c in r.value[k] <==> c in links[k] && !(c in pairs && pairs[c] == k))
    ensures r.Ok? ==> forall k, c :: k in links && c in r.value[k] ==> c in links[k] && r.value[k][c] == links[k][c]
  {
    if exists c :: c in pairs && (pairs[c] !in links || c !in links[pairs[c]]) then Err(KeyError)
    else Ok(map k | k in links :: map c | c in links[k] && !(c in pairs && pairs[c] == k) :: links[k][c])
  }

  /** `purge` of one id as written: an archived id is dropped from the
      primary and archived maps; the back-links of its sources are deleted
      under its classifiers, then the links of its derivations. */
  function PurgeOneAsWritten(ix: Index, id: Uuid): (r: Result<Index>)
    ensures id !in ix.archivedById ==> r == Ok(ix)
    ensures r.Err? ==> r.error == KeyError
    ensures r.Ok? ==> r.value.activeById == ix.activeById && r.value.archivedById == ix.archivedById - {id}
  {
    if id !in ix.archivedById then Ok(ix)
    else
      var ix1 := ix.(archivedById := ix.archivedById - {id}, byId := ix.byId - {id});
      var step :=
        if id in ix1.derivedFrom then
          match DeleteEach(ix1.derivations, ix1.derivedFrom[id])
          case Err(e) => Err(e)
          case Ok(back) => Ok(ix1.(derivations := back, derivedFrom := ix1.derivedFrom - {id}))
        else Ok(ix1);
      match step
      case Err(e) => Err(e)
      case Ok(ix2) =>
        if id in ix2.derivations then
          match DeleteEach(ix2.derivedFrom, ix2.derivations[id])
          case Err(e) => Err(e)
          case Ok(from) => Ok(ix2.(derivedFrom := from, derivations := ix2.derivations - {id}))
        else Ok(ix2)
  }

  /** `purge(ids)` as written: the ids in order, stopping at the first error. */
  function PurgeAsWritten(ix: Index, ids: seq<Uuid>): (r: Result<Index>)
    decreases |ids|
    ensures r.Err? ==> r.error == KeyError
    ensures r.Ok? ==> r.value.activeById == ix.activeById
  {
    if |ids| == 0 then Ok(ix)
    else
      match PurgeOneAsWritten(ix, ids[0])
      case Err(e) => Err(e)
      case Ok(ix1) => PurgeAsWritten(ix1, ids[1..])
  }

  /** Datasets 1 and 2 (archived) and 3 (active), no lineage yet. */
  const SharedSourceStart: Index :=
    Index(map[1 := Stored(1, Some(0)), 2 := Stored(2, Some(0)), 3 := Stored(3, None)],
          map[3 := Stored(3, None)],
          map[1 := Stored(1, Some(0)), 2 := Stored(2, Some(0))],
          map[], map[],
          map[1 := [], 2 := [], 3 := []], map[1 := [], 2 := [], 3 := []])

  /** 1 and 2 both derived from 3 under the classifier "c"; the second link
      overwrote the first back-link. */
  function SharedSource(): (ix: Index)
    ensures ix.derivedFrom == map[1 := map["c" := 3], 2 := map["c" := 3]]
    ensures ix.derivations == map[3 := map["c" := 2]]
    ensures SameDatasets(ix, SharedSourceStart)
  {
    var a := Persist(SharedSourceStart, 1, 3, "c");
    assert a.derivedFrom == map[1 := map["c" := 3]];
    assert a.derivations == map[3 := map["c" := 1]];
    var b := Persist(a, 2, 3, "c");
    assert b.derivations[3] == map["c" := 2];
    b
  }

  /** The start index and the linked one are both valid. */
  lemma SharedSourceIsValid()
    ensures Valid(SharedSourceStart) && Valid(SharedSource())
  {
    SameDatasetsKeepValid(SharedSourceStart, SharedSource());
  }

  /** Purging an archived dataset whose source has lost the back-link under
      one of its classifiers raises KeyError. */
  lemma PurgeOneAsWrittenMissingBackLink(ix: Index, id: Uuid, c: string)
    requires id in ix.archivedById && id in ix.derivedFrom && c in ix.derivedFrom[id]
    requires ix.derivedFrom[id][c] !in ix.derivations || c !in ix.derivations[ix.derivedFrom[id][c]]
    ensures PurgeOneAsWritten(ix, id) == Err(KeyError)
  {
  }

  /** Purging 1 deletes the back-link that belongs to 2, so purging 2 next
      raises KeyError. */
  lemma PurgeOfSharedSourceFails()
    ensures Valid(SharedSource())
    ensures PurgeAsWritten(SharedSource(), [1, 2]) == Err(KeyError)
  {
    SharedSourceIsValid();
    var ix := SharedSource();
    var p1 := PurgeOneAsWritten(ix, 1);
    var back := DeleteEach(ix.derivations, map["c" := 3]);
    assert back.Ok? && 3 in back.value && "c" !in back.value[3];
    assert p1.Ok? && p1.value.derivations == back.value;
    assert 2 in p1.value.archivedById;
    assert 2 in p1.value.derivedFrom && p1.value.derivedFrom[2] == map["c" := 3];
    PurgeOneAsWrittenMissingBackLink(p1.value, 2, "c");
    assert [1, 2][1..] == [2];
  }

  /** Every link pointing at `id` removed. */
  function DropLinksTo(links: Links, id: Uuid): (r: Links)
    ensures r.Keys == links.Keys
    ensures forall k, c :: k in links ==> (c in r[k] <==> c in links[k] && links[k][c] != id)
    ensures forall k, c :: k in r && c in r[k] ==> r[k][c] == links[k][c]
  {
    map k | k in links :: map c | c in links[k] && links[k][c] != id :: links[k][c]
  }

  /** No lineage entry names the dataset, in either position. */
  predicate Unlinked(links: Links, id: Uuid) {
    id !in links && forall k, c :: k in links && c in links[k] ==> links[k][c] != id
  }

  /** Purge of one id as intended: an archived id leaves the primary and
      archived maps, and every lineage entry naming it in either map goes,
      so it cannot fail on links an earlier overwrite left behind. */
  function PurgeOne(ix: Index, id: Uuid): (r: Index)
    ensures id !in ix.archivedById ==> r == ix
    ensures id in ix.archivedById ==>
              id !in r.byId && Unlinked(r.derivedFrom, id) && Unlinked(r.derivations, id)
    ensures r.activeById == ix.activeById && r.locations == ix.locations && r.archivedLocations == ix.archivedLocations
    ensures r.archivedById == ix.archivedById - {id}
    ensures r.byId.Keys == ix.byId.Keys - (ix.archivedById.Keys * {id})
    ensures forall k :: k in r.byId ==> r.byId[k] == ix.byId[k]
    ensures forall k, c :: k in ix.derivedFrom && k != id && c in ix.derivedFrom[k] && ix.derivedFrom[k][c] != id ==>
              k in r.derivedFrom && c in r.derivedFrom[k] && r.derivedFrom[k][c] == ix.derivedFrom[k][c]
    ensures forall k, c :: k in ix.derivations && k != id && c in ix.derivations[k] && ix.derivations[k][c] != id ==>
              k in r.derivations && c in r.derivations[k] && r.derivations[k][c] == ix.derivations[k][c]
    ensures forall other :: Unlinked(ix.derivedFrom, other) ==> Unlinked(r.derivedFrom, other)
    ensures forall other :: Unlinked(ix.derivations, other) ==> Unlinked(r.derivations, other)
  {
    if id !in ix.archivedById then ix
    else
      ix.(archivedById := ix.archivedById - {id}, byId := ix.byId - {id},
          derivedFrom := DropLinksTo(ix.derivedFrom - {id}, id),
          derivations := DropLinksTo(ix.derivations - {id}, id))
  }

  lemma PurgeOneKeepsValid(ix: Index, id: Uuid)
    requires Valid(ix)
    ensures Valid(PurgeOne(ix, id))
  {
  }

  /** `purge(ids)` as intended: only archived ids are removed, active
      datasets are untouched, and no purged id is left in the lineage. */
  function Purge(ix: Index, ids: seq<Uuid>): (r: Index)
    decreases |ids|
    ensures r.activeById == ix.activeById
    ensures forall k :: k in r.archivedById <==> k in ix.archivedById && k !in ids
    ensures forall k :: k in r.byId <==> k in ix.byId && !(k in ix.archivedById && k in ids)
    ensures forall k :: k in r.byId ==> r.byId[k] == ix.byId[k]
    ensures forall k :: k in r.archivedById ==> r.archivedById[k] == ix.archivedById[k]
    ensures forall k :: k in ids && k in ix.archivedById ==> Unlinked(r.derivedFrom, k) && Unlinked(r.derivations, k)
    ensures forall other :: Unlinked(ix.derivedFrom, other) ==> Unlinked(r.derivedFrom, other)
    ensures forall other :: Unlinked(ix.derivations, other) ==> Unlinked(r.derivations, other)
  {
    if |ids| == 0 then ix
    else
      var ix1 := PurgeOne(ix, ids[0]);
      var r := Purge(ix1, ids[1..]);
      assert forall k :: k in ids <==> k == ids[0] || k in ids[1..];
      r
  }

  /** Purging keeps the index valid. */
  lemma {:induction false} PurgeKeepsValid(ix: Index, ids: seq<Uuid>)
    requires Valid(ix)
    ensures Valid(Purge(ix, ids))
    decreases |ids|
  {
    if |ids| > 0 {
      PurgeOneKeepsValid(ix, ids[0]);
      PurgeKeepsValid(PurgeOne(ix, ids[0]), ids[1..]);
    }
  }

  /** Purging two archived datasets of an index whose only other dataset is
      active leaves that one alone, with neither purged id in the lineage. */
  lemma PurgeOfArchivedPairSucceeds(ix: Index)
    requires ix.byId.Keys == {1, 2, 3} && ix.archivedById.Keys == {1, 2}
    ensures var r := Purge(ix, [1, 2]);
            r.byId.Keys == {3} && r.archivedById == map[] &&
            Unlinked(r.derivedFrom, 1) && Unlinked(r.derivations, 1) &&
            Unlinked(r.derivedFrom, 2) && Unlinked(r.derivations, 2)
  {
    var r := Purge(ix, [1, 2]);
    assert 1 in [1, 2] && 2 in [1, 2] && 3 !in [1, 2];
    assert forall k :: k in r.byId <==> k == 3;
    assert forall k :: k !in r.archivedById;
  }

  /** The intended purge clears the scenario the written one fails on. */
  lemma PurgeOfSharedSourceSucceeds()
    ensures var r := Purge(SharedSource(), [1, 2]);
            r.byId.Keys == {3} && Unlinked(r.derivedFrom, 1) && Unlinked(r.derivations, 2)
  {
    var ix := SharedSource();
    assert ix.byId.Keys == {1, 2, 3} && ix.archivedById.Keys == {1, 2};
    PurgeOfArchivedPairSucceeds(ix);
  }

  // -------------------------------------------------------------- locations

  /** The uris of a list, with every copy of `uri` left out, order kept. */
  function Without(locs: seq<string>, uri: string): (r: seq<string>)
    ensures forall x :: x in r <==> x in locs && x != uri
    ensures |r| <= |locs|
    ensures |r| == |locs| <==> uri !in locs
    ensures uri !in locs ==> r == locs
  {
    if |locs| == 0 then []
    else if locs[0] == uri then Without(locs[1..], uri)
    else [locs[0]] + Without(locs[1..], uri)
  }

  /** The uris of archived entries, in order. */
  function ArchivedUris(locs: seq<(string, Time)>): (r: seq<string>)
    ensures |r| == |locs|
    ensures forall i :: 0 <= i < |locs| ==> r[i] == locs[i].0
  {
    if |locs| == 0 then [] else [locs[0].0] + ArchivedUris(locs[1..])
  }

  /** The archived entries, with every entry for `uri` left out, order kept. */
  function WithoutArchived(locs: seq<(string, Time)>, uri: string): (r: seq<(string, Time)>)
    ensures forall e :: e in r <==> e in locs && e.0 != uri
    ensures forall x :: x in ArchivedUris(r) <==> x in ArchivedUris(locs) && x != uri
    ensures |r| <= |locs|
    ensures |r| == |locs| <==> uri !in ArchivedUris(locs)
    ensures uri !in ArchivedUris(locs) ==> r == locs
  {
    if |locs| == 0 then []
    else
      var rest := WithoutArchived(locs[1..], uri);
      assert ArchivedUris(locs) == [locs[0].0] + ArchivedUris(locs[1..]);
      if locs[0].0 == uri then rest
      else
        assert ArchivedUris([locs[0]] + rest) == [locs[0].0] + ArchivedUris(rest);
        [locs[0]] + rest
  }

  /** `get_locations(id)`: the active uris; an unknown id raises KeyError. */
  function GetLocations(ix: Index, id: Uuid): (r: Result<seq<string>>)
    ensures r.Err? <==> id !in ix.locations
    ensures r.Err? ==> r.error == KeyError
    ensures r.Ok? ==> r.value == ix.locations[id]
  {
    if id in ix.locations then Ok(ix.locations[id]) else Err(KeyError)
  }

  /** `get_archived_locations(id)`: the archived uris, in archive order. */
  function GetArchivedLocations(ix: Index, id: Uuid): (r: Result<seq<string>>)
    ensures r.Err? <==> id !in ix.archivedLocations
    ensures r.Err? ==> r.error == KeyError
    ensures r.Ok? ==> |r.value| == |ix.archivedLocations[id]|
    ensures r.Ok? ==> forall i :: 0 <= i < |r.value| ==> r.value[i] == ix.archivedLocations[id][i].0
  {
    if id in ix.archivedLocations then Ok(ArchivedUris(ix.archivedLocations[id])) else Err(KeyError)
  }

  /** Only the location lists of `id` may differ. */
  predicate OnlyLocationsOf(a: Index, b: Index, id: Uuid) {
    a.byId == b.byId && a.activeById == b.activeById && a.archivedById == b.archivedById &&
    a.derivedFrom == b.derivedFrom && a.derivations == b.derivations &&
    a.locations.Keys == b.locations.Keys && a.archivedLocations.Keys == b.archivedLocations.Keys &&
    (forall k :: k in a.locations && k != id ==> b.locations[k] == a.locations[k]) &&
    (forall k :: k in a.archivedLocations && k != id ==> b.archivedLocations[k] == a.archivedLocations[k])
  }

  /** Changing only location lists keeps the index valid. */
  lemma OnlyLocationsKeepValid(a: Index, b: Index, id: Uuid)
    requires OnlyLocationsOf(a, b, id) && Valid(a)
    ensures Valid(b)
  {
  }

  /** `add_location(id, uri)`: false for an unknown dataset (archived ones are
      known), an empty uri or a uri already active; otherwise the uri is
      appended to the active list. */
  function AddLocation(ix: Index, id: Uuid, uri: string): (r: Result<(Index, bool)>)
    ensures r.Err? <==> id in ix.byId && |uri| > 0 && id !in ix.locations
    ensures r.Err? ==> r.error == KeyError
    ensures r.Ok? ==> (r.value.1 <==> id in ix.byId && |uri| > 0 && uri !in ix.locations[id])
    ensures r.Ok? && !r.value.1 ==> r.value.0 == ix
    ensures r.Ok? && r.value.1 ==>
              OnlyLocationsOf(ix, r.value.0, id) &&
              r.value.0.locations[id] == ix.locations[id] + [uri] &&
              r.value.0.archivedLocations == ix.archivedLocations
  {
    if id !in ix.byId || |uri| == 0 then Ok((ix, false))
    else if id !in ix.locations then Err(KeyError)
    else if uri in ix.locations[id] then Ok((ix, false))
    else Ok((ix.(locations := ix.locations[id := ix.locations[id] + [uri]]), true))
  }

  /** A valid index never raises in `add_location`, and the added uri is then
      reported by `get_locations`. */
  lemma AddLocationThenGet(ix: Index, id: Uuid, uri: string)
    requires Valid(ix)
    ensures AddLocation(ix, id, uri).Ok?
    ensures var r := AddLocation(ix, id, uri).value;
            Valid(r.0) && (id in ix.byId && |uri| > 0 ==> GetLocations(r.0, id).Ok? && uri in GetLocations(r.0, id).value)
  {
    var r := AddLocation(ix, id, uri).value;
    if r.1 {
      OnlyLocationsKeepValid(ix, r.0, id);
    }
  }

  /** A second `add_location` of the same uri reports false and changes
      nothing. */
  lemma AddLocationTwice(ix: Index, id: Uuid, uri: string)
    requires AddLocation(ix, id, uri).Ok?
    ensures var r := AddLocation(ix, id, uri).value.0;
            AddLocation(r, id, uri) == Ok((r, false))
  {
  }

  /** `archive_location(id, uri)`: false when the dataset has no active list
      or the uri is not active; otherwise every copy leaves the active list
      and one `(uri, now)` entry is appended to the archived list, which
      raises KeyError when missing. */
  function ArchiveLocation(ix: Index, id: Uuid, uri: string, now: Time): (r: Result<(Index, bool)>)
    ensures r.Err? <==> id in ix.locations && uri in ix.locations[id] && id !in ix.archivedLocations
    ensures r.Err? ==> r.error == KeyError
    ensures r.Ok? ==> (r.value.1 <==> id in ix.locations && uri in ix.locations[id])
    ensures r.Ok? && !r.value.1 ==> r.value.0 == ix
    ensures r.Ok? && r.value.1 ==>
              OnlyLocationsOf(ix, r.value.0, id) &&
              r.value.0.locations[id] == Without(ix.locations[id], uri) &&
              r.value.0.archivedLocations[id] == ix.archivedLocations[id] + [(uri, now)]
  {
    if id !in ix.locations || uri !in ix.locations[id] then Ok((ix, false))
    else if id !in ix.archivedLocations then Err(KeyError)
    else Ok((ix.(locations := ix.locations[id := Without(ix.locations[id], uri)],
                 archivedLocations := ix.archivedLocations[id := ix.archivedLocations[id] + [(uri, now)]]), true))
  }

  /** `restore_location(id, uri)`: false when the dataset has no archived list
      or the uri is not archived; otherwise every archived entry for it goes
      and the uri is appended to the active list, which raises KeyError when
      missing. */
  function RestoreLocation(ix: Index, id: Uuid, uri: string): (r: Result<(Index, bool)>)
    ensures r.Err? <==> id in ix.archivedLocations && uri in ArchivedUris(ix.archivedLocations[id]) && id !in ix.locations
    ensures r.Err? ==> r.error == KeyError
    ensures r.Ok? ==> (r.value.1 <==> id in ix.archivedLocations && uri in ArchivedUris(ix.archivedLocations[id]))
    ensures r.Ok? && !r.value.1 ==> r.value.0 == ix
    ensures r.Ok? && r.value.1 ==>
              OnlyLocationsOf(ix, r.value.0, id) &&
              r.value.0.archivedLocations[id] == WithoutArchived(ix.archivedLocations[id], uri) &&
              r.value.0.locations[id] == ix.locations[id] + [uri]
  {
    if id !in ix.archivedLocations || uri !in ArchivedUris(ix.archivedLocations[id]) then Ok((ix, false))
    else if id !in ix.locations then Err(KeyError)
    else Ok((ix.(archivedLocations := ix.archivedLocations[id := WithoutArchived(ix.archivedLocations[id], uri)],
                 locations := ix.locations[id := ix.locations[id] + [uri]]), true))
  }

  /** Archiving an active uri moves it: it is no longer active and is
      reported among the archived ones; the index stays valid. */
  lemma ArchiveLocationMovesUri(ix: Index, id: Uuid, uri: string, now: Time)
    requires Valid(ix) && id in ix.locations && uri in ix.locations[id]
    ensures ArchiveLocation(ix, id, uri, now).Ok?
    ensures var r := ArchiveLocation(ix, id, uri, now).value.0;
            Valid(r) && uri !in r.locations[id] && uri in ArchivedUris(r.archivedLocations[id])
  {
    var r := ArchiveLocation(ix, id, uri, now).value.0;
    OnlyLocationsKeepValid(ix, r, id);
    var a := r.archivedLocations[id];
    assert ArchivedUris(a)[|a| - 1] == uri;
  }

  /** Restoring a uri that was just archived, when it was not archived
      before, gives back the archived list unchanged and puts the uri back
      at the end of the active list. */
  lemma RestoreUndoesArchiveLocation(ix: Index, id: Uuid, uri: string, now: Time)
    requires Valid(ix) && id in ix.locations && uri in ix.locations[id]
    requires uri !in ArchivedUris(ix.archivedLocations[id])
    ensures ArchiveLocation(ix, id, uri, now).Ok?
    ensures var a := ArchiveLocation(ix, id, uri, now).value.0;
            RestoreLocation(a, id, uri).Ok? &&
            var b := RestoreLocation(a, id, uri).value;
            b.1 && Valid(b.0) &&
            b.0.archivedLocations[id] == ix.archivedLocations[id] &&
            b.0.locations[id] == Without(ix.locations[id], uri) + [uri]
  {
    ArchiveLocationMovesUri(ix, id, uri, now);
    var a := ArchiveLocation(ix, id, uri, now).value.0;
    var before := ix.archivedLocations[id];
    AppendedEntryIsOnlyOne(before, uri, now);
    var b := RestoreLocation(a, id, uri).value.0;
    OnlyLocationsKeepValid(a, b, id);
  }

  /** Removing the entries for `uri` from a list that had none of them but a
      final one gives the list without that final entry. */
  lemma {:induction false} AppendedEntryIsOnlyOne(locs: seq<(string, Time)>, uri: string, now: Time)
    requires uri !in ArchivedUris(locs)
    ensures WithoutArchived(locs + [(uri, now)], uri) == locs
    decreases |locs|
  {
    var xs := locs + [(uri, now)];
    if |locs| > 0 {
      assert ArchivedUris(locs)[0] == locs[0].0;
      assert xs[0] == locs[0] && xs[1..] == locs[1..] + [(uri, now)];
      assert uri !in ArchivedUris(locs[1..]) by {
        forall i | 0 <= i < |locs[1..]| ensures ArchivedUris(locs[1..])[i] != uri {
          assert ArchivedUris(locs)[i + 1] == locs[i + 1].0;
        }
      }
      AppendedEntryIsOnlyOne(locs[1..], uri, now);
      assert locs == [locs[0]] + locs[1..];
    } else {
      assert xs[1..] == [];
    }
  }

  /** `remove_location(id, uri)` as written: when the dataset has an active
      list, only that list is searched; the archived list is searched only
      for a dataset with no active list. */
  function RemoveLocationAsWritten(ix: Index, id: Uuid, uri: string): (r: (Index, bool))
    ensures id in ix.locations ==> (r.1 <==> uri in ix.locations[id])
    ensures id !in ix.locations ==>
              (r.1 <==> id in ix.archivedLocations && uri in ArchivedUris(ix.archivedLocations[id]))
    ensures !r.1 ==> r.0 == ix
  {
    if id in ix.locations then
      if uri in ix.locations[id] then (ix.(locations := ix.locations[id := Without(ix.locations[id], uri)]), true)
      else (ix, false)
    else if id in ix.archivedLocations && uri in ArchivedUris(ix.archivedLocations[id]) then
      (ix.(archivedLocations := ix.archivedLocations[id := WithoutArchived(ix.archivedLocations[id], uri)]), true)
    else (ix, false)
  }

  /** In a valid index every known dataset has an active list, so an
      archived uri that is not also active is never removed. */
  lemma RemoveArchivedLocationAsWrittenFails(ix: Index, id: Uuid, uri: string)
    requires Valid(ix) && id in ix.byId
    requires uri in ArchivedUris(ix.archivedLocations[id]) && uri !in ix.locations[id]
    ensures RemoveLocationAsWritten(ix, id, uri) == (ix, false)
  {
  }

  /** `remove_location(id, uri)` as intended: every active copy of the uri
      goes and, failing that, every archived entry for it; true iff one went. */
  function RemoveLocation(ix: Index, id: Uuid, uri: string): (r: (Index, bool))
    ensures r.1 <==> (id in ix.locations && uri in ix.locations[id]) ||
                     (id in ix.archivedLocations && uri in ArchivedUris(ix.archivedLocations[id]))
    ensures !r.1 ==> r.0 == ix
    ensures r.1 ==> OnlyLocationsOf(ix, r.0, id)
    ensures r.1 && id in ix.locations && uri in ix.locations[id] ==>
              r.0.locations[id] == Without(ix.locations[id], uri) && r.0.archivedLocations == ix.archivedLocations
  {
    if id in ix.locations && uri in ix.locations[id] then
      var locations := ix.locations[id := Without(ix.locations[id], uri)];
      assert locations.Keys == ix.locations.Keys;
      (ix.(locations := locations), true)
    else if id in ix.archivedLocations && uri in ArchivedUris(ix.archivedLocations[id]) then
      var archived := ix.archivedLocations[id := WithoutArchived(ix.archivedLocations[id], uri)];
      assert archived.Keys == ix.archivedLocations.Keys;
      (ix.(archivedLocations := archived), true)
    else (ix, false)
  }

  /** The intended removal of an archived uri succeeds, and the uri is then in
      neither list, as the location round trip of the index expects. */
  lemma RemoveArchivedLocationSucceeds(ix: Index, id: Uuid, uri: string)
    requires Valid(ix) && id in ix.byId
    requires uri in ArchivedUris(ix.archivedLocations[id]) && uri !in ix.locations[id]
    ensures var r := RemoveLocation(ix, id, uri);
            r.1 && Valid(r.0) && uri !in r.0.locations[id] && uri !in ArchivedUris(r.0.archivedLocations[id])
  {
    OnlyLocationsKeepValid(ix, RemoveLocation(ix, id, uri).0, id);
  }
}

=== FILE: memory_metadata_types.dfy ===
/** The in-memory metadata-type registry: the stored types by id and by
    name, and the next id to hand out. Document validation, the document
    diff and the change classifier are parameters. */
module MemoryMetadataTypes {
  import opened Common
  import Resources

  /** A metadata type: its name (read from its definition), its definition
      document and its id once persisted. */
  datatype MetadataType = MetadataType(name: string, definition: Json, id: Option<nat>)

  /** A Python dictionary key as the registry uses one: an integer id, a
      name, or `None`. */
  datatype Key = IdKey(n: nat) | NameKey(s: string) | NoKey

  datatype Registry = Registry(byId: map<Key, MetadataType>, byName: map<string, MetadataType>, nextId: nat)

  /** The registry before the default documents are added. */
  const Fresh: Registry := Registry(map[], map[], 1)

  /** Every stored type sits under its own id in `byId` and under its name in
      `byName`, and every id is below `nextId`. */
  predicate Valid(reg: Registry) {
    && reg.nextId > 0
    && (forall k :: k in reg.byId ==>
          k.IdKey? && 0 < k.n < reg.nextId && reg.byId[k].id == Some(k.n) &&
          reg.byId[k].name in reg.byName && reg.byName[reg.byId[k].name] == reg.byId[k])
    && (forall n :: n in reg.byName ==>
          reg.byName[n].name == n && reg.byName[n].id.Some? &&
          IdKey(reg.byName[n].id.value) in reg.byId && reg.byId[IdKey(reg.byName[n].id.value)] == reg.byName[n])
  }

  lemma FreshIsValid()
    ensures Valid(Fresh)
  {
  }

  // ------------------------------------------------------------- lookups

  /** `get_unsafe(id)`: KeyError for an unknown id. */
  function GetUnsafe(reg: Registry, id: nat): (r: Result<MetadataType>)
    ensures r.Err? <==> IdKey(id) !in reg.byId
    ensures r.Err? ==> r.error == KeyError
    ensures r.Ok? ==> r.value == reg.byId[IdKey(id)]
  {
    if IdKey(id) in reg.byId then Ok(reg.byId[IdKey(id)]) else Err(KeyError)
  }

  /** `get_by_name_unsafe(name)` as written: it looks the name up among the
      ids. */
  function GetByNameUnsafeAsWritten(reg: Registry, name: string): (r: Result<MetadataType>)
    ensures r.Err? <==> NameKey(name) !in reg.byId
    ensures r.Ok? ==> r.value == reg.byId[NameKey(name)]
  {
    if NameKey(name) in reg.byId then Ok(reg.byId[NameKey(name)]) else Err(KeyError)
  }

  /** In a valid registry every key of `byId` is an id, so the written lookup
      by name fails for every name, and `get_by_name` answers `None` even for
      a stored type. */
  lemma GetByNameAsWrittenNeverFinds(reg: Registry, name: string)
    requires Valid(reg)
    ensures GetByNameUnsafeAsWritten(reg, name) == Err(KeyError)
    ensures Resources.OrNone(GetByNameUnsafeAsWritten(reg, name)) == Ok(None)
  {
  }

  /** `get_by_name_unsafe(name)` as intended: the lookup in `byName`. */
  function GetByNameUnsafe(reg: Registry, name: string): (r: Result<MetadataType>)
    ensures r.Err? <==> name !in reg.byName
    ensures r.Err? ==> r.error == KeyError
    ensures r.Ok? ==> r.value == reg.byName[name]
    ensures r.Ok? && Valid(reg) ==> r.value.name == name
  {
    if name in reg.byName then Ok(reg.byName[name]) else Err(KeyError)
  }

  /** `get(id)` and `get_by_name(name)`: the unsafe lookups with KeyError
      turned into `None`. */
  function Get(reg: Registry, id: nat): (r: Option<MetadataType>)
    ensures r.None? <==> IdKey(id) !in reg.byId
    ensures r.Some? ==> r.value == reg.byId[IdKey(id)]
  {
    Resources.OrNone(GetUnsafe(reg, id)).value
  }

  function GetByName(reg: Registry, name: string): (r: Option<MetadataType>)
    ensures r.None? <==> name !in reg.byName
    ensures r.Some? ==> r.value == reg.byName[name]
  {
    Resources.OrNone(GetByNameUnsafe(reg, name)).value
  }

  /** In a valid registry the two lookups agree: the type found by name is
      the one stored under its id. */
  lemma LookupsAgree(reg: Registry, name: string)
    requires Valid(reg) && GetByName(reg, name).Some?
    ensures var t := GetByName(reg, name).value;
            t.name == name && t.id.Some? && Get(reg, t.id.value) == Some(t)
  {
  }

  // ------------------------------------------------------------------ add

  /** `add(metadata_type)` as written: a known name must come with the same
      document; a new name reaches the `_make` call that passes the keyword
      `id`, which `_make` does not take. */
  function AddAsWritten(reg: Registry, t: MetadataType, validDoc: Json -> bool): (r: Result<(Registry, Option<MetadataType>)>)
    ensures !validDoc(t.definition) ==> r == Err(InvalidDocument)
    ensures validDoc(t.definition) && t.name !in reg.byName ==> r == Err(UnexpectedKeyword("id"))
    ensures r.Ok? ==> r.value.0 == reg
  {
    if !validDoc(t.definition) then Err(InvalidDocument)
    else if t.name in reg.byName then
      if reg.byName[t.name].definition != t.definition then Err(DocumentMismatch)
      else Ok((reg, Resources.OrNone(GetByNameUnsafeAsWritten(reg, t.name)).value))
    else Err(UnexpectedKeyword("id"))
  }

  /** No new type can ever be added, not even the defaults into the fresh
      registry; and re-adding a known one answers `None`. */
  lemma AddAsWrittenNeverAdds(reg: Registry, t: MetadataType, validDoc: Json -> bool)
    requires Valid(reg) && validDoc(t.definition)
    ensures t.name !in reg.byName ==> AddAsWritten(reg, t, validDoc) == Err(UnexpectedKeyword("id"))
    ensures t.name in reg.byName && reg.byName[t.name].definition == t.definition ==>
              AddAsWritten(reg, t, validDoc) == Ok((reg, None))
  {
    GetByNameAsWrittenNeverFinds(reg, t.name);
  }

  /** The add path with the keyword corrected but the entry still stored
      under the incoming type's own id, which is `None` for a type that was
      never persisted. */
  function AddKeyedByIncomingId(reg: Registry, t: MetadataType): (r: Registry)
    ensures r.nextId == reg.nextId + 1 || t.name in reg.byName
    ensures t.name !in reg.byName ==>
              (if t.id.Some? then IdKey(t.id.value) else NoKey) in r.byId
  {
    if t.name in reg.byName then reg
    else
      var persisted := t.(id := Some(reg.nextId));
      var key := if t.id.Some? then IdKey(t.id.value) else NoKey;
      Registry(reg.byId[key := persisted], reg.byName[t.name := persisted], reg.nextId + 1)
  }

  /** Two new types built from documents share the key `None`: the second
      replaces the first in `byId`, which then has one entry for two names
      and no entry under either allocated id. */
  lemma TwoNewTypesCollide(a: MetadataType, b: MetadataType)
    requires a.id.None? && b.id.None? && a.name != b.name
    ensures var r := AddKeyedByIncomingId(AddKeyedByIncomingId(Fresh, a), b);
            r.byId.Keys == {NoKey} && |r.byName| == 2 && !Valid(r) &&
            Get(r, 1).None? && Get(r, 2).None?
  {
    var r := AddKeyedByIncomingId(AddKeyedByIncomingId(Fresh, a), b);
    assert r.byName.Keys == {a.name, b.name};
    assert |r.byName.Keys| == 2;
    assert NoKey in r.byId;
  }

  /** `add(metadata_type)` as intended: a known name must come with the same
      document and gives back the stored type without allocating an id; a
      new name is stored under the next id, which then advances by one. */
  function Add(reg: Registry, t: MetadataType, validDoc: Json -> bool): (r: Result<(Registry, MetadataType)>)
    ensures !validDoc(t.definition) ==> r == Err(InvalidDocument)
    ensures r.Err? ==> r.error == InvalidDocument || r.error == DocumentMismatch
    ensures validDoc(t.definition) && t.name in reg.byName ==>
              (r.Ok? <==> reg.byName[t.name].definition == t.definition)
    ensures r.Ok? && t.name in reg.byName ==> r.value.0 == reg && r.value.1 == reg.byName[t.name]
    ensures validDoc(t.definition) && t.name !in reg.byName ==>
              r.Ok? && r.value.0.nextId == reg.nextId + 1 &&
              r.value.1 == MetadataType(t.name, t.definition, Some(reg.nextId)) &&
              r.value.0.byName == reg.byName[t.name := r.value.1] &&
              r.value.0.byId == reg.byId[IdKey(reg.nextId) := r.value.1]
  {
    if !validDoc(t.definition) then Err(InvalidDocument)
    else if t.name in reg.byName then
      if reg.byName[t.name].definition != t.definition then Err(DocumentMismatch)
      else Ok((reg, reg.byName[t.name]))
    else
      var persisted := MetadataType(t.name, t.definition, Some(reg.nextId));
      Ok((Registry(reg.byId[IdKey(reg.nextId) := persisted], reg.byName[t.name := persisted], reg.nextId + 1), persisted))
  }

  /** Adding keeps the registry valid, and the added type is then found both
      by name and by its id. */
  lemma AddThenGet(reg: Registry, t: MetadataType, validDoc: Json -> bool)
    requires Valid(reg) && Add(reg, t, validDoc).Ok?
    ensures var (r, stored) := Add(reg, t, validDoc).value;
            Valid(r) && GetByName(r, t.name) == Some(stored) &&
            stored.id.Some? && Get(r, stored.id.value) == Some(stored)
  {
    var (r, stored) := Add(reg, t, validDoc).value;
    if t.name !in reg.byName {
      assert IdKey(reg.nextId) !in reg.byId;
      forall k | k in r.byId
        ensures k.IdKey? && 0 < k.n < r.nextId && r.byId[k].id == Some(k.n) &&
                r.byId[k].name in r.byName && r.byName[r.byId[k].name] == r.byId[k]
      {
        if k != IdKey(reg.nextId) {
          assert r.byId[k] == reg.byId[k];
          assert reg.byId[k].name in reg.byName;
          assert reg.byId[k].name != t.name;
        }
      }
    }
  }

  /** Adding the same type twice allocates one id only. */
  lemma AddTwice(reg: Registry, t: MetadataType, validDoc: Json -> bool)
    requires Add(reg, t, validDoc).Ok?
    ensures var (r, stored) := Add(reg, t, validDoc).value;
            Add(r, t, validDoc) == Ok((r, stored))
  {
  }

  // --------------------------------------------------------------- update

  /** A path into a document, as a sequence of member names. */
  type Offset = seq<string>

  /** One difference between two documents: where, the old and the new value. */
  datatype Change = Change(offset: Offset, oldValue: Json, newValue: Json)

  /** What may change at an offset. */
  datatype Allowance = AllowAny | AllowExtension

  /** The update policy: the description may change freely; the dataset
      section and its search fields may only be extended. */
  const UpdatePolicy: map<Offset, Allowance> :=
    map[["description"] := AllowAny, ["dataset"] := AllowExtension, ["dataset", "search_fields"] := AllowExtension]

  /** The document diff and the classifier of changes into (safe, unsafe). */
  datatype Differ = Differ(
    diff: (Json, Json) -> seq<Change>,
    classify: (seq<Change>, map<Offset, Allowance>) -> (seq<Change>, seq<Change>))

  /** `can_update(metadata_type, allow_unsafe_updates)`: unknown names are
      rejected; otherwise the changes from the stored document are classified
      under the update policy, and the update is allowed iff unsafe updates
      are allowed or there are no unsafe changes. */
  function CanUpdate(reg: Registry, t: MetadataType, allowUnsafe: bool, validDoc: Json -> bool, d: Differ):
    (r: Result<(bool, seq<Change>, seq<Change>)>)
    ensures !validDoc(t.definition) ==> r == Err(InvalidDocument)
    ensures validDoc(t.definition) ==> (r.Err? <==> t.name !in reg.byName)
    ensures r.Err? && validDoc(t.definition) ==> r.error == UnknownMetadataType(t.name)
    ensures r.Ok? ==> (r.value.0 <==> allowUnsafe || |r.value.2| == 0)
    ensures r.Ok? ==> (r.value.1, r.value.2) == d.classify(d.diff(reg.byName[t.name].definition, t.definition), UpdatePolicy)
  {
    if !validDoc(t.definition) then Err(InvalidDocument)
    else match GetByName(reg, t.name)
      case None => Err(UnknownMetadataType(t.name))
      case Some(existing) =>
        var (good, bad) := d.classify(d.diff(existing.definition, t.definition), UpdatePolicy);
        Ok((allowUnsafe || |bad| == 0, good, bad))
  }

  /** The offsets of a list of changes. */
  function Offsets(cs: seq<Change>): (r: seq<Offset>)
    ensures |r| == |cs| && forall i :: 0 <= i < |cs| ==> r[i] == cs[i].offset
  {
    seq(|cs|, i requires 0 <= i < |cs| => cs[i].offset)
  }

  /** `update(metadata_type, allow_unsafe_updates)`: no detected change gives
      back the stored type untouched; unsafe changes that are not allowed
      raise with their offsets; otherwise the stored type is replaced by the
      new document under the same name and id. */
  function Update(reg: Registry, t: MetadataType, allowUnsafe: bool, validDoc: Json -> bool, d: Differ):
    (r: Result<(Registry, MetadataType)>)
    requires Valid(reg)
    ensures CanUpdate(reg, t, allowUnsafe, validDoc, d).Err? <==> r.Err? && !r.error.UnsafeChanges?
    ensures r.Ok? ==> r.value.0.nextId == reg.nextId && r.value.1.name == t.name &&
                      t.name in reg.byName && r.value.1.id == reg.byName[t.name].id
    ensures var c := CanUpdate(reg, t, allowUnsafe, validDoc, d);
            c.Ok? && |c.value.1| == 0 && |c.value.2| == 0 ==> r == Ok((reg, reg.byName[t.name]))
    ensures var c := CanUpdate(reg, t, allowUnsafe, validDoc, d);
            c.Ok? && |c.value.2| > 0 && !allowUnsafe ==> r == Err(UnsafeChanges(Offsets(c.value.2)))
    ensures var c := CanUpdate(reg, t, allowUnsafe, validDoc, d);
            c.Ok? && (|c.value.1| > 0 || |c.value.2| > 0) && c.value.0 ==>
              var stored := MetadataType(t.name, t.definition, reg.byName[t.name].id);
              stored.id.Some? && r == Ok((Replace(reg, stored), stored))
  {
    match CanUpdate(reg, t, allowUnsafe, validDoc, d)
    case Err(e) => Err(e)
    case Ok((can, good, bad)) =>
      var existing := reg.byName[t.name];
      if |good| == 0 && |bad| == 0 then Ok((reg, existing))
      else if !can then Err(UnsafeChanges(Offsets(bad)))
      else
        var persisted := MetadataType(t.name, t.definition, existing.id);
        Ok((Replace(reg, persisted), persisted))
  }

  /** The dictionary key a type's own id gives: the id, or `None` for a type
      that was never persisted. */
  function KeyOfId(id: Option<nat>): Key {
    if id.Some? then IdKey(id.value) else NoKey
  }

  /** `update(metadata_type, ...)` as written: the same decisions, but the
      replacement carries the incoming type's id and is stored in `by_id`
      under that id, which is `None` for a type built from a document by
      `update_document`. */
  function UpdateAsWritten(reg: Registry, t: MetadataType, allowUnsafe: bool, validDoc: Json -> bool, d: Differ):
    (r: Result<(Registry, MetadataType)>)
    ensures CanUpdate(reg, t, allowUnsafe, validDoc, d).Err? <==> r.Err? && !r.error.UnsafeChanges?
    ensures var c := CanUpdate(reg, t, allowUnsafe, validDoc, d);
            c.Ok? && (|c.value.1| > 0 || |c.value.2| > 0) && c.value.0 ==>
              r.Ok? && r.value.1.id == t.id &&
              KeyOfId(t.id) in r.value.0.byId && r.value.0.byId[KeyOfId(t.id)] == r.value.1 &&
              (forall k :: k in reg.byId && k != KeyOfId(t.id) ==> k in r.value.0.byId && r.value.0.byId[k] == reg.byId[k]) &&
              GetByName(r.value.0, t.name) == Some(r.value.1)
  {
    match CanUpdate(reg, t, allowUnsafe, validDoc, d)
    case Err(e) => Err(e)
    case Ok((can, good, bad)) =>
      if |good| == 0 && |bad| == 0 then Ok((reg, reg.byName[t.name]))
      else if !can then Err(UnsafeChanges(Offsets(bad)))
      else
        var persisted := MetadataType(t.name, t.definition, t.id);
        Ok((Registry(reg.byId[KeyOfId(t.id) := persisted], reg.byName[t.name := persisted], reg.nextId), persisted))
  }

  /** An update built from a document (so carrying no id) that goes through
      leaves the old type under its id: looking the type up by id still
      gives the old document, by name the new one, and the registry is no
      longer consistent. */
  lemma UpdateFromDocumentLeavesStaleId(reg: Registry, t: MetadataType, allowUnsafe: bool, validDoc: Json -> bool, d: Differ)
    requires Valid(reg) && t.id.None?
    requires var c := CanUpdate(reg, t, allowUnsafe, validDoc, d);
             c.Ok? && (|c.value.1| > 0 || |c.value.2| > 0) && c.value.0
    ensures t.name in reg.byName && reg.byName[t.name].id.Some?
    ensures var (r, persisted) := UpdateAsWritten(reg, t, allowUnsafe, validDoc, d).value;
            var previous := reg.byName[t.name];
            Get(r, previous.id.value) == Some(previous) && GetByName(r, t.name) == Some(persisted) &&
            persisted != previous && !Valid(r)
  {
    var (r, persisted) := UpdateAsWritten(reg, t, allowUnsafe, validDoc, d).value;
    var previous := reg.byName[t.name];
    assert IdKey(previous.id.value) in reg.byId;
    assert NoKey in r.byId;
  }

  /** The registry with `t` stored under its name and its id. */
  function Replace(reg: Registry, t: MetadataType): (r: Registry)
    requires t.id.Some?
    ensures t.name in r.byName && r.byName[t.name] == t
    ensures IdKey(t.id.value) in r.byId && r.byId[IdKey(t.id.value)] == t
    ensures r.nextId == reg.nextId
  {
    Registry(reg.byId[IdKey(t.id.value) := t], reg.byName[t.name := t], reg.nextId)
  }

  /** Replacing a stored type keeps every key and every other type. */
  lemma ReplaceKeepsOthers(reg: Registry, t: MetadataType)
    requires Valid(reg) && t.name in reg.byName && t.id == reg.byName[t.name].id
    ensures t.id.Some?
    ensures var r := Replace(reg, t);
            r.byId.Keys == reg.byId.Keys && r.byName.Keys == reg.byName.Keys &&
            forall n :: n in reg.byName && n != t.name ==> r.byName[n] == reg.byName[n]
  {
  }

  /** Replacing a stored type by one of the same name and id keeps the
      registry valid. */
  lemma ReplaceKeepsValid(reg: Registry, t: MetadataType)
    requires Valid(reg) && t.name in reg.byName && t.id == reg.byName[t.name].id
    ensures t.id.Some?
    ensures Valid(Replace(reg, t))
  {
    var r := Replace(reg, t);
    var key := IdKey(t.id.value);
    assert key in reg.byId && reg.byId[key] == reg.byName[t.name];
    forall k | k in r.byId
      ensures k.IdKey? && 0 < k.n < r.nextId && r.byId[k].id == Some(k.n) &&
              r.byId[k].name in r.byName && r.byName[r.byId[k].name] == r.byId[k]
    {
      if k != key {
        assert reg.byId[k].name in reg.byName;
        assert reg.byId[k].name != t.name;
      }
    }
    forall n | n in r.byName
      ensures r.byName[n].name == n && r.byName[n].id.Some? &&
              IdKey(r.byName[n].id.value) in r.byId && r.byId[IdKey(r.byName[n].id.value)] == r.byName[n]
    {
      if n != t.name {
        assert IdKey(reg.byName[n].id.value) != key;
      }
    }
  }

  /** An update that went through keeps the registry valid and is found by
      name and by id with its new document. */
  lemma UpdateThenGet(reg: Registry, t: MetadataType, allowUnsafe: bool, validDoc: Json -> bool, d: Differ)
    requires Valid(reg)
    ensures var r := Update(reg, t, allowUnsafe, validDoc, d);
            r.Ok? ==> Valid(r.value.0) && r.value.1.id.Some? &&
                      GetByName(r.value.0, t.name) == Some(r.value.1) &&
                      Get(r.value.0, r.value.1.id.value) == Some(r.value.1)
  {
    var c := CanUpdate(reg, t, allowUnsafe, validDoc, d);
    if c.Ok? {
      var stored := MetadataType(t.name, t.definition, reg.byName[t.name].id);
      if (|c.value.1| > 0 || |c.value.2| > 0) && c.value.0 {
        ReplaceKeepsValid(reg, stored);
      }
    }
  }

  /** An update that went through keeps every key and every other type. */
  lemma UpdateKeepsOthers(reg: Registry, t: MetadataType, allowUnsafe: bool, validDoc: Json -> bool, d: Differ)
    requires Valid(reg)
    ensures var r := Update(reg, t, allowUnsafe, validDoc, d);
            r.Ok? ==> r.value.0.byId.Keys == reg.byId.Keys && r.value.0.byName.Keys == reg.byName.Keys &&
                      forall n :: n in reg.byName && n != t.name ==> r.value.0.byName[n] == reg.byName[n]
  {
    var c := CanUpdate(reg, t, allowUnsafe, validDoc, d);
    if c.Ok? {
      var stored := MetadataType(t.name, t.definition, reg.byName[t.name].id);
      if (|c.value.1| > 0 || |c.value.2| > 0) && c.value.0 {
        ReplaceKeepsOthers(reg, stored);
      }
    }
  }
}

=== FILE: product_admin.dfy ===
/** Product and metadata-type administration in the postgis driver: inserting
    and updating their rows, re-pointing a product's datasets to a new
    metadata type (only inside a transaction), and the calls handed to the
    external index and view builder for every product concerned. */
module ProductAdmin {
  import opened Common
  import opened Schema
  import opened Fields
  import Catalogue

  /** `definition['metadata']`: the metadata section of a product definition. */
  function MetadataSection(definition: Json): (r: Result<Json>)
    ensures r.Ok? <==> definition.JObject? && "metadata" in definition.members
    ensures r.Ok? ==> r.value == definition.members["metadata"]
    ensures r.Err? ==> r.error == KeyError
  {
    if definition.JObject? && "metadata" in definition.members then Ok(definition.members["metadata"])
    else Err(KeyError)
  }

  /** Every dataset row carries the metadata type of its product. */
  predicate DatasetsFollowProducts(db: Db) {
    forall id :: id in db.datasets && db.datasets[id].productRef in db.products ==>
      db.datasets[id].metadataTypeRef == db.products[db.datasets[id].productRef].metadataTypeRef
  }

  // ---------------------------------------------------------- metadata types

  /** `insert_metadata_type`: the serial is consumed first; the name CHECK is
      checked before the unique indexes (the primary key and the name). The new type has no
      products yet, so no builder call is made. */
  function InsertMetadataType(db: Db, name: string, definition: Json, now: Time): (o: Catalogue.Outcome<nat>)
    ensures o.db.metadataTypeSeq == db.metadataTypeSeq + 1
    ensures o.result.Ok? <==>
              IsWordName(name) && db.metadataTypeSeq + 1 !in db.metadataTypes &&
              forall m :: m in db.metadataTypes ==> db.metadataTypes[m].name != name
    ensures !IsWordName(name) ==> o.result == Err(CheckViolation)
    ensures IsWordName(name) && o.result.Err? ==> o.result.error == UniqueViolation
    ensures o.result.Err? ==> Catalogue.SameTables(o.db, db)
    ensures o.result.Ok? ==>
              o.result.value == db.metadataTypeSeq + 1 &&
              o.db == db.(metadataTypeSeq := o.result.value,
                          metadataTypes := db.metadataTypes[o.result.value := MetadataTypeRow(name, definition, now)])
  {
    var id := db.metadataTypeSeq + 1;
    var advanced := db.(metadataTypeSeq := id);
    if !IsWordName(name) then Catalogue.Outcome(advanced, Err(CheckViolation))
    else if id in db.metadataTypes || exists m :: m in db.metadataTypes && db.metadataTypes[m].name == name then
      Catalogue.Outcome(advanced, Err(UniqueViolation))
    else
      Catalogue.Outcome(advanced.(metadataTypes := db.metadataTypes[id := MetadataTypeRow(name, definition, now)]), Ok(id))
  }

  /** Inserting a metadata type keeps the catalogue valid, whatever the
      outcome. */
  lemma InsertMetadataTypeKeepsValid(db: Db, name: string, definition: Json, now: Time)
    requires Valid(db)
    ensures Valid(InsertMetadataType(db, name, definition, now).db)
  {
  }

  /** In a valid catalogue a freshly inserted metadata type is used by no
      product, so setting up its fields reaches no product. */
  lemma NewMetadataTypeHasNoProducts(db: Db, name: string, definition: Json, now: Time)
    requires Valid(db)
    requires InsertMetadataType(db, name, definition, now).result.Ok?
    ensures var o := InsertMetadataType(db, name, definition, now);
            forall p :: p in o.db.products ==> o.db.products[p].metadataTypeRef != o.result.value
  {
    var o := InsertMetadataType(db, name, definition, now);
    forall p | p in o.db.products ensures o.db.products[p].metadataTypeRef != o.result.value {
      assert db.products[p].metadataTypeRef in db.metadataTypes;
      assert db.products[p].metadataTypeRef <= db.metadataTypeSeq;
    }
  }

  /** `_setup_metadata_type_fields`: one builder call per product of the
      metadata type, with the type's fields. A product whose definition has
      no metadata section raises. */
  function SetupMetadataTypeFields(db: Db, typeId: nat, fields: seq<Field>,
                                   rebuildIndexes: bool, rebuildViews: bool, concurrently: bool)
    : (r: Result<set<DynamicFieldsCall>>)
    ensures r.Err? <==> exists p :: p in db.products && db.products[p].metadataTypeRef == typeId &&
                                    MetadataSection(db.products[p].definition).Err?
    ensures r.Err? ==> r.error == KeyError
    ensures r.Ok? ==> forall c :: c in r.value <==>
              exists p :: p in db.products && db.products[p].metadataTypeRef == typeId &&
                          c == SetupProductFields(p, db.products[p].name, fields,
                                                  MetadataSection(db.products[p].definition).value,
                                                  rebuildIndexes, rebuildViews, concurrently)
    ensures r.Ok? ==> forall c :: c in r.value ==> c.rebuildView == rebuildViews && c.rebuildIndexes == rebuildIndexes
  {
    if exists p :: p in db.products && db.products[p].metadataTypeRef == typeId &&
                   MetadataSection(db.products[p].definition).Err? then Err(KeyError)
    else
      Ok(set p | p in db.products && db.products[p].metadataTypeRef == typeId ::
           SetupProductFields(p, db.products[p].name, fields, MetadataSection(db.products[p].definition).value,
                              rebuildIndexes, rebuildViews, concurrently))
  }

  /** The id of the one row with the name, in a catalogue whose name index is
      unique. */
  function MetadataTypeNamed(db: Db, name: string): (r: Option<nat>)
    requires MetadataTypeNamesUnique(db.metadataTypes)
    ensures r.Some? <==> exists m :: m in db.metadataTypes && db.metadataTypes[m].name == name
    ensures r.Some? ==> r.value in db.metadataTypes && db.metadataTypes[r.value].name == name
  {
    if exists m :: m in db.metadataTypes && db.metadataTypes[m].name == name then
      var m :| m in db.metadataTypes && db.metadataTypes[m].name == name;
      Some(m)
    else None
  }

  /** `update_metadata_type`: replaces the definition of the type with the
      name (the first row of an empty RETURNING raises), then rebuilds the
      views of every product of the type with the fields the new definition
      declares (`fieldsOf` stands for `get_dataset_fields`). */
  function UpdateMetadataType(db: Db, name: string, definition: Json, fieldsOf: Json -> seq<Field>, concurrently: bool)
    : (o: Catalogue.Outcome<(nat, set<DynamicFieldsCall>)>)
    requires MetadataTypeNamesUnique(db.metadataTypes)
    ensures (forall m :: m in db.metadataTypes ==> db.metadataTypes[m].name != name) ==> o == Catalogue.Outcome(db, Err(NoSuchRow))
    ensures o.result.Ok? ==>
              var id := o.result.value.0;
              id in db.metadataTypes && db.metadataTypes[id].name == name &&
              o.db == db.(metadataTypes := db.metadataTypes[id := db.metadataTypes[id].(definition := definition)]) &&
              SetupMetadataTypeFields(o.db, id, fieldsOf(definition), false, true, concurrently) == Ok(o.result.value.1)
  {
    match MetadataTypeNamed(db, name)
    case None => Catalogue.Outcome(db, Err(NoSuchRow))
    case Some(id) =>
      var db1 := db.(metadataTypes := db.metadataTypes[id := db.metadataTypes[id].(definition := definition)]);
      match SetupMetadataTypeFields(db1, id, fieldsOf(definition), false, true, concurrently)
      case Err(e) => Catalogue.Outcome(db1, Err(e))
      case Ok(calls) => Catalogue.Outcome(db1, Ok((id, calls)))
  }

  /** Rewriting a metadata type's definition keeps the catalogue valid. */
  lemma UpdateMetadataTypeKeepsValid(db: Db, name: string, definition: Json, fieldsOf: Json -> seq<Field>, concurrently: bool)
    requires Valid(db)
    ensures Valid(UpdateMetadataType(db, name, definition, fieldsOf, concurrently).db)
  {
    var named := MetadataTypeNamed(db, name);
    if named.Some? {
      RedefineMetadataTypeKeepsValid(db, named.value, definition);
    }
  }

  /** Replacing a metadata type's definition keeps its name, so the catalogue
      stays valid. */
  lemma RedefineMetadataTypeKeepsValid(db: Db, id: nat, definition: Json)
    requires Valid(db) && id in db.metadataTypes
    ensures Valid(db.(metadataTypes := db.metadataTypes[id := db.metadataTypes[id].(definition := definition)]))
  {
    var types := db.metadataTypes[id := db.metadataTypes[id].(definition := definition)];
    forall m | m in types ensures types[m].name == db.metadataTypes[m].name {}
    assert MetadataTypeNamesUnique(types);
  }

  /** `check_dynamic_fields`: the builder calls for the products of every
      metadata type, each with its own type's fields. */
  function CheckDynamicFields(db: Db, fieldsOf: Json -> seq<Field>, concurrently: bool, rebuildViews: bool,
                              rebuildIndexes: bool): (r: Result<set<DynamicFieldsCall>>)
    ensures r.Ok? ==> forall c :: c in r.value ==>
              c.productId in db.products && db.products[c.productId].name == c.productName &&
              c.rebuildView == rebuildViews && c.rebuildIndexes == rebuildIndexes
    ensures r.Ok? <==> forall m :: m in db.metadataTypes ==>
              SetupMetadataTypeFields(db, m, fieldsOf(db.metadataTypes[m].definition),
                                      rebuildIndexes, rebuildViews, concurrently).Ok?
    ensures r.Err? ==> r.error == KeyError
    ensures r.Ok? ==> forall p :: p in db.products && db.products[p].metadataTypeRef in db.metadataTypes ==>
              MetadataSection(db.products[p].definition).Ok? &&
              SetupProductFields(p, db.products[p].name,
                                 fieldsOf(db.metadataTypes[db.products[p].metadataTypeRef].definition),
                                 MetadataSection(db.products[p].definition).value,
                                 rebuildIndexes, rebuildViews, concurrently) in r.value
  {
    if exists m :: m in db.metadataTypes &&
                   SetupMetadataTypeFields(db, m, fieldsOf(db.metadataTypes[m].definition),
                                           rebuildIndexes, rebuildViews, concurrently).Err? then Err(KeyError)
    else
      var calls := set m, c | m in db.metadataTypes &&
                              c in SetupMetadataTypeFields(db, m, fieldsOf(db.metadataTypes[m].definition),
                                                           rebuildIndexes, rebuildViews, concurrently).value :: c;
      assert forall p :: p in db.products && db.products[p].metadataTypeRef in db.metadataTypes ==>
               MetadataSection(db.products[p].definition).Ok? &&
               SetupProductFields(p, db.products[p].name,
                                  fieldsOf(db.metadataTypes[db.products[p].metadataTypeRef].definition),
                                  MetadataSection(db.products[p].definition).value,
                                  rebuildIndexes, rebuildViews, concurrently) in calls by {
        forall p | p in db.products && db.products[p].metadataTypeRef in db.metadataTypes
          ensures MetadataSection(db.products[p].definition).Ok?
          ensures SetupProductFields(p, db.products[p].name,
                                     fieldsOf(db.metadataTypes[db.products[p].metadataTypeRef].definition),
                                     MetadataSection(db.products[p].definition).value,
                                     rebuildIndexes, rebuildViews, concurrently) in calls
        {
          var m := db.products[p].metadataTypeRef;
          var setup := SetupMetadataTypeFields(db, m, fieldsOf(db.metadataTypes[m].definition),
                                               rebuildIndexes, rebuildViews, concurrently);
          assert setup.Ok?;
          var c := SetupProductFields(p, db.products[p].name, fieldsOf(db.metadataTypes[m].definition),
                                      MetadataSection(db.products[p].definition).value,
                                      rebuildIndexes, rebuildViews, concurrently);
          assert c in setup.value;
        }
      }
      Ok(calls)
  }

  /** In a valid catalogue every product gets exactly one kind of builder
      call: the products named by the calls are the product table. */
  lemma CheckDynamicFieldsCoversProducts(db: Db, fieldsOf: Json -> seq<Field>, concurrently: bool,
                                         rebuildViews: bool, rebuildIndexes: bool)
    requires Valid(db)
    ensures var r := CheckDynamicFields(db, fieldsOf, concurrently, rebuildViews, rebuildIndexes);
            r.Ok? ==> (set c | c in r.value :: c.productId) == db.products.Keys
  {
    var r := CheckDynamicFields(db, fieldsOf, concurrently, rebuildViews, rebuildIndexes);
    if r.Ok? {
      forall p | p in db.products ensures p in (set c | c in r.value :: c.productId) {
        var c := SetupProductFields(p, db.products[p].name,
                                    fieldsOf(db.metadataTypes[db.products[p].metadataTypeRef].definition),
                                    MetadataSection(db.products[p].definition).value,
                                    rebuildIndexes, rebuildViews, concurrently);
        assert c in r.value;
      }
    }
  }

  // ---------------------------------------------------------------- products

  /** `insert_product`: the serial is consumed first; the name CHECK, then the
      unique indexes (primary key and name), then the foreign key on the metadata type. Once the row is
      in, the definition's metadata section is read for the builder call,
      which never rebuilds. */
  function InsertProduct(db: Db, name: string, metadata: Json, typeId: nat, fields: seq<Field>,
                         definition: Json, concurrently: bool, now: Time)
    : (o: Catalogue.Outcome<(nat, DynamicFieldsCall)>)
    ensures o.db.productSeq == db.productSeq + 1
    ensures !IsWordName(name) ==> o.result == Err(CheckViolation)
    ensures IsWordName(name) && (exists p :: p in db.products && db.products[p].name == name) ==>
              o.result == Err(UniqueViolation)
    ensures o.result.Ok? <==>
              IsWordName(name) && db.productSeq + 1 !in db.products &&
              (forall p :: p in db.products ==> db.products[p].name != name) &&
              typeId in db.metadataTypes && MetadataSection(definition).Ok?
    ensures o.result.Ok? || o.result == Err(KeyError) <==> o.db.products != db.products
    ensures o.result.Ok? || o.result == Err(KeyError) ==>
              o.db == db.(productSeq := db.productSeq + 1,
                          products := db.products[db.productSeq + 1 := ProductRow(name, metadata, typeId, definition, now)])
    ensures o.result.Ok? ==>
              o.result.value.0 == db.productSeq + 1 &&
              o.result.value.1 == SetupProductFields(o.result.value.0, name, fields, MetadataSection(definition).value,
                                                     false, false, concurrently)
    ensures Valid(db) ==> Valid(o.db)
  {
    var id := db.productSeq + 1;
    var advanced := db.(productSeq := id);
    if !IsWordName(name) then Catalogue.Outcome(advanced, Err(CheckViolation))
    else if id in db.products || exists p :: p in db.products && db.products[p].name == name then
      Catalogue.Outcome(advanced, Err(UniqueViolation))
    else if typeId !in db.metadataTypes then Catalogue.Outcome(advanced, Err(ForeignKeyViolation))
    else
      var db1 := advanced.(products := db.products[id := ProductRow(name, metadata, typeId, definition, now)]);
      assert Valid(db) ==> Valid(db1) by {
        if Valid(db) { AddProductPreservesValid(db, ProductRow(name, metadata, typeId, definition, now)); }
      }
      match MetadataSection(definition)
      case Err(e) => Catalogue.Outcome(db1, Err(e))
      case Ok(doc) => Catalogue.Outcome(db1, Ok((id, SetupProductFields(id, name, fields, doc, false, false, concurrently))))
  }

  /** The id of the one product with the name, in a catalogue whose name
      index is unique. */
  function ProductNamed(db: Db, name: string): (r: Option<nat>)
    requires ProductNamesUnique(db.products)
    ensures r.Some? <==> exists p :: p in db.products && db.products[p].name == name
    ensures r.Some? ==> r.value in db.products && db.products[r.value].name == name
  {
    if exists p :: p in db.products && db.products[p].name == name then
      var p :| p in db.products && db.products[p].name == name;
      Some(p)
    else None
  }

  /** Product `p` with new metadata, metadata type and definition. */
  function Rewrite(products: map<nat, ProductRow>, p: nat, metadata: Json, typeId: nat, definition: Json)
    : (r: map<nat, ProductRow>)
    requires p in products
    ensures r.Keys == products.Keys
    ensures r[p].name == products[p].name && r[p].metadataTypeRef == typeId
    ensures r[p].metadata == metadata && r[p].definition == definition
    ensures forall q :: q in products && q != p ==> r[q] == products[q]
  {
    products[p := products[p].(metadata := metadata, metadataTypeRef := typeId, definition := definition)]
  }

  /** The datasets of product `p` re-pointed to metadata type `typeId`. */
  function Repoint(datasets: map<Uuid, DatasetRow>, p: nat, typeId: nat): (r: map<Uuid, DatasetRow>)
    ensures r.Keys == datasets.Keys
    ensures forall id :: id in datasets ==>
              r[id] == (if datasets[id].productRef == p then datasets[id].(metadataTypeRef := typeId) else datasets[id])
  {
    map id | id in datasets :: if datasets[id].productRef == p then datasets[id].(metadataTypeRef := typeId) else datasets[id]
  }

  /** `update_product`: rewrites the product row with the name (the first row
      of an empty RETURNING raises; the foreign key on the new metadata type
      is checked with the update). When asked to move the product's datasets
      to the new metadata type it refuses outside a transaction, after the
      product row has been written. The builder call rebuilds the view. */
  function UpdateProduct(db: Db, name: string, metadata: Json, typeId: nat, fields: seq<Field>, definition: Json,
                         updateMetadataType: bool, concurrently: bool, inTransaction: bool)
    : (o: Catalogue.Outcome<(nat, DynamicFieldsCall)>)
    requires ProductNamesUnique(db.products)
    ensures ProductNamed(db, name).None? ==> o == Catalogue.Outcome(db, Err(NoSuchRow))
    ensures ProductNamed(db, name).Some? && typeId !in db.metadataTypes ==>
              o == Catalogue.Outcome(db, Err(ForeignKeyViolation))
    ensures o.db == db.(products := o.db.products, datasets := o.db.datasets)
    ensures o.db.products != db.products ==> ProductNamed(db, name).Some? && typeId in db.metadataTypes
    ensures ProductNamed(db, name).Some? && typeId in db.metadataTypes ==>
              o.db.products == Rewrite(db.products, ProductNamed(db, name).value, metadata, typeId, definition)
    ensures o.result == Err(NotInTransaction) <==>
              ProductNamed(db, name).Some? && typeId in db.metadataTypes && updateMetadataType && !inTransaction
    ensures o.result == Err(NotInTransaction) || !updateMetadataType ==> o.db.datasets == db.datasets
    ensures ProductNamed(db, name).Some? && typeId in db.metadataTypes && updateMetadataType && inTransaction ==>
              o.db.datasets == Repoint(db.datasets, ProductNamed(db, name).value, typeId)
    ensures o.result.Ok? <==>
              ProductNamed(db, name).Some? && typeId in db.metadataTypes && (!updateMetadataType || inTransaction) &&
              MetadataSection(definition).Ok?
    ensures o.result.Ok? ==>
              o.result.value.0 in db.products && db.products[o.result.value.0].name == name &&
              o.result.value.1 == SetupProductFields(o.result.value.0, name, fields, MetadataSection(definition).value,
                                                     false, true, concurrently)
    ensures Valid(db) ==> Valid(o.db)
  {
    match ProductNamed(db, name)
    case None => Catalogue.Outcome(db, Err(NoSuchRow))
    case Some(p) =>
      if typeId !in db.metadataTypes then Catalogue.Outcome(db, Err(ForeignKeyViolation))
      else
        var db1 := db.(products := Rewrite(db.products, p, metadata, typeId, definition));
        assert Valid(db) ==> Valid(db1) by {
          if Valid(db) { RewritePreservesValid(db, p, metadata, typeId, definition); }
        }
        if updateMetadataType && !inTransaction then Catalogue.Outcome(db1, Err(NotInTransaction))
        else
          var db2 := if updateMetadataType then db1.(datasets := Repoint(db.datasets, p, typeId)) else db1;
          assert Valid(db) ==> Valid(db2) by {
            if Valid(db) && updateMetadataType { RepointPreservesValid(db1, p, typeId); }
          }
          match MetadataSection(definition)
          case Err(e) => Catalogue.Outcome(db2, Err(e))
          case Ok(doc) => Catalogue.Outcome(db2, Ok((p, SetupProductFields(p, name, fields, doc, false, true, concurrently))))
  }

  /** A product row with a fresh serial, a word name not yet taken and a
      known metadata type keeps the catalogue valid. */
  lemma AddProductPreservesValid(db: Db, row: ProductRow)
    requires Valid(db)
    requires IsWordName(row.name) && row.metadataTypeRef in db.metadataTypes
    requires forall p :: p in db.products ==> db.products[p].name != row.name
    ensures Valid(db.(productSeq := db.productSeq + 1, products := db.products[db.productSeq + 1 := row]))
  {
  }

  /** Rewriting a product keeps its name and points it at a known type. */
  lemma RewritePreservesValid(db: Db, p: nat, metadata: Json, typeId: nat, definition: Json)
    requires Valid(db) && p in db.products && typeId in db.metadataTypes
    ensures Valid(db.(products := Rewrite(db.products, p, metadata, typeId, definition)))
  {
  }

  /** Re-pointing datasets to a known type keeps the catalogue valid. */
  lemma RepointPreservesValid(db: Db, p: nat, typeId: nat)
    requires Valid(db) && typeId in db.metadataTypes
    ensures Valid(db.(datasets := Repoint(db.datasets, p, typeId)))
  {
  }

  /** Updating a product with the metadata-type move inside a transaction
      keeps every dataset on its product's metadata type; without the move
      the product's datasets keep the old type. */
  lemma UpdateProductKeepsDatasetsConsistent(db: Db, name: string, metadata: Json, typeId: nat, fields: seq<Field>,
                                             definition: Json, concurrently: bool)
    requires Valid(db) && DatasetsFollowProducts(db)
    ensures DatasetsFollowProducts(UpdateProduct(db, name, metadata, typeId, fields, definition, true, concurrently, true).db)
  {
    var o := UpdateProduct(db, name, metadata, typeId, fields, definition, true, concurrently, true);
    if (exists p :: p in db.products && db.products[p].name == name) && typeId in db.metadataTypes {
      var p := ProductNamed(db, name).value;
      assert o.db.datasets == Repoint(db.datasets, p, typeId);
      forall id | id in o.db.datasets && o.db.datasets[id].productRef in o.db.products
        ensures o.db.datasets[id].metadataTypeRef == o.db.products[o.db.datasets[id].productRef].metadataTypeRef
      {
        assert o.db.datasets[id] == Repoint(db.datasets, p, typeId)[id];
      }
    }
  }

  /** A dataset inserted for an existing product starts on that product's
      metadata type, so insertion keeps datasets following their products. */
  lemma InsertDatasetKeepsDatasetsConsistent(db: Db, id: Uuid, metadata: Json, productId: nat, now: Time)
    requires DatasetsFollowProducts(db)
    ensures DatasetsFollowProducts(Catalogue.InsertDataset(db, id, metadata, productId, now).db)
  {
    var o := Catalogue.InsertDataset(db, id, metadata, productId, now);
    if o.result == Ok(true) {
      forall other | other in o.db.datasets && o.db.datasets[other].productRef in o.db.products
        ensures o.db.datasets[other].metadataTypeRef == o.db.products[o.db.datasets[other].productRef].metadataTypeRef
      {
        if other != id {
          assert o.db.datasets[other] == db.datasets[other];
        }
      }
    }
  }
}

=== FILE: queries.dfy ===
/** Dataset queries of the postgis driver: the rows a search produces (the
    dataset table joined with whatever tables the expressions and selected
    fields need), the row limit, counting, duplicate groups, and counting
    through time over generated time buckets. */
module Queries {
  import opened Common
  import opened Schema
  import opened Fields
  import opened Ranges
  import Catalogue

  /** The search joins the location table, giving one row per location. */
  predicate JoinsLocations(exprs: seq<Expr>, fields: seq<Field>) {
    LocationTable in JoinTables(DatasetTable, exprs, fields)
  }

  /** A row the joined FROM clause can produce, before the WHERE clause: an
      active dataset, paired with one of its locations (archived or not)
      when the location table is joined, and with nothing otherwise. */
  predicate Candidate(db: Db, r: Row, withLocation: bool) {
    && r.id in db.datasets && r.dataset == db.datasets[r.id]
    && (if withLocation then r.location.Some? && r.location.value in db.locations && r.location.value.datasetRef == r.id
        else r.location.None?)
  }

  /** `search_datasets_query` without its projection and limit: the joined
      rows that pass the compiled WHERE clause. */
  function SearchRows(db: Db, exprs: seq<Expr>, fields: seq<Field>): (rows: set<Row>)
    ensures forall r :: r in rows <==>
              Candidate(db, r, JoinsLocations(exprs, fields)) && r.dataset.archived.None? &&
              forall i :: 0 <= i < |exprs| ==> Holds(exprs[i], r)
  {
    var preds := Alchemify(exprs);
    forall r: Row ensures Filter(preds, r) <==> r.dataset.archived.None? && forall i :: 0 <= i < |exprs| ==> Holds(exprs[i], r) {
      FilterMeansAllHold(exprs, r);
    }
    if JoinsLocations(exprs, fields) then
      set id, l | id in db.datasets && l in db.locations && l.datasetRef == id &&
                  Filter(preds, Row(id, db.datasets[id], Some(l))) :: Row(id, db.datasets[id], Some(l))
    else
      set id | id in db.datasets && Filter(preds, Row(id, db.datasets[id], None)) :: Row(id, db.datasets[id], None)
  }

  /** With no expressions and no selected fields a search yields exactly the
      active datasets, one row each. */
  lemma UnfilteredSearchIsAllActive(db: Db)
    ensures forall id :: id in Catalogue.AllDatasetIds(db, false) <==>
              exists r :: r in SearchRows(db, [], []) && r.id == id
  {
    assert !JoinsLocations([], []);
    forall id | id in Catalogue.AllDatasetIds(db, false)
      ensures exists r :: r in SearchRows(db, [], []) && r.id == id
    {
      assert Row(id, db.datasets[id], None) in SearchRows(db, [], []);
    }
  }

  /** One more expression keeps exactly the rows it holds on, as long as it
      does not change whether locations are joined. */
  lemma {:induction false} ExtraExpressionNarrows(db: Db, exprs: seq<Expr>, e: Expr, fields: seq<Field>)
    requires JoinsLocations(exprs + [e], fields) == JoinsLocations(exprs, fields)
    ensures forall r :: r in SearchRows(db, exprs + [e], fields) <==> r in SearchRows(db, exprs, fields) && Holds(e, r)
  {
    var more := exprs + [e];
    assert more[|exprs|] == e;
    assert forall i :: 0 <= i < |exprs| ==> more[i] == exprs[i];
    forall r
      ensures r in SearchRows(db, more, fields) <==> r in SearchRows(db, exprs, fields) && Holds(e, r)
    {
      assert (forall i :: 0 <= i < |more| ==> Holds(more[i], r)) <==>
             (forall i :: 0 <= i < |exprs| ==> Holds(exprs[i], r)) && Holds(e, r);
    }
  }

  /** The rows of `rows` as a sequence without repetition, at most `limit` of
      them when a limit is given. The database returns them in no particular
      order, so which rows are kept is not determined. */
  method Limit(rows: set<Row>, limit: Option<nat>) returns (out: seq<Row>)
    ensures forall r :: r in out ==> r in rows
    ensures forall i, j :: 0 <= i < j < |out| ==> out[i] != out[j]
    ensures |out| == (if limit.Some? && limit.value < |rows| then limit.value else |rows|)
  {
    var cap := if limit.Some? && limit.value < |rows| then limit.value else |rows|;
    var remaining := rows;
    out := [];
    while |out| < cap
      invariant |out| <= cap
      invariant remaining <= rows
      invariant |out| + |remaining| == |rows|
      invariant forall r :: r in out ==> r in rows && r !in remaining
      invariant forall i, j :: 0 <= i < j < |out| ==> out[i] != out[j]
      decreases cap - |out|
    {
      var r :| r in remaining;
      out := out + [r];
      remaining := remaining - {r};
    }
  }

  /** `search_datasets`: lineage-aware searching is rejected; otherwise the
      search rows, limited. */
  method SearchDatasets(db: Db, exprs: seq<Expr>, sourceExprs: Option<seq<Expr>>, fields: seq<Field>,
                        withSourceIds: bool, limit: Option<nat>) returns (r: Result<seq<Row>>)
    ensures r.Err? <==> sourceExprs.Some? || withSourceIds
    ensures r.Err? ==> r.error == NotImplemented
    ensures r.Ok? ==> forall x :: x in r.value ==> x in SearchRows(db, exprs, fields)
    ensures r.Ok? ==> forall i, j :: 0 <= i < j < |r.value| ==> r.value[i] != r.value[j]
    ensures r.Ok? ==> |r.value| == (if limit.Some? && limit.value < |SearchRows(db, exprs, fields)|
                                    then limit.value else |SearchRows(db, exprs, fields)|)
    ensures r.Ok? && (limit.None? || |SearchRows(db, exprs, fields)| <= limit.value) ==>
              forall x :: x in SearchRows(db, exprs, fields) ==> x in r.value
  {
    if sourceExprs.Some? || withSourceIds {
      return Err(NotImplemented);
    }
    var rows := Limit(SearchRows(db, exprs, fields), limit);
    DistinctFullCovers(rows, SearchRows(db, exprs, fields));
    return Ok(rows);
  }

  /** A sequence without repetition drawn from a set and as long as it holds
      every element of the set. */
  lemma DistinctFullCovers<T>(xs: seq<T>, s: set<T>)
    requires forall x :: x in xs ==> x in s
    requires forall i, j :: 0 <= i < j < |xs| ==> xs[i] != xs[j]
    ensures |xs| == |s| ==> forall x :: x in s ==> x in xs
  {
    DistinctCard(xs);
    var e := set x | x in xs;
    assert e <= s;
    if |xs| == |s| && e != s {
      CardinalityMonotone(e, s);
      var y :| y in s && y !in e;
      CardinalityMonotone(e, s - {y});
    }
  }

  /** A sequence without repetition has as many distinct elements as
      positions. */
  lemma {:induction false} DistinctCard<T>(xs: seq<T>)
    requires forall i, j :: 0 <= i < j < |xs| ==> xs[i] != xs[j]
    ensures |set x | x in xs| == |xs|
  {
    if xs != [] {
      var t := xs[1..];
      assert forall i, j :: 0 <= i < j < |t| ==> t[i] != t[j] by {
        forall i, j | 0 <= i < j < |t| ensures t[i] != t[j] {
          assert t[i] == xs[i + 1] && t[j] == xs[j + 1];
        }
      }
      DistinctCard(t);
      assert (set x | x in xs) == (set x | x in t) + {xs[0]};
      assert xs[0] !in t by {
        forall k | 0 <= k < |t| ensures t[k] != xs[0] {
          assert t[k] == xs[k + 1];
        }
      }
    }
  }

  /** `count_datasets`: the number of active datasets passing the compiled
      filter. No table is joined. */
  function CountDatasets(db: Db, exprs: seq<Expr>): (n: nat)
    ensures n <= |db.datasets|
  {
    var preds := Alchemify(exprs);
    var ids := set id | id in db.datasets && Filter(preds, Row(id, db.datasets[id], None));
    assert ids <= db.datasets.Keys;
    CardinalityMonotone(ids, db.datasets.Keys);
    |ids|
  }

  lemma CardinalityMonotone<T>(a: set<T>, b: set<T>)
    requires a <= b
    ensures |a| <= |b|
  {
    assert b == a + (b - a);
  }

  /** When the expressions need no table besides the dataset table, the
      count is the number of rows the same search returns. */
  lemma CountMatchesSearch(db: Db, exprs: seq<Expr>)
    requires JoinTables(DatasetTable, exprs, []) == []
    ensures CountDatasets(db, exprs) == |SearchRows(db, exprs, [])|
  {
    var preds := Alchemify(exprs);
    var ids := set id | id in db.datasets && Filter(preds, Row(id, db.datasets[id], None));
    var rows := SearchRows(db, exprs, []);
    forall r: Row ensures Filter(preds, r) <==> r.dataset.archived.None? && forall i :: 0 <= i < |exprs| ==> Holds(exprs[i], r) {
      FilterMeansAllHold(exprs, r);
    }
    assert rows == set id | id in ids :: Row(id, db.datasets[id], None);
    RowsOfIdsHaveSameSize(db, ids);
  }

  /** Pairing ids with their dataset rows keeps the count. */
  lemma {:induction false} RowsOfIdsHaveSameSize(db: Db, ids: set<Uuid>)
    requires ids <= db.datasets.Keys
    ensures |set id | id in ids :: Row(id, db.datasets[id], None)| == |ids|
    decreases |ids|
  {
    if ids != {} {
      var x :| x in ids;
      var rest := ids - {x};
      RowsOfIdsHaveSameSize(db, rest);
      assert (set id | id in ids :: Row(id, db.datasets[id], None)) ==
             (set id | id in rest :: Row(id, db.datasets[id], None)) + {Row(x, db.datasets[x], None)};
    }
  }

  /** With no expressions the count is the number of active datasets. */
  lemma CountAllIsActiveCount(db: Db)
    ensures CountDatasets(db, []) == |Catalogue.AllDatasetIds(db, false)|
  {
    var ids := set id | id in db.datasets && Filter(Alchemify([]), Row(id, db.datasets[id], None));
    assert ids == Catalogue.AllDatasetIds(db, false);
  }

  // -------------------------------------------------------------- duplicates

  /** The values of the match fields on a row, in field order. */
  function MatchKey(fields: seq<Field>, r: Row): (k: seq<Json>)
    ensures |k| == |fields|
    ensures forall i :: 0 <= i < |fields| ==> k[i] == fields[i].column(r)
  {
    seq(|fields|, i requires 0 <= i < |fields| => fields[i].column(r))
  }

  /** The rows sharing one value of the match fields. */
  function Group(rows: set<Row>, fields: seq<Field>, k: seq<Json>): set<Row> {
    set r | r in rows && MatchKey(fields, r) == k
  }

  /** `get_duplicates`: the search rows (joined as the match fields and the
      expressions need) grouped by the match fields, keeping the groups with
      more than one row. */
  function Duplicates(db: Db, matchFields: seq<Field>, exprs: seq<Expr>): (groups: map<seq<Json>, set<Row>>)
    ensures forall k :: k in groups ==> |groups[k]| > 1
    ensures forall k, r :: k in groups && r in groups[k] ==>
              r in SearchRows(db, exprs, matchFields) && MatchKey(matchFields, r) == k
    ensures forall k, r :: k in groups && r in SearchRows(db, exprs, matchFields) && MatchKey(matchFields, r) == k ==>
              r in groups[k]
    ensures forall r :: r in SearchRows(db, exprs, matchFields) ==>
              (MatchKey(matchFields, r) in groups <==>
               |Group(SearchRows(db, exprs, matchFields), matchFields, MatchKey(matchFields, r))| > 1)
  {
    var rows := SearchRows(db, exprs, matchFields);
    var keys := set r | r in rows :: MatchKey(matchFields, r);
    map k | k in keys && |Group(rows, matchFields, k)| > 1 :: Group(rows, matchFields, k)
  }

  /** A search row is reported in a duplicate group iff another search row
      has the same match-field values. */
  lemma DuplicateIffSharedKey(db: Db, matchFields: seq<Field>, exprs: seq<Expr>, r: Row)
    requires r in SearchRows(db, exprs, matchFields)
    ensures (MatchKey(matchFields, r) in Duplicates(db, matchFields, exprs)) <==>
            exists s :: s in SearchRows(db, exprs, matchFields) && s != r && MatchKey(matchFields, s) == MatchKey(matchFields, r)
  {
    var rows := SearchRows(db, exprs, matchFields);
    var g := Group(rows, matchFields, MatchKey(matchFields, r));
    assert r in g;
    if |g| > 1 {
      assert |g - {r}| == |g| - 1;
      var s :| s in g - {r};
    } else if exists s :: s in rows && s != r && MatchKey(matchFields, s) == MatchKey(matchFields, r) {
      var s :| s in rows && s != r && MatchKey(matchFields, s) == MatchKey(matchFields, r);
      CardinalityMonotone({r, s}, g);
      assert false;
    }
  }

  // -------------------------------------------------------- through time

  /** `generate_series(t, end, p)` for a positive step: t, t+p, ... up to and
      including `end`. */
  function Series(t: int, end: int, p: int): (pts: seq<int>)
    requires p > 0
    ensures t <= end ==> |pts| > 0 && t + (|pts| - 1) * p <= end < t + |pts| * p
    ensures t > end ==> pts == []
    ensures forall i :: 0 <= i < |pts| ==> pts[i] == t + i * p
    decreases if t <= end then end - t + 1 else 0
  {
    if t > end then []
    else
      var rest := Series(t + p, end, p);
      var n := |rest|;
      assert t + p + n * p == t + (n + 1) * p by {
        assert (n + 1) * p == n * p + p;
      }
      assert n > 0 ==> t + p + (n - 1) * p == t + n * p by {
        assert (n - 1) * p == n * p - p;
      }
      assert forall i :: 1 <= i < n + 1 ==> t + p + (i - 1) * p == t + i * p by {
        forall i | 1 <= i < n + 1 ensures t + p + (i - 1) * p == t + i * p {
          assert (i - 1) * p == i * p - p;
        }
      }
      [t] + rest
  }

  /** `tstzrange(start_time, lead(start_time))`: each point paired with the
      next one, the last with no upper bound. */
  function Lead(pts: seq<int>): (ranges: seq<(int, Option<int>)>)
    ensures |ranges| == |pts|
    ensures forall i :: 0 <= i < |pts| ==>
              ranges[i] == (pts[i], if i + 1 < |pts| then Some(pts[i + 1]) else None)
  {
    seq(|pts|, i requires 0 <= i < |pts| => (pts[i], if i + 1 < |pts| then Some(pts[i + 1]) else None))
  }

  /** `WHERE NOT upper_inf(time_period)`: the ranges with an upper bound. */
  function Bounded(ranges: seq<(int, Option<int>)>): (r: seq<Range>)
    ensures |r| <= |ranges|
    ensures forall x :: x in r <==> exists i :: 0 <= i < |ranges| && ranges[i].1.Some? && x == Range(ranges[i].0, ranges[i].1.value)
  {
    if |ranges| == 0 then []
    else
      var rest := Bounded(ranges[1..]);
      assert forall i :: 0 <= i < |ranges| - 1 ==> ranges[1..][i] == ranges[i + 1];
      if ranges[0].1.Some? then [Range(ranges[0].0, ranges[0].1.value)] + rest else rest
  }

  /** Dropping the unbounded range of a lead list keeps every consecutive
      pair, in order. */
  lemma {:induction false} BoundedLead(pts: seq<int>)
    requires |pts| > 0
    ensures Bounded(Lead(pts)) == seq(|pts| - 1, i requires 0 <= i < |pts| - 1 => Range(pts[i], pts[i + 1]))
  {
    if |pts| == 1 {
      assert Lead(pts)[1..] == [];
    } else {
      BoundedLead(pts[1..]);
      assert Lead(pts)[1..] == Lead(pts[1..]);
    }
  }

  /** The time buckets of `count_datasets_through_time_query`: consecutive
      periods of length `p` from `start`, as many as start at or before `end`,
      less the trailing open-ended one. */
  function TimeBuckets(start: int, end: int, p: int): (buckets: seq<Range>)
    requires p > 0
    ensures start > end ==> buckets == []
    ensures start <= end ==> start + |buckets| * p <= end < start + (|buckets| + 1) * p
    ensures forall i :: 0 <= i < |buckets| ==>
              buckets[i] == Range(start + i * p, start + (i + 1) * p)
  {
    var pts := Series(start, end, p);
    if |pts| == 0 then
      assert Bounded(Lead(pts)) == [];
      []
    else
      BoundedLead(pts);
      assert forall i :: 0 <= i < |pts| - 1 ==> start + i * p + p == start + (i + 1) * p by {
        forall i | 0 <= i < |pts| - 1 ensures start + i * p + p == start + (i + 1) * p {
          assert (i + 1) * p == i * p + p;
        }
      }
      Bounded(Lead(pts))
  }

  /** How many whole periods fit into `x`. */
  function Periods(x: nat, p: nat): (q: nat)
    requires p > 0
    ensures q * p <= x < (q + 1) * p
    decreases x
  {
    if x < p then 0
    else
      var q := Periods(x - p, p);
      assert (q + 1) * p == q * p + p && (q + 2) * p == (q + 1) * p + p;
      q + 1
  }

  /** `i` periods from `start` stay before `j` periods for i < j. */
  lemma PeriodsAreOrdered(start: int, p: int, i: int, j: int)
    requires p > 0 && i <= j
    ensures start + i * p <= start + j * p
  {
    assert (j - i) * p >= 0;
    assert (j - i) * p == j * p - i * p;
  }

  /** The buckets are disjoint and in order, and every instant from `start`
      up to the end of the last bucket lies in one of them. */
  lemma BucketsPartition(start: int, end: int, p: int, t: int)
    requires p > 0 && start <= end
    requires start <= t < start + |TimeBuckets(start, end, p)| * p
    ensures exists i :: 0 <= i < |TimeBuckets(start, end, p)| &&
              TimeBuckets(start, end, p)[i].begin <= t < TimeBuckets(start, end, p)[i].end
    ensures forall i, j :: 0 <= i < j < |TimeBuckets(start, end, p)| ==>
              TimeBuckets(start, end, p)[i].end <= TimeBuckets(start, end, p)[j].begin
  {
    var b := TimeBuckets(start, end, p);
    var n := |b|;
    var k := Periods(t - start, p);
    assert k < n by {
      if k >= n { PeriodsAreOrdered(start, p, n, k); }
    }
    assert b[k] == Range(start + k * p, start + (k + 1) * p);
    forall i, j | 0 <= i < j < n ensures b[i].end <= b[j].begin {
      PeriodsAreOrdered(start, p, i + 1, j);
    }
  }

  /** The rows of a search whose time value overlaps a bucket; a row without
      a time value overlaps nothing. */
  function Hits(rows: set<Row>, timeOf: Row -> Option<Range>, bucket: Range): (hits: set<Row>)
    ensures hits <= rows
    ensures forall r :: r in hits <==> r in rows && timeOf(r).Some? && RangeTypeOverlaps(timeOf(r).value, bucket)
  {
    set r | r in rows && timeOf(r).Some? && RangeTypeOverlaps(timeOf(r).value, bucket)
  }

  /** `count_datasets_through_time`: each bucket with the number of search
      rows overlapping it. */
  function CountThroughTime(db: Db, start: int, end: int, p: int, timeOf: Row -> Option<Range>, exprs: seq<Expr>)
    : (counts: seq<(Range, nat)>)
    requires p > 0
    ensures |counts| == |TimeBuckets(start, end, p)|
    ensures forall i :: 0 <= i < |counts| ==>
              counts[i].0 == TimeBuckets(start, end, p)[i] && counts[i].1 <= |SearchRows(db, exprs, [])|
    ensures forall i :: 0 <= i < |counts| ==>
              counts[i].1 == |Hits(SearchRows(db, exprs, []), timeOf, counts[i].0)|
  {
    var buckets := TimeBuckets(start, end, p);
    var rows := SearchRows(db, exprs, []);
    seq(|buckets|, i requires 0 <= i < |buckets| => (buckets[i], BucketCount(rows, timeOf, buckets[i])))
  }

  function BucketCount(rows: set<Row>, timeOf: Row -> Option<Range>, bucket: Range): (n: nat)
    ensures n == |Hits(rows, timeOf, bucket)| && n <= |rows|
  {
    CardinalityMonotone(Hits(rows, timeOf, bucket), rows);
    |Hits(rows, timeOf, bucket)|
  }

  /** A row whose time is a single instant inside the covered span is
      counted in exactly one bucket. */
  lemma InstantCountedOnce(rows: set<Row>, start: int, end: int, p: int, timeOf: Row -> Option<Range>, r: Row, t: int)
    requires p > 0 && start <= end
    requires r in rows && timeOf(r) == Some(Range(t, t + 1))
    requires start <= t < start + |TimeBuckets(start, end, p)| * p
    ensures exists i :: 0 <= i < |TimeBuckets(start, end, p)| && r in Hits(rows, timeOf, TimeBuckets(start, end, p)[i])
    ensures forall i, j :: 0 <= i < j < |TimeBuckets(start, end, p)| ==>
              !(r in Hits(rows, timeOf, TimeBuckets(start, end, p)[i]) && r in Hits(rows, timeOf, TimeBuckets(start, end, p)[j]))
  {
    BucketsPartition(start, end, p, t);
    var b := TimeBuckets(start, end, p);
    assert forall i :: 0 <= i < |b| ==> NonEmpty(b[i]) by {
      forall i | 0 <= i < |b| ensures NonEmpty(b[i]) {
        assert (i + 1) * p == i * p + p;
      }
    }
  }
}

=== FILE: ranges.dfy ===
/** `Range` and `ranges_overlap` of the dataset model: half-open time
    intervals, with instants modelled as integers. */
module Ranges {

  /** The interval [begin, end). */
  datatype Range = Range(begin: int, end: int)

  /** The interval contains at least one instant. */
  predicate NonEmpty(r: Range) {
    r.begin < r.end
  }

  /** Whether two ranges share an instant, decided by looking at the one that
      starts first: it overlaps the other iff it ends after the other starts. */
  function RangesOverlap(ra: Range, rb: Range): (overlap: bool)
    ensures NonEmpty(ra) && NonEmpty(rb) ==>
              (overlap <==> ra.begin < rb.end && rb.begin < ra.end)
    ensures overlap ==> ra.begin < rb.end || rb.begin < ra.end
  {
    if ra.begin <= rb.begin then ra.end > rb.begin else rb.end > ra.begin
  }

  /** For non-empty ranges the argument order does not matter. */
  lemma OverlapIsSymmetric(ra: Range, rb: Range)
    requires NonEmpty(ra) && NonEmpty(rb)
    ensures RangesOverlap(ra, rb) == RangesOverlap(rb, ra)
  {
  }

  /** [x, y) and [y, z) touch but share no instant, in either order. */
  lemma AdjacentRangesDoNotOverlap(x: int, y: int, z: int)
    requires x < y < z
    ensures !RangesOverlap(Range(x, y), Range(y, z))
    ensures !RangesOverlap(Range(y, z), Range(x, y))
  {
  }

  /** A non-empty range overlaps itself. */
  lemma NonEmptyRangeOverlapsItself(r: Range)
    requires NonEmpty(r)
    ensures RangesOverlap(r, r)
  {
  }

  /** The overlap test on the database's range type: an empty range overlaps
      nothing, two non-empty half-open ranges overlap iff each starts before
      the other ends. */
  predicate RangeTypeOverlaps(a: Range, b: Range) {
    NonEmpty(a) && NonEmpty(b) && a.begin < b.end && b.begin < a.end
  }

  /** On non-empty ranges `ranges_overlap` agrees with the database's test,
      so the two may be used interchangeably for histogram buckets. */
  lemma RangesOverlapMatchesRangeType(a: Range, b: Range)
    requires NonEmpty(a) && NonEmpty(b)
    ensures RangesOverlap(a, b) == RangeTypeOverlaps(a, b)
  {
  }

  /** An empty range lying strictly inside another is reported as overlapping
      it by `ranges_overlap`, although the database's range test says no. */
  lemma EmptyRangeInsideIsReportedOverlapping()
    ensures RangesOverlap(Range(0, 10), Range(5, 5))
    ensures !RangeTypeOverlaps(Range(0, 10), Range(5, 5))
  {
  }
}

=== FILE: resources.dfy ===
/** The concrete glue of the abstract index resources: the `get` wrappers
    that turn a missing key into `None`, and product search over the robust
    search. */
module Resources {
  import opened Common

  /** `get`/`get_by_name` around their `_unsafe` counterparts: a KeyError
      becomes `None`, any other error propagates, a value is wrapped. */
  function OrNone<T>(r: Result<T>): (o: Result<Option<T>>)
    ensures o == Ok(None) <==> r == Err(KeyError)
    ensures r.Ok? <==> o.Ok? && o.value.Some?
    ensures r.Ok? ==> o.value.value == r.value
    ensures r.Err? && r.error != KeyError ==> o == Err(r.error)
  {
    match r
    case Ok(v) => Ok(Some(v))
    case Err(e) => if e == KeyError then Ok(None) else Err(e)
  }

  /** The wrapper loses nothing: the unsafe result can be read back from it. */
  lemma OrNoneIsInvertible<T>(r: Result<T>)
    ensures r == match OrNone(r)
                 case Ok(None) => Err(KeyError)
                 case Ok(Some(v)) => Ok(v)
                 case Err(e) => Err(e)
  {
  }

  /** The query terms that a product could not match, by field name. */
  type Unmatched = map<string, Json>

  /** Product `search(**query)`: the products of `search_robust(**query)`,
      in the same order, whose unmatched part is empty. */
  function SearchProducts<P(!new)>(robust: seq<(P, Unmatched)>): (r: seq<P>)
    ensures |r| <= |robust|
    ensures forall p :: p in r <==> exists i :: 0 <= i < |robust| && robust[i].0 == p && |robust[i].1| == 0
  {
    if |robust| == 0 then []
    else
      var rest := SearchProducts(robust[1..]);
      assert forall i :: 1 <= i < |robust| ==> robust[i] == robust[1..][i - 1];
      if |robust[0].1| == 0 then [robust[0].0] + rest else rest
  }

  /** Search keeps the robust order: searching a concatenation is the
      concatenation of the searches. */
  lemma {:induction false} SearchProductsAppend<P(!new)>(a: seq<(P, Unmatched)>, b: seq<(P, Unmatched)>)
    ensures SearchProducts(a + b) == SearchProducts(a) + SearchProducts(b)
    decreases |a|
  {
    if |a| > 0 {
      assert (a + b)[1..] == a[1..] + b;
      SearchProductsAppend(a[1..], b);
    } else {
      assert a + b == b;
    }
  }

  /** When every product matched fully, search returns all of them in order. */
  lemma {:induction false} SearchOfFullMatchesIsAll<P(!new)>(robust: seq<(P, Unmatched)>)
    requires forall i :: 0 <= i < |robust| ==> |robust[i].1| == 0
    ensures SearchProducts(robust) == seq(|robust|, i requires 0 <= i < |robust| => robust[i].0)
    decreases |robust|
  {
    if |robust| > 0 {
      SearchOfFullMatchesIsAll(robust[1..]);
    }
  }
}

=== FILE: schema.dfy ===
/** The tables of the postgis catalogue: metadata types, products, datasets,
    dataset locations and lineage edges, with the keys and constraints the
    schema declares. Instants are integers, identifiers are naturals. */
module Schema {
  import opened Common
  import Uris

  type Uuid = nat
  type Time = int

  /** The tables a query can be joined with. */
  datatype Table = MetadataTypeTable | ProductTable | DatasetTable | LocationTable | LineageTable

  datatype MetadataTypeRow = MetadataTypeRow(name: string, definition: Json, added: Time)

  datatype ProductRow = ProductRow(
    name: string,
    metadata: Json,
    metadataTypeRef: nat,
    definition: Json,
    added: Time)

  /** A dataset row; it is active iff `archived` is null. */
  datatype DatasetRow = DatasetRow(
    metadataTypeRef: nat,
    productRef: nat,
    metadata: Json,
    archived: Option<Time>,
    added: Time)

  /** A location row; `id` is the primary key, (dataset, scheme, body) is
      unique, and the row is active iff `archived` is null. */
  datatype LocationRow = LocationRow(
    id: nat,
    datasetRef: Uuid,
    scheme: string,
    body: string,
    added: Time,
    archived: Option<Time>)

  /** The identity of a location for every mutation. */
  datatype LocationKey = LocationKey(datasetRef: Uuid, scheme: string, body: string)

  function KeyOf(l: LocationRow): LocationKey {
    LocationKey(l.datasetRef, l.scheme, l.body)
  }

  /** The `uri` column property of a location. */
  function UriOf(l: LocationRow): string {
    Uris.JoinUri(l.scheme, l.body)
  }

  /** The `uri` column splits back into the row's scheme and body whenever
      the scheme has no ':'. */
  lemma UriOfSplits(l: LocationRow)
    requires ':' !in l.scheme
    ensures Uris.SplitUri(UriOf(l)) == Ok((l.scheme, l.body))
  {
    Uris.SplitInvertsJoin(l.scheme, l.body);
  }

  /** A lineage edge: `datasetRef` was derived from `sourceRef`. */
  datatype SourceRow = SourceRow(datasetRef: Uuid, classifier: string, sourceRef: Uuid)

  /** The whole catalogue. The `...Seq` counters are the last values handed out
      by the serial sequences behind the integer primary keys. */
  datatype Db = Db(
    metadataTypes: map<nat, MetadataTypeRow>,
    products: map<nat, ProductRow>,
    datasets: map<Uuid, DatasetRow>,
    locations: seq<LocationRow>,
    lineage: set<SourceRow>,
    metadataTypeSeq: nat,
    productSeq: nat,
    locationSeq: nat)

  /** One row of a dataset query: the dataset, and the location it was joined
      with when the query joins the location table. */
  datatype Row = Row(id: Uuid, dataset: DatasetRow, location: Option<LocationRow>)

  /** A character matched by the regular-expression class `\w`. */
  predicate IsWordChar(c: char) {
    ('a' <= c <= 'z') || ('A' <= c <= 'Z') || ('0' <= c <= '9') || c == '_'
  }

  /** The `alphanumeric_name` check: the name matches `^\w+$`. */
  predicate IsWordName(name: string) {
    |name| > 0 && forall i :: 0 <= i < |name| ==> IsWordChar(name[i])
  }

  /** A name that passes the check is non-empty and holds none of the
      separators a uri, a path or a hyphenated name would bring in. */
  lemma WordNameExcludes(name: string)
    ensures IsWordName(name) ==> |name| > 0 && ':' !in name && '/' !in name && '-' !in name && ' ' !in name
    ensures IsWordName("ls8_nbar_scene") && !IsWordName("ls8-nbar") && !IsWordName("")
  {
    if IsWordName(name) {
      forall i | 0 <= i < |name| ensures name[i] !in {':', '/', '-', ' '} {
        assert IsWordChar(name[i]);
      }
    }
    assert !IsWordChar("ls8-nbar"[3]);
  }

  /** Location ids are a primary key and (dataset, scheme, body) is unique. */
  predicate DistinctLocations(locs: seq<LocationRow>) {
    forall i, j :: 0 <= i < j < |locs| ==>
      locs[i].id != locs[j].id && KeyOf(locs[i]) != KeyOf(locs[j])
  }

  /** The lineage primary key (dataset, classifier) and the unique
      (source, dataset) pair. */
  predicate LineageKeysUnique(lineage: set<SourceRow>) {
    forall a, b ::
      (a in lineage && b in lineage && a.datasetRef == b.datasetRef &&
       (a.classifier == b.classifier || a.sourceRef == b.sourceRef)) ==> a == b
  }

  predicate ProductNamesUnique(products: map<nat, ProductRow>) {
    forall p, q :: p in products && q in products && products[p].name == products[q].name ==> p == q
  }

  predicate MetadataTypeNamesUnique(types: map<nat, MetadataTypeRow>) {
    forall p, q :: p in types && q in types && types[p].name == types[q].name ==> p == q
  }

  /** The constraints the schema declares, plus the serial counters being
      ahead of every id they handed out. */
  predicate Valid(db: Db) {
    && DistinctLocations(db.locations)
    && (forall l :: l in db.locations ==>
          l.id <= db.locationSeq && l.datasetRef in db.datasets && ':' !in l.scheme)
    && LineageKeysUnique(db.lineage)
    && (forall id :: id in db.datasets ==>
          db.datasets[id].productRef in db.products &&
          db.datasets[id].metadataTypeRef in db.metadataTypes)
    && (forall p :: p in db.products ==>
          p <= db.productSeq && db.products[p].metadataTypeRef in db.metadataTypes &&
          IsWordName(db.products[p].name))
    && (forall m :: m in db.metadataTypes ==>
          m <= db.metadataTypeSeq && IsWordName(db.metadataTypes[m].name))
    && ProductNamesUnique(db.products)
    && MetadataTypeNamesUnique(db.metadataTypes)
  }

  /** The empty catalogue. */
  const Empty: Db := Db(map[], map[], map[], [], {}, 0, 0, 0)

  lemma EmptyIsValid()
    ensures Valid(Empty)
  {
  }

  /** A dataset or location is active iff its `archived` column is null. */
  predicate IsActiveDataset(d: DatasetRow) {
    d.archived.None?
  }

  predicate IsActiveLocation(l: LocationRow) {
    l.archived.None?
  }
}

=== FILE: uris.dfy ===
/** Location URIs as the postgis driver stores them: a scheme and a body,
    joined by the first ':' (a simplification of the scheme component of
    section 3.1 of RFC 3986), and the choice between exact and prefix lookup. */
module Uris {
  import opened Common

  /** Index of the first occurrence of `c` in `s` at or after `from`, as
      Python's `str.find` reports it (here `None` stands for -1). */
  function FindFrom(s: string, c: char, from: nat): (idx: Option<nat>)
    requires from <= |s|
    ensures idx.Some? ==> from <= idx.value < |s| && s[idx.value] == c
    ensures idx.Some? ==> forall k :: from <= k < idx.value ==> s[k] != c
    ensures idx.None? ==> forall k :: from <= k < |s| ==> s[k] != c
    decreases |s| - from
  {
    if from == |s| then None
    else if s[from] == c then Some(from)
    else FindFrom(s, c, from + 1)
  }

  /** `_split_uri`: the text before the first ':' and the text after it;
      a string without ':' is not a URI. */
  function SplitUri(uri: string): (parts: Result<(string, string)>)
    ensures parts.Ok? <==> ':' in uri
    ensures parts.Err? ==> parts.error == NotAUri
    ensures parts.Ok? ==> ':' !in parts.value.0
    ensures parts.Ok? ==> parts.value.0 + ":" + parts.value.1 == uri
  {
    match FindFrom(uri, ':', 0)
    case None => Err(NotAUri)
    case Some(idx) =>
      assert uri == uri[..idx] + ":" + uri[idx + 1..];
      Ok((uri[..idx], uri[idx + 1..]))
  }

  /** The `uri` column of a location row: scheme, ':' and body. */
  function JoinUri(scheme: string, body: string): string {
    scheme + ":" + body
  }

  /** A scheme without ':' is recovered from the joined URI: the split point
      is fixed by the first ':'. */
  lemma {:induction false} SchemePrefixIsUnique(s1: string, b1: string, s2: string, b2: string)
    requires ':' !in s1 && ':' !in s2
    requires s1 + ":" + b1 == s2 + ":" + b2
    ensures s1 == s2 && b1 == b2
  {
    var u := s1 + ":" + b1;
    assert forall k :: 0 <= k < |s1| ==> u[k] == s1[k];
    assert forall k :: 0 <= k < |s2| ==> u[k] == s2[k];
    assert u[|s1|] == ':' && u[|s2|] == ':';
    assert |s1| == |s2|;
    assert s1 == u[..|s1|] == s2;
    assert b1 == u[|s1| + 1..] == b2;
  }

  /** Splitting inverts joining whenever the scheme has no ':'. */
  lemma SplitInvertsJoin(scheme: string, body: string)
    requires ':' !in scheme
    ensures SplitUri(JoinUri(scheme, body)) == Ok((scheme, body))
  {
    var u := JoinUri(scheme, body);
    assert u[|scheme|] == ':';
    var parts := SplitUri(u);
    SchemePrefixIsUnique(parts.value.0, parts.value.1, scheme, body);
  }

  /** Joining inverts splitting. */
  lemma JoinInvertsSplit(uri: string)
    requires SplitUri(uri).Ok?
    ensures JoinUri(SplitUri(uri).value.0, SplitUri(uri).value.1) == uri
  {
  }

  /** How a location body is compared with the searched body. */
  datatype MatchMode = Exact | Prefix

  /** `get_datasets_for_location` mode choice: without an explicit mode a body
      containing '#' is looked up exactly and any other body as a prefix;
      the names 'exact' and 'prefix' select a mode and any other name fails. */
  function ChooseMatchMode(body: string, mode: Option<string>): (m: Result<MatchMode>)
    ensures mode.None? ==> m.Ok? && (m.value == Exact <==> '#' in body)
    ensures mode.Some? ==> (m.Ok? <==> mode.value in {"exact", "prefix"})
    ensures mode == Some("exact") ==> m == Ok(Exact)
    ensures mode == Some("prefix") ==> m == Ok(Prefix)
    ensures m.Err? ==> m.error == UnsupportedQueryMode(mode.value)
  {
    match mode
    case None => if '#' in body then Ok(Exact) else Ok(Prefix)
    case Some(name) =>
      if name == "exact" then Ok(Exact)
      else if name == "prefix" then Ok(Prefix)
      else Err(UnsupportedQueryMode(name))
  }

  /** Whether a stored body matches the searched body under a mode. */
  predicate BodyMatches(mode: MatchMode, searched: string, stored: string) {
    match mode
    case Exact => stored == searched
    case Prefix => searched <= stored
  }

  /** Comparing bodies under one scheme is comparing whole uris: an exact
      body match is an equal uri, a prefix body match a uri that starts with
      the searched one. */
  lemma BodyMatchesIsUriMatch(scheme: string, searched: string, stored: string)
    ensures BodyMatches(Exact, searched, stored) <==> JoinUri(scheme, searched) == JoinUri(scheme, stored)
    ensures BodyMatches(Prefix, searched, stored) <==> JoinUri(scheme, searched) <= JoinUri(scheme, stored)
  {
    var head := scheme + ":";
    assert JoinUri(scheme, searched) == head + searched && JoinUri(scheme, stored) == head + stored;
    if head + searched == head + stored {
      assert searched == (head + searched)[|head|..] == (head + stored)[|head|..] == stored;
    }
    if head + searched <= head + stored {
      assert searched == (head + searched)[|head|..] == (head + stored)[|head|..|head| + |searched|]
                      == stored[..|searched|];
    }
    if searched <= stored {
      assert head + stored == (head + searched) + stored[|searched|..];
    }
  }

  /** Every exact match is also a prefix match. */
  lemma ExactMatchIsPrefixMatch(searched: string, stored: string)
    requires BodyMatches(Exact, searched, stored)
    ensures BodyMatches(Prefix, searched, stored)
  {
  }
}
